=== FILE: README.md ===
# NutriTrack backend core in Dafny

This project models the core of the NutriTrack backend, an Express/Mongo service for tracking nutrition. It covers:

- **daily logs**: create, list, read, update, look up by day, and the day's nutrition summary compared with the user's target;
- **weight views**: the weight history and the seven-day mean weight;
- **target calculator**: the Mifflin–St Jeor energy and macro targets;
- **product catalog**: create, read, update, delete, lookup by barcode, search, recently used products, and bulk load;
- **recipe book**: create, read, update and delete;
- **request validators** that run before the controllers.

Modelling choices:

- Collections are sequences in natural order, so `findOne` returns the first match.
- Ids are strings.
- Errors are a `Result` whose error names the HTTP status: 400, 403, 404 or 500.
- The time of day is an integer number of milliseconds. The server's local time zone is a fixed offset.

Modules, one per component:

| file | module(s) | models |
|---|---|---|
| `common.dfy` | `Common` | option/result, owner (global or per user), macro arithmetic, `Math.round`, `toFixed(2)` |
| `models.dfy` | `DailyLogModel`, `ProductModel`, `RecipeModel`, `UserModel` | the four Mongoose schemas |
| `calendar.dfy` | `Calendar` | the local-day range `[00:00:00.000, 23:59:59.999]` |
| `seqs.dfy` | `Seqs` | filter, map, first match by key, sort, first-seen de-duplication |
| `objectid.dfy` | `ObjectIds` | the ObjectId pattern, Mongoose's ObjectId cast and `findById` |
| `targets.dfy` | `TargetCalculator` | `calcularObjetivosNutricionales` |
| `dailylogs.dfy` | `DailyLogs` | the daily-log controller except the summary |
| `summary.dfy` | `NutritionSummary` | `getResumenNutricional` |
| `weight.dfy` | `WeightViews` | the weight controller |
| `json.dfy` | `JsonValue` | request bodies as JSON values, property reads, truthiness, Mongoose's number cast |
| `validators.dfy` | `Validators` | the express-validator rule sets |
| `products.dfy` | `ProductCatalog` | the product controller |
| `recipes.dfy` | `RecipeBook` | the recipe controller |

Behaviours of the code that the model makes explicit:

- Creating a daily log is refused, with a 400, only when the user already has a log with exactly the same timestamp. A second log later on the same day is stored; `DailyLogs.SameDaySecondLogAccepted` shows this. A request without `fecha` is refused as soon as the user has any log, because the lookup then has no date condition; `DailyLogs.SecondLogWithoutFechaRefused` shows this.
- The weight views are a chronological history and a mean over the last seven days, counted back from now. There is no grouping by calendar week and no week-over-week comparison.
- For 70 kg, 175 cm, 30 years, male, moderate activity and maintenance, the calculator's formula gives a BMR of 1648.75 kcal and an expenditure of 2555.5625 kcal. These round to 2556 kcal, 160 g protein, 320 g carbohydrate and 71 g fat. `TargetCalculator.WorkedExample` proves this.
- A route id that is not 24 hex digits makes `findById` throw a cast error, which every by-id controller answers with 500.
- The standard validators test an array element by element, so a recipe number given as `[2]`, or as `[]`, passes them. Mongoose cannot cast an array to a number, so the save then fails with 500 and not 400; `RecipeBook.ArrayNumberFailsAfterValidation` shows this.
- The nutrition summary answers 500 to every request, because the target it reads is not a path of the user schema; see Findings.

## Model

| member | source | states |
|---|---|---|
| Common.Round | utils/calculonutricional.js:23-26 | `Math.round` returns the integer within half a unit of its argument, with halves going up |
| Common.Round2 | controllers/weightController.js:44 | `Number(x.toFixed(2))` is a whole number of hundredths within 0.005 of `x`, and is never negative for a non-negative `x` |
| DailyLogModel.NewDailyLog | models/DailyLog.js:9-24 | a new log keeps the given owner, weight and meals; with no `fecha` it is stamped with the current time |
| UserModel.NewUser | models/User.js:3-19 | a newly registered user has no favourites and is inactive, and keeps the given identity and enum fields |
| TargetCalculator.Calcular | utils/calculonutricional.js:1-28 | there is a target exactly when the activity level is one of the five in the table; calories are the expenditure rounded to a whole kcal; protein, carbohydrate and fat are a quarter, a half and a quarter of those calories at 4, 4 and 9 kcal/g, each rounded |
| TargetCalculator.ActividadEnumMatchesTable | utils/calculonutricional.js:10-16 | the activity factors cover exactly the activity values the user schema allows |
| TargetCalculator.TmbSexGap | utils/calculonutricional.js:4-8 | for equal weight, height and age, the male BMR exceeds every other sex's by 166 kcal |
| TargetCalculator.GoalsOrdered | utils/calculonutricional.js:20-21 | losing weight takes 500 kcal off maintenance and gaining muscle adds 300, so the calorie targets are ordered lose ≤ maintain ≤ gain |
| TargetCalculator.OtherGoalIsMaintenance | utils/calculonutricional.js:20-21 | any goal other than the two named ones gives the maintenance target |
| TargetCalculator.CaloriesMonotoneInWeight | utils/calculonutricional.js:4-23 | a heavier user never gets a lower calorie target, all else equal |
| TargetCalculator.MacroEnergyNearTarget | utils/calculonutricional.js:23-26 | the energy of the rounded macros, at 4/4/9 kcal per gram, is within 8.5 kcal of the calorie target |
| TargetCalculator.WorkedExample | utils/calculonutricional.js:1-28 | 70 kg, 175 cm, 30 years, male, moderate, maintain gives BMR 1648.75, expenditure 2555.5625 and target 2556/160/320/71 |
| Calendar.Inicio | controllers/dailyLogController.js:85 | local midnight is at or before the instant, less than a day earlier, and on the same local day |
| Calendar.Fin | controllers/dailyLogController.js:86 | 23:59:59.999 is 86 399 999 ms after local midnight and on the same local day |
| Calendar.InDayIffSameLocalDay | controllers/dailyLogController.js:85-88 | an instant falls in the queried `[inicio, fin]` range exactly when it is on the same local day as the queried instant |
| Calendar.SameDaySameRange | controllers/dailyLogController.js:111-114 | any two instants on the same local day yield the same range |
| Calendar.LateEntryStaysOnItsDay | controllers/dailyLogController.js:111-118 | an entry at 23:30 local time belongs to its own day and not to the next one |
| DailyLogs.ComidasVacias | controllers/dailyLogController.js:7-14 | the generated meal structure has all six slots empty and no items |
| DailyLogs.CreateDailyLog | controllers/dailyLogController.js:17-33 | with a `fecha`, creation fails with 400 exactly when the user already has a log with that exact `fecha`; without one, exactly when the user has any log; otherwise the store gains exactly the new log at the end, stamped `now` when no `fecha` was sent |
| DailyLogs.CreatePreservesValid | controllers/dailyLogController.js:22-28 | creation keeps ids unique and keeps (user, fecha) pairs unique |
| DailyLogs.GetDailyLogById | controllers/dailyLogController.js:47-57 | 500 exactly when the id is not an ObjectId; a missing log and another user's log both give 404; with unique ids, the answer is the caller's log with that id exactly when one exists |
| DailyLogs.UpdateDailyLog | controllers/dailyLogController.js:60-76 | the update fails exactly when the read would, with the same error (500 for a malformed id, 404 otherwise); on success the one log changed is the caller's log with the requested id, given fields replace stored ones, and the id, owner and `fecha` of every log stay the same |
| DailyLogs.UpdatePreservesValid | controllers/dailyLogController.js:67-71 | an update keeps ids unique and (user, fecha) pairs unique |
| DailyLogs.GetDailyLogs | controllers/dailyLogController.js:36-44 | the listing is a permutation of exactly the caller's logs, newest first |
| DailyLogs.FirstOnDay | controllers/dailyLogController.js:88 | `findOne` with the day range finds the first of the user's logs inside the range, and nothing when none is |
| DailyLogs.GetDailyLogByDate | controllers/dailyLogController.js:79-101 | a stored log is returned exactly when the user has one on that local day; otherwise the answer is an unsaved skeleton at local midnight with no weight and six empty slots |
| DailyLogs.SameDaySecondLogAccepted | controllers/dailyLogController.js:22-25 | a second log one millisecond later on the same day is stored, and the day lookup still returns the first |
| DailyLogs.SecondLogWithoutFechaRefused | controllers/dailyLogController.js:20-28 | a first log without `fecha` is stamped `now`; a second one without `fecha` is refused with 400 whatever its time, while one with a different explicit `fecha` is stored |
| NutritionSummary.ProductRefs | controllers/dailyLogController.js:140-143 | there is at most one product reference per item |
| NutritionSummary.RecipeRefs | controllers/dailyLogController.js:145-148 | there is at most one recipe reference per item |
| NutritionSummary.TwoPassEqualsPerItem | controllers/dailyLogController.js:137-189 | summing all product references and then all recipe references equals summing each item's own contribution |
| NutritionSummary.SumPermutation | controllers/dailyLogController.js:137 | the pooled total does not depend on the order of the items or the slot they sit in |
| NutritionSummary.SumAppend | controllers/dailyLogController.js:137 | the total of concatenated item lists is the sum of their totals |
| NutritionSummary.Resumen | controllers/dailyLogController.js:196-202 | the reported target is the user's target, and the difference is target minus consumed, field by field |
| NutritionSummary.GetResumenComoEscrito | controllers/dailyLogController.js:116-131 | as written, the summary succeeds exactly when the target read from the user document is defined, and otherwise answers 500 |
| NutritionSummary.SummaryAlwaysFails | controllers/dailyLogController.js:119-131 | the user schema declares no `objetivosNutricionales`, so every summary request answers 500 |
| NutritionSummary.GetResumenNutricional | controllers/dailyLogController.js:105-209 | the loops over product and recipe references compute the summary that `Resumen` defines |
| NutritionSummary.Accumulate | controllers/dailyLogController.js:168-189 | a running total over references ends at the start value plus the sum of their contributions |
| NutritionSummary.NoLogSummary | controllers/dailyLogController.js:122-134 | with no log on that day, nothing is consumed and the difference is the whole target |
| NutritionSummary.ConsumedRoundedOnce | controllers/dailyLogController.js:192-194 | each reported consumed value is the exact day total rounded once to a whole number |
| NutritionSummary.UnknownItemAddsNothing | controllers/dailyLogController.js:170-187 | an item whose ids are missing or not found adds nothing |
| NutritionSummary.ProductItemScales | controllers/dailyLogController.js:168-177 | a product item adds its per-100 g facts times `cantidad / 100` |
| NutritionSummary.RecipeItemScales | controllers/dailyLogController.js:180-189 | a recipe item adds the whole-recipe facts times `cantidad / pesoFinal` |
| NutritionSummary.BothIdsCountTwice | controllers/dailyLogController.js:140-148 | an item carrying both a product id and a recipe id is counted once as each |
| NutritionSummary.AddItemAddsContribution | controllers/dailyLogController.js:137-189 | adding one item to the day raises the total by exactly that item's contribution |
| NutritionSummary.AddUnknownItemChangesNothing | controllers/dailyLogController.js:161-189 | adding an item that refers to nothing known leaves the total unchanged |
| WeightViews.Ordenados | controllers/weightController.js:8-11 | the query returns a permutation of exactly the user's logs with a weight, ascending by date |
| WeightViews.Historial | controllers/weightController.js:4-22 | the history is a permutation of the date-and-weight points of the user's weighed logs, in chronological order, every point carrying a weight |
| WeightViews.Ventana | controllers/weightController.js:28-35 | the weekly samples are exactly the user's weighed logs dated within seven days of now |
| WeightViews.Media | controllers/weightController.js:25-48 | `diasConDatos` counts the samples; the mean is absent exactly when there are none, and is otherwise a whole number of hundredths within 0.005 of the exact mean |
| WeightViews.GetMediaSemanalPeso | controllers/weightController.js:25-48 | the summing loop computes the answer that `Media` defines |
| WeightViews.MediaBetweenMinAndMax | controllers/weightController.js:41-44 | if every sample lies in `[lo, hi]`, so does the exact mean, and the reported mean lies within 0.005 of that range |
| WeightViews.SumaBounds | controllers/weightController.js:41 | the sum of n weights in `[lo, hi]` lies between n·lo and n·hi |
| WeightViews.NoWeightsNoHistory | controllers/weightController.js:37-39 | a user with no weighed log has an empty history and a mean of `null` over 0 days |
| WeightViews.WeeklyMeanExample | controllers/weightController.js:28-44 | samples of 70 and 71 kg inside the week and 90 kg eight days back give mean 70.5 over 2 days |
| ObjectIds.AllHexIff | middlewares/dailyLogValidator.js:3-5 | the character-by-character check accepts exactly strings made only of hex digits |
| ObjectIds.ObjectIdRejected | middlewares/dailyLogValidator.js:3-5 | any string of a length other than 24, or with a character that is not a hex digit, is refused |
| ObjectIds.CastId | controllers/dailyLogController.js:49 | Mongoose's cast succeeds exactly on a 24-hex string, and yields the canonical lower-case text, which names the same id up to letter case |
| ObjectIds.CastIdIdempotent | controllers/dailyLogController.js:49 | casting an already cast id gives it back |
| ObjectIds.CastIdSameObject | controllers/dailyLogController.js:49 | two valid id texts cast to the same ObjectId exactly when they differ only in the case of their letters |
| ObjectIds.FindById | controllers/productController.js:62 | `findById` fails with a cast error exactly when the id is not an ObjectId, finds nothing exactly when no document has the cast id, and otherwise finds the first document with it |
| ObjectIds.FindStoredId | controllers/recipesController.js:58 | with unique ids, any text that casts to a document's id finds that document |
| Seqs.FindFirst | controllers/dailyLogController.js:49 | the first position whose key matches, and none exactly when no key matches |
| Seqs.MapPermutation | controllers/weightController.js:13-16 | mapping two orderings of the same elements gives two orderings of the same images |
| JsonValue.CastNumber | models/Recipe.js:11-18 | the cast of a `Number` path leaves it unset exactly for a missing value, `null` or `""`, and fails exactly for an array, an object or any other string |
| Validators.DailyLogBodyValid | middlewares/dailyLogValidator.js:23-36 | the rule set accepts a body whose `pesoDelDia`, when present, passes `isFloat({ gt: 0 })` and whose six slots each pass the item check when present; the predicate has no contract of its own, and `Validators.SlotShapes`, `Validators.AcceptedItemsNameProducts` and `Validators.NonPositiveRejected` state what it accepts |
| Validators.ProductBodyValid | middlewares/productValidator.js:4-16 | the rule set accepts a non-empty name, the four macros at least zero and the five extras at least zero when present; no contract of its own, `Validators.MinimalProductAccepted` and `Validators.RenameOnlyUpdateRejected` state what it accepts |
| Validators.RecipeBodyValid | middlewares/recipeValidator.js:3-14 | the rule set accepts a non-empty name, a final weight above zero, the four macros at least zero, the three extras at least zero when present and at least one ingredient; no contract of its own, `Validators.RecipeRejections`, `Validators.ScalarRules` and `RecipeBook.CreatedRecipeIsWeighed` state what it accepts |
| Validators.RegisterBodyValid | middlewares/userValidator.js:3-14 | the registration rules with the e-mail check as a parameter; no contract of its own, `Validators.PlainRegistrationAccepted` and `Validators.RegisterRejections` state what it accepts |
| Validators.PasswordResetBodyValid | middlewares/userValidator.js:25-27 | `newPassword` must have at least six characters; no contract of its own |
| Validators.ScalarRules | middlewares/recipeValidator.js:4-12 | outside arrays, `isFloat` passes exactly a number within the bound, and `notEmpty` exactly anything but `null` and `""`; a missing field fails both |
| Validators.ArraysTestedPerElement | middlewares/recipeValidator.js:4-12 | an array is tested element by element: `[2]`, `[[2]]` and `[]` pass `isFloat({ gt: 0 })` while `[2, 0]` and `[true]` fail; `[]` and `["a"]` pass `notEmpty` while `[""]` and `[null]` fail |
| Validators.CheckMealItems | middlewares/dailyLogValidator.js:7-21 | the loop accepts exactly an array whose every item is an object with a truthy `productId` whose text is 24 hex digits and a positive numeric `cantidad` |
| Validators.IdPatternMatches | middlewares/dailyLogValidator.js:3-5 | the pattern tests the text of its argument: a string passes as it is, a one-element array passes exactly when its element does, and nothing else passes |
| Validators.WrappedIdAccepted | middlewares/dailyLogValidator.js:3-13 | `["<24 hex>"]` is accepted as a product id just like the bare string, while an array of two ids or a number is refused |
| Validators.AcceptedItemsNameProducts | middlewares/dailyLogValidator.js:23-36 | every item in an accepted slot carries a `productId` whose text is a well-formed id (a string, or one wrapped in one-element arrays) and a positive quantity |
| Validators.RecipeOnlyItemRejected | middlewares/dailyLogValidator.js:12-13 | an item that names only a recipe is refused, so validated logs never carry recipe items |
| Validators.SlotShapes | middlewares/dailyLogValidator.js:8 | for every slot, an empty array and an absent slot pass, and any value that is not an array fails |
| Validators.NonPositiveRejected | middlewares/dailyLogValidator.js:14-27 | zero or negative quantities and weights are refused |
| Validators.RenameOnlyUpdateRejected | middlewares/productValidator.js:4-16 | a product body that carries only a name is refused, because the four macros are required |
| Validators.MinimalProductAccepted | middlewares/productValidator.js:4-16 | any non-empty name with four non-negative macros is enough for a product |
| Validators.RecipeRejections | middlewares/recipeValidator.js:5-13 | a zero final weight or an empty ingredient list is refused |
| Validators.RegisterAcceptsUnknownActividad | middlewares/userValidator.js:3-14 | registration accepts an activity level that the user schema's enum does not allow |
| Validators.PlainRegistrationAccepted | middlewares/userValidator.js:3-14 | a body of plain strings and numbers passes registration when names and enum fields are non-empty, the password has six characters or more, weight and height are positive and the age is a positive whole number |
| Validators.RegisterRejections | middlewares/userValidator.js:7-10 | a fractional age, a 5-character password and a zero height are each refused |
| ProductCatalog.Truthy0 | controllers/productController.js:33-37 | `x \|\| undefined` drops a zero as well as a missing value |
| ProductCatalog.CreateProduct | controllers/productController.js:6-46 | creation fails with 500 exactly when another product has the barcode; otherwise it appends one product owned by the caller with the given name, brand, barcode and macros, and each of the five extras is kept only when truthy |
| ProductCatalog.CreatePreservesBarcodesUnique | controllers/productController.js:6-46 | a successful create keeps barcodes unique and never makes a global product |
| ProductCatalog.GetProducts | controllers/productController.js:49-57 | the listing is exactly the global products |
| ProductCatalog.GetProductById | controllers/productController.js:60-73 | 500 exactly when the id is not an ObjectId, 404 exactly when no product has it, 403 exactly when the product belongs to another user; otherwise a global product or one of the caller's, and with unique ids such a product is always found |
| ProductCatalog.GetProductByBarcode | controllers/productController.js:167-185 | 404 exactly when no product visible to the caller has the barcode; otherwise the first such product |
| ProductCatalog.BarcodeLookupUnique | controllers/productController.js:167-185 | with unique barcodes, a visible product is found by its own barcode |
| ProductCatalog.MayModifyIff | controllers/productController.js:85-92 | the guards let through exactly admins and owners, so a global product needs an admin |
| ProductCatalog.UpdateProduct | controllers/productController.js:76-136 | 500 for an id that is not an ObjectId; 404 exactly when the id is unknown; 403 exactly when the caller may not modify or a non-admin asks for `userId: null`; 500 exactly on a barcode clash; otherwise only that product is replaced by its patched version |
| ProductCatalog.ApplyPatch | controllers/productController.js:115-129 | the assignments of `updateProduct` never change the id; `ProductCatalog.PatchFieldByField` states each field |
| ProductCatalog.PatchFieldByField | controllers/productController.js:115-129 | a truthy name or brand replaces the old one and an empty or missing one keeps it; each of the nine numbers and the barcode is replaced exactly when given; the id never changes and the owner changes only when an admin makes the product global |
| ProductCatalog.EmptyPatchIsIdentity | controllers/productController.js:115-126 | a patch that gives nothing, or only empty strings, changes nothing |
| ProductCatalog.OnlyAdminMakesGlobal | controllers/productController.js:111-129 | after an update, any product whose owner changed was made global by an admin |
| ProductCatalog.UpdatePreservesBarcodesUnique | controllers/productController.js:76-136 | a successful update keeps barcodes unique |
| ProductCatalog.DeleteProduct | controllers/productController.js:141-163 | 500 exactly when the id is not an ObjectId, 404 exactly when it is unknown and 403 exactly when the caller may not modify; otherwise the product is removed and the others keep their order |
| ProductCatalog.DeleteRemovesId | controllers/productController.js:158 | with unique ids, after a delete no product has that id and the catalog is one shorter |
| ProductCatalog.GlobalProductsNeedAdmin | controllers/productController.js:85-87 | a non-admin is refused both update and delete of a global product, and an admin may delete it |
| ProductCatalog.SearchScope | controllers/productController.js:199-210 | the base filter: `favoritos=true` wins and names global and own products; otherwise `mis=true` names own products; otherwise only global ones |
| ProductCatalog.Spread | controllers/productController.js:221-224 | in `{...baseFilter, ...nameOrBrandFilter}` the favourites scope, an `$or`, is replaced by the name-or-brand `$or`, so no owner condition is left; the other two scopes survive |
| ProductCatalog.FavouriteIds | controllers/productController.js:229-237 | the favourite ids are those of the user's product favourites, and none when there is no user record |
| ProductCatalog.ProductFavourites | controllers/productController.js:228-245 | the ids taken are exactly those of the user's favourites of type product |
| ProductCatalog.SearchProducts | controllers/productController.js:188-253 | every answer is a catalog product that matches the name-or-brand query; in favourites mode a product is returned exactly when it matches and is one of the user's product favourites, whoever owns it; otherwise exactly when it matches and is in the base filter's scope |
| ProductCatalog.SearchProductsCorregido | controllers/productController.js:201-203 | with the scope kept, every answer is global or the caller's own; in favourites mode exactly the matching visible favourites, otherwise the same answers as written |
| ProductCatalog.SearchesAgreeOutsideFavourites | controllers/productController.js:204-210 | outside favourites mode the search as written and the corrected one give the same answer |
| ProductCatalog.FavouriteSearchLeaksPrivateProduct | controllers/productController.js:221-240 | as written, favourites mode answers another user's private product that the caller has marked as a favourite; the corrected search does not |
| ProductCatalog.FavouritesPrecedence | controllers/productController.js:201-245 | favourites mode overrides `mis`, and a user with no favourites, or no user record, gets nothing |
| ProductCatalog.RecipeFavouritesIgnored | controllers/productController.js:233-240 | recipe favourites never select a product |
| ProductCatalog.Take | controllers/productController.js:260-276 | a limit keeps a prefix of at most n elements, and everything when the list is shorter |
| ProductCatalog.AllItems | controllers/productController.js:264-273 | every item of every scanned log is visited |
| ProductCatalog.ProductIdsOf | controllers/productController.js:266-270 | an item without `productId` makes the scan throw (500); otherwise each item yields its product id |
| ProductCatalog.ProductosRecientes | controllers/productController.js:255-289 | fails exactly when the scan throws; otherwise `recientes` is exactly the catalog products among the recent ids, and `restantes` is exactly the other products visible to the caller |
| ProductCatalog.RecentIdsShape | controllers/productController.js:264-283 | the recent ids are at most twenty and distinct, and the two lists never share a product |
| ProductCatalog.RecentIdsFirstSeenOrder | controllers/productController.js:264-276 | recent ids keep the order of first use, scanning the newest log first |
| ProductCatalog.GetProductosRecientes | controllers/productController.js:255-289 | the first-seen loop computes the answer that `ProductosRecientes` defines |
| ProductCatalog.RecentListNotScoped | controllers/productController.js:277 | a product owned by another user that appears in the caller's logs is listed among `recientes` even though the caller cannot read it |
| ProductCatalog.OneLogRecentIds | controllers/productController.js:260-276 | one log with one product item gives exactly that product id |
| ProductCatalog.Registro | controllers/productController.js:299-313 | each bulk record is owned by the caller, copies the name and the four macros as given (missing stays missing), takes the brand when truthy and `""` otherwise, and each of the five extras when truthy and `null` otherwise |
| ProductCatalog.BarcodeAsWritten | controllers/productController.js:302 | the barcode field is always present: the input's barcode when truthy and `null` otherwise |
| ProductCatalog.BarcodeCorrected | models/Producto.js:6 | the barcode field is left out exactly when the input's barcode is falsy |
| ProductCatalog.MapeoMasivo | controllers/productController.js:290-313 | a body that is not an array gives 400; a `null` element makes the mapping throw (500); otherwise there is one record per element, in order, with the barcode `p.codigoBarras \|\| null` |
| ProductCatalog.MapeoMasivoCorregido | controllers/productController.js:290-313 | the same mapping with a falsy barcode left out |
| ProductCatalog.BulkRecordsOwnedAndDefaulted | controllers/productController.js:299-313 | under the mapping as written and under the corrected one, every record belongs to the caller, a zero extra becomes `null` and a missing brand becomes `""`; a falsy barcode is `null` as written and absent when corrected |
| ProductCatalog.BarcodelessPairRefused | controllers/productController.js:299-315 | as written, any two elements without a truthy barcode make the whole bulk load answer 500 |
| ProductCatalog.NullBarcodesCollide | controllers/productController.js:302 | as written, two complete products without a barcode both store `codigoBarras: null`, clash in the unique index and fail the whole load with 500; the corrected load stores both |
| ProductCatalog.SinCodigoAccepted | models/Producto.js:3-19 | a complete product without a barcode passes the schema under either mapping; as written it carries `null`, corrected it carries no barcode |
| ProductCatalog.AsWrittenAtMostOneBarcodeless | controllers/productController.js:299-315 | as written, a successful load had at most one element without a truthy barcode, and then no `null` key was indexed yet |
| ProductCatalog.BarcodelessRecordsNeverCollide | models/Producto.js:6 | with a falsy barcode left out, a batch the schema accepts is stored whenever its given barcodes are distinct and not yet indexed |
| ProductCatalog.CargarProductosMasivos | controllers/productController.js:290-321 | 400 exactly when the body is not an array; 500 for a `null` element; otherwise success exactly when every as-written record passes the schema's type and required-field checks and the barcode index takes the batch, and then every stored record is the caller's and carries a barcode field |
| ProductCatalog.SchemaAccepts | models/Producto.js:3-19 | a record passes the product schema when the name casts to non-empty text (a string, number or boolean), brand and barcode cast to text when present (an array or object does not), the four macros cast to numbers and are set, and the other numbers cast when present; no contract of its own, `ProductCatalog.InsertMany` and `ProductCatalog.CargarProductosMasivos` use it |
| ProductCatalog.IndexAccepts | models/Producto.js:6 | the unique sparse barcode index takes a batch when no record carrying the field, `null` included, repeats an indexed key or another record's key; records without the field are not indexed; no contract of its own, `ProductCatalog.BarcodelessPairRefused` shows it refusing |
| ProductCatalog.InsertMany | controllers/productController.js:315 | `insertMany` stores the batch exactly when every record passes the schema and the barcode index takes it; any refusal is a 500 |
| ProductCatalog.CargarProductosMasivosCorregido | models/Producto.js:6 | with a falsy barcode left out: the same outcomes, and each stored record lacks a barcode exactly when its input had no truthy one |
| RecipeBook.NumberField | models/Recipe.js:11-15 | a required number casts exactly from a JSON number, kept as it is, or a boolean, read as 1 or 0; absence, `null`, `""`, other strings, arrays and objects fail |
| RecipeBook.CastIngredient | models/Recipe.js:3-6 | an ingredient casts exactly when its `productId` is a 24-hex string and its `cantidad` a number or a boolean; the stored id is the canonical lower-case form of the given one, and the quantity is the cast one |
| RecipeBook.CastRecipe | controllers/recipesController.js:21-35 | `new Recipe({...})` and its save: the record keeps the given id and owner, the body's non-empty string name, its five required numbers and three optional ones as cast, and its ingredient list as cast (empty when the field is missing); the cast fails exactly when the name is missing, empty or not a string, the ingredients are not an array or do not all cast, a required number does not cast to a number, or an optional one does not cast |
| RecipeBook.CastIngredients | models/Recipe.js:10 | the list casts exactly when every element does, element by element |
| RecipeBook.CreateRecipe | controllers/recipesController.js:4-40 | 400 exactly when the validator refuses the body, arrays being tested element by element; otherwise either the save fails (500) or one recipe owned by the caller is appended, the others untouched, whose name is the body's `nombre`, whose weight and four macros are the body's numbers as cast, whose three optional numbers are the body's as cast (unset for a missing, `null` or `""` value), and whose ingredients are the body's list, cast element by element |
| RecipeBook.CreatedRecipeIsWeighed | middlewares/recipeValidator.js:3-14 | every created recipe has a positive final weight, non-negative macros and at least one ingredient |
| RecipeBook.ValidBodyIsStored | controllers/recipesController.js:4-40 | a validated body with a string name, castable ingredients and no array in a number field is stored |
| RecipeBook.ArrayNumberFailsAfterValidation | controllers/recipesController.js:4-40 | a validated body with an array in any number field fails the save with 500 |
| RecipeBook.ArrayWeightExample | middlewares/recipeValidator.js:5 | a body whose final weight is `[2]` and which is otherwise complete passes the validator and fails with 500 |
| RecipeBook.GetRecipes | controllers/recipesController.js:43-53 | the listing is exactly the global recipes and the caller's own |
| RecipeBook.GetRecipeById | controllers/recipesController.js:56-69 | 500 exactly when the id is not an ObjectId, 404 exactly when absent and 403 exactly when another user owns it; otherwise the recipe is visible |
| RecipeBook.ReadableIffListed | controllers/recipesController.js:43-69 | with unique ids, a recipe can be read through any text of its id exactly when it appears in the caller's listing |
| RecipeBook.ApplyRecipePatch | controllers/recipesController.js:94-103 | a patch never changes the id or the owner |
| RecipeBook.UpdateRecipe | controllers/recipesController.js:72-110 | the update fails exactly when the read would, with the same error (500, 404 or 403); otherwise only that recipe is replaced by its patched version |
| RecipeBook.RecipePatchFieldByField | controllers/recipesController.js:94-103 | a non-empty name replaces the old one and an empty or missing one keeps it; the ingredient list, the final weight and each of the seven numbers are replaced exactly when given; the id and the owner never change |
| RecipeBook.NombrePatch | controllers/recipesController.js:94 | a truthy name is assigned, and must be a string; a falsy one leaves the name alone |
| RecipeBook.IngredientesPatch | controllers/recipesController.js:95 | a truthy ingredient list is assigned, and must be an array whose every element casts; a falsy one leaves the list alone |
| RecipeBook.RecipePatchOf | controllers/recipesController.js:94-103 | the body casts to a patch exactly when its name, its ingredients and each number it carries cast; each required number is set exactly when the body carries it, to its cast value, and each optional one likewise, where `null` or `""` unset it |
| RecipeBook.UpdateRecipeRequest | routes/recipesRoutes.js:17-18 | 400 exactly when the validator refuses the body, arrays being tested element by element; for a validated body, the read's error when the read fails: 500 for a malformed id, 404 for an unknown one, 403 for another user's recipe; on success the body casts to a patch and the store is the one `updateRecipe` makes with it |
| RecipeBook.ValidatedUpdateKeepsWeighed | middlewares/recipeValidator.js:3-14 | every recipe changed by a validated update has a positive final weight and at least one ingredient, carries the body's weight and calories, and keeps its owner |
| RecipeBook.DeleteRecipe | controllers/recipesController.js:113-127 | the delete fails exactly when the read would, with the same error; otherwise the recipe is removed |
| RecipeBook.AnyUserMayChangeGlobalRecipes | controllers/recipesController.js:118-120 | any user may update or delete a global recipe, and nobody may touch another user's recipe |

## Left out

- I/O, the HTTP layer, JWT authentication, password hashing, e-mail, Google sign-in and the user controller are not modelled. The caller's id and admin flag are parameters, and the caller's id is taken to be a valid ObjectId.
- Clocks are parameters: `now` and the local time-zone offset. Daylight-saving changes are not modelled; the offset is fixed.
- The `fecha` query of the by-date lookup and the summary (controllers/dailyLogController.js:83, 109), and the body `fecha` of a new log (controllers/dailyLogController.js:20-22), are taken as instants. `new Date` reads a date-only string such as `2025-05-01` as UTC midnight. An unparseable query `fecha` gives an invalid date that makes the query fail with 500, and an unparseable body `fecha` fails the cast of the lookup and the save with 500; neither parse is modelled.
- Numbers are exact reals, so IEEE-754 rounding is not modelled. `NaN` from an unknown activity level becomes `None`.
- Numeric strings, which express-validator's `isFloat` and Mongoose's casting accept, are not modelled: the validators read numbers only from JSON numbers, and `JsonValue.CastNumber` casts only numbers, booleans, `null` and `""`. A non-string recipe name, which Mongoose would turn into text, is modelled as a failed cast. An object carrying `_id`, which Mongoose casts through that field, is modelled as a failed cast.
- Validators.MinLength: express-validator measures the text of any value, so a numeric password such as `1234567`, an object (`"[object Object]"`) or an array of several strings passes; the model measures only strings, directly or inside one-element arrays.
- Validators.IntGt0: a whole JSON number of 10^21 or more prints with an exponent, which `isInt` refuses; the model accepts it.
- `Promise.all` parallelism is modelled as sequential reads.
- NutritionSummary.GetResumenNutricional: as written the endpoint answers 500 to every request. It reads `user.objetivosNutricionales` (controllers/dailyLogController.js:126-131, 196-201), which models/User.js:3-19 does not declare, so the read is `undefined` for every user and reading `.calorias` on it throws. `NutritionSummary.GetResumenComoEscrito` and `NutritionSummary.SummaryAlwaysFails` model this; `Resumen` and `GetResumenNutricional` model the intended computation, with the user's target as a parameter.
- ProductCatalog.ProductosRecientes, ProductCatalog.AllItems: the model takes `for (const key in comidas)` (controllers/productController.js:266-267) to visit exactly the six slots of models/DailyLog.js:14-22, in declaration order. `comidas` is a Mongoose nested path; whether `for…in` on it also visits other enumerable keys is not modelled. Any such key would make `comidas[key].forEach` throw, and the answer would be 500.
- Search matching (accent stripping and the case-insensitive regular expression) is the `coincide` parameter.
- ProductCatalog.SearchProducts: a query that is not a valid regular expression makes `new RegExp` throw (controllers/productController.js:196), which is a 500; the model has no such error.
- ObjectIds.CastId: follows current BSON releases, which cast only 24 hex digits. Older releases also cast any 12-character string as 12 raw bytes. Every by-id lookup goes through `ObjectIds.FindById`, so DailyLogs.GetDailyLogById, DailyLogs.UpdateDailyLog, ProductCatalog.GetProductById, ProductCatalog.UpdateProduct, ProductCatalog.DeleteProduct, RecipeBook.GetRecipeById, RecipeBook.UpdateRecipe and RecipeBook.DeleteRecipe answer 500 for such an id where an older release would look it up, and RecipeBook.CastIngredient refuses such a product id.
- RecipeBook.CastRecipe, RecipeBook.NombrePatch: a recipe name given as a number or a boolean, which Mongoose turns into text, is modelled as a failed cast.
- RecipeBook.CastIngredient: Mongoose also casts a `productId` that is not a string but whose text is an id, such as a one-element array or an object carrying `_id`; the model refuses it.
- ProductCatalog.CreateProduct: an explicit `codigoBarras: null` in the body is stored as `null` and indexed, so a second such create clashes; the model's barcode is present or absent and does not express this.
- ProductCatalog.UpdateProduct: takes a typed patch, because the route validator makes name and macros mandatory. An explicit `codigoBarras: null` is modelled as removing the barcode, and its participation in the sparse index is not modelled.
- ProductCatalog.CargarProductosMasivos: a `Number` path given a string other than `""` is treated as a failed cast, although Mongoose casts numeric strings. A batch that `insertMany` refuses on a duplicate key is modelled as storing nothing, where an ordered insert keeps the records before the clash. Barcodes are compared as JSON values, before their cast to text.
- Reachability of the endpoints is not modelled: server.js:22-24 mounts only the user routes under `/api/users`, and no file requires the product, daily-log, recipe or weight routers, so none of the product, daily-log, recipe, summary or weight endpoints modelled here is mounted by the server as written. routes/recipesRoutes.js:8 also requires `../controllers/recipeController`, a file that does not exist.
- NutritionSummary.Resumen: recipes in the lookup map must have a positive `pesoFinal`. The controller divides without a guard; the recipe validator supplies the guarantee on every create and update.
- DailyLogs.CreateDailyLog: requires a fresh id, as Mongo generates one.
- DailyLogs.CreateDailyLog, DailyLogs.UpdateDailyLog, ProductCatalog.CreateProduct and ProductCatalog.UpdateProduct take typed values. A `pesoDelDia` or product number given as an array of numbers passes the validator element by element and then fails Mongoose's cast with 500; these members do not express that path. The recipe members do.

## Findings

| source | as written | input that shows it | evidently intended | confidence | as-written member | corrected member |
|---|---|---|---|---|---|---|
| controllers/productController.js:302 | `codigoBarras: p.codigoBarras \|\| null` stores an explicit `null`, and the unique sparse index on `codigoBarras` (models/Producto.js:6) indexes `null`, so the whole `insertMany` fails with 500 | a bulk body `[{"nombre":"a","calorias":100,"proteinas":1,"carbohidratos":2,"grasas":3},{"nombre":"b","calorias":100,"proteinas":1,"carbohidratos":2,"grasas":3}]` on a catalog without a `null` barcode | complete products without a barcode can be bulk-loaded together, as a sparse index allows | not executed | ProductCatalog.NullBarcodesCollide | ProductCatalog.CargarProductosMasivosCorregido |
| controllers/dailyLogController.js:119-131 | the target is read as `user.objetivosNutricionales`, a path models/User.js:3-19 does not declare, so it is `undefined` and reading `.calorias` on it throws, at line 128 without a log and at line 198 with one; the `catch` answers 500 | any `GET` of the summary, with or without a log on that day | the summary compares the day with a stored target, as its reads at controllers/dailyLogController.js:126-131 and :196-202 show; utils/calculonutricional.js computes such a target, but its only caller, controllers/googleAuthController.js:68, is commented out | not executed | NutritionSummary.SummaryAlwaysFails | NutritionSummary.Resumen |
| controllers/productController.js:221-224 | `{...baseFilter, ...nameOrBrandFilter}`: both objects have an `$or` key, so in favourites mode the scope `$or` of line 203 is overwritten and no owner condition remains | `favoritos=true` from user A, whose favourites list holds product `p`, a private product of user B whose name matches the query: `p` is returned | favourites mode searches global and own products only, as the comment at line 202 says | not executed | ProductCatalog.FavouriteSearchLeaksPrivateProduct | ProductCatalog.SearchProductsCorregido |

=== FILE: calendar.dfy ===
/** Day boundaries. Instants are milliseconds since the epoch; the server's
    local time is UTC shifted by a fixed `offset` in milliseconds (daylight
    saving changes are not modelled). `setHours(0, 0, 0, 0)` and
    `setHours(23, 59, 59, 999)` on a date pick the first and last
    millisecond of its local calendar day. */
module Calendar {

  const DayMs: int := 86_400_000

  /** The local calendar day of an instant, as a day number. */
  function LocalDay(t: int, offset: int): int {
    (t + offset) / DayMs
  }

  /** Local midnight of the day that contains `t`. */
  function Inicio(t: int, offset: int): (r: int)
    ensures r <= t < r + DayMs
    ensures LocalDay(r, offset) == LocalDay(t, offset)
  {
    var a := t + offset;
    DivUnique(a - a % DayMs, a / DayMs);
    a - a % DayMs - offset
  }

  /** 23:59:59.999 local time on the day that contains `t`. */
  function Fin(t: int, offset: int): (r: int)
    ensures r == Inicio(t, offset) + 86_399_999
    ensures LocalDay(r, offset) == LocalDay(t, offset)
  {
    var a := t + offset;
    DivUnique(a - a % DayMs + DayMs - 1, a / DayMs);
    Inicio(t, offset) + DayMs - 1
  }

  /** The query range `{ $gte: inicio, $lte: fin }` for the day of `t`. */
  predicate InDay(x: int, t: int, offset: int) {
    Inicio(t, offset) <= x <= Fin(t, offset)
  }

  /** Euclidean division is determined by the interval its argument falls in. */
  lemma DivUnique(a: int, k: int)
    requires DayMs * k <= a < DayMs * k + DayMs
    ensures a / DayMs == k
  {
    var q := a / DayMs;
    assert a == DayMs * q + a % DayMs;
  }

  /** An instant lies in the queried range exactly when it falls on the same
      local calendar day as the query date. */
  lemma InDayIffSameLocalDay(x: int, t: int, offset: int)
    ensures InDay(x, t, offset) <==> LocalDay(x, offset) == LocalDay(t, offset)
  {
    var k := LocalDay(t, offset);
    var s := Inicio(t, offset);
    assert s + offset == DayMs * k;
    if InDay(x, t, offset) {
      DivUnique(x + offset, k);
    } else {
      var q := LocalDay(x, offset);
      var b := x + offset;
      assert b == DayMs * q + b % DayMs;
    }
  }

  /** Every instant of a day has the same range, so the day's query does not
      depend on the time of day of the date it was asked with. */
  lemma SameDaySameRange(t1: int, t2: int, offset: int)
    requires LocalDay(t1, offset) == LocalDay(t2, offset)
    ensures Inicio(t1, offset) == Inicio(t2, offset)
    ensures Fin(t1, offset) == Fin(t2, offset)
  {
    InDayIffSameLocalDay(Inicio(t2, offset), t1, offset);
    InDayIffSameLocalDay(Inicio(t1, offset), t2, offset);
  }

  /** An entry stamped 23:30 local time on some day is found by that day's
      query and not by the next day's. */
  lemma LateEntryStaysOnItsDay(day: int, offset: int)
    ensures var midnight := Inicio(day, offset);
      var late := midnight + 23 * 3_600_000 + 30 * 60_000;
      InDay(late, day, offset) && !InDay(late, midnight + DayMs, offset)
  {
    var midnight := Inicio(day, offset);
    var late := midnight + 23 * 3_600_000 + 30 * 60_000;
    InDayIffSameLocalDay(late, day, offset);
    InDayIffSameLocalDay(late, midnight + DayMs, offset);
    var k := LocalDay(day, offset);
    assert midnight + offset == DayMs * k;
    DivUnique(midnight + DayMs + offset, k + 1);
    DivUnique(late + offset, k);
  }
}

=== FILE: common.dfy ===
/** Shared vocabulary: optional values, controller outcomes and the two
    rounding functions of JavaScript that the controllers rely on. */
module Common {

  /** A value that may be missing (`undefined` or `null` in the source). */
  datatype Option<+T> = None | Some(value: T) {
    function GetOr(default: T): T {
      match this
      case Some(v) => v
      case None => default
    }
  }

  /** The error outcomes the controllers distinguish; the HTTP status each
      one is answered with is given beside it. */
  datatype Error =
    | BadRequest   // 400
    | Forbidden    // 403
    | NotFound     // 404
    | ServerError  // 500: an exception caught by the controller

  datatype Result<+T> = Ok(value: T) | Err(error: Error)

  /** Identifiers (Mongo ObjectIds) are compared by their text. */
  type Id = string

  /** Who a catalog entry (product or recipe) belongs to: a stored `userId`
      of `null` makes it global, shared by every user. */
  datatype Owner = Global | OwnedBy(user: Id)
  {
    /** Global entries and the caller's own: the `$or: [{ userId: null },
        { userId }]` condition. */
    predicate VisibleTo(caller: Id) {
      this == Global || this == OwnedBy(caller)
    }
  }

  /** `if (v !== undefined) field = v`: the field takes the request's value
      when one was sent and keeps its own otherwise. */
  ghost predicate AssignedIfGiven<T>(given: Option<T>, before: T, after: T) {
    if given.Some? then after == given.value else after == before
  }

  /** The four tracked nutrients: kcal and grams of protein, carbohydrate
      and fat. Used for per-100 g facts, whole-recipe facts, daily targets
      and consumed totals. */
  datatype Macros = Macros(calorias: real, proteinas: real, carbohidratos: real, grasas: real)
  {
    function Plus(o: Macros): Macros {
      Macros(calorias + o.calorias, proteinas + o.proteinas,
             carbohidratos + o.carbohidratos, grasas + o.grasas)
    }

    function Minus(o: Macros): Macros {
      Macros(calorias - o.calorias, proteinas - o.proteinas,
             carbohidratos - o.carbohidratos, grasas - o.grasas)
    }

    function Times(k: real): Macros {
      Macros(calorias * k, proteinas * k, carbohidratos * k, grasas * k)
    }

    /** Each field rounded on its own with `Math.round`. */
    function Rounded(): Macros {
      Macros(Round(calorias) as real, Round(proteinas) as real,
             Round(carbohidratos) as real, Round(grasas) as real)
    }
  }

  const Zero: Macros := Macros(0.0, 0.0, 0.0, 0.0)

  /** `Math.round`: the nearest integer, halves rounded up (towards +∞),
      also for negative inputs. */
  function Round(x: real): (r: int)
    ensures r as real - 1.0 / 2.0 <= x < r as real + 1.0 / 2.0
  {
    (x + 1.0 / 2.0).Floor
  }

  /** `Number(x.toFixed(2))`: the nearest hundredth, a tie going to the
      larger magnitude (toFixed rounds |x| and then restores the sign). */
  function Round2(x: real): (r: real)
    ensures -1.0 / 200.0 <= r - x <= 1.0 / 200.0
    ensures x >= 0.0 ==> r >= 0.0
    ensures (r * 100.0).Floor as real == r * 100.0
  {
    if x >= 0.0 then RoundHundredths(x)
    else
      var m := RoundHundredths(-x);
      WholeNegated(m * 100.0);
      assert (-m) * 100.0 == -(m * 100.0);
      -m
  }

  /** A magnitude rounded to hundredths, halves going up. */
  function RoundHundredths(y: real): (r: real)
    requires y >= 0.0
    ensures -1.0 / 200.0 <= r - y <= 1.0 / 200.0
    ensures r >= 0.0
    ensures (r * 100.0).Floor as real == r * 100.0
  {
    var k := Round(y * 100.0);
    Hundredths(k, y);
    var r := k as real / 100.0;
    assert r * 100.0 == k as real;
    r
  }

  /** The negation of a whole number is whole. */
  lemma WholeNegated(a: real)
    requires a.Floor as real == a
    ensures (-a).Floor as real == -a
  {
    var k := a.Floor;
    assert -a == (-k) as real;
  }

  /** An integer number of hundredths within half a unit of `100 * y` is
      within half a hundredth of `y`. */
  lemma Hundredths(k: int, y: real)
    requires k as real - 1.0 / 2.0 <= y * 100.0 < k as real + 1.0 / 2.0
    ensures -1.0 / 200.0 <= k as real / 100.0 - y <= 1.0 / 200.0
    ensures k as real / 100.0 * 100.0 == k as real
    ensures y >= 0.0 ==> k >= 0
  {
  }

  /** Rounding is monotone, so rounding cannot reorder two values. */
  lemma RoundMonotone(x: real, y: real)
    requires x <= y
    ensures Round(x) <= Round(y)
  {
  }
}

=== FILE: dailylogs.dfy ===
/** The daily-log store operations: create, read by id, partial update, the
    newest-first listing and the by-date lookup with its unsaved default.
    The store is the collection in insertion order; `findOne` returns the
    first match. */
module DailyLogs {
  import opened Common
  import opened DailyLogModel
  import Calendar
  import Seqs
  import opened ObjectIds

  type Store = seq<DailyLog>

  /** The six slots, all empty. */
  function ComidasVacias(): (c: Comidas)
    ensures forall s: Slot :: c.Get(s) == []
    ensures c.Items() == []
  {
    Comidas([], [], [], [], [], [])
  }

  /** The log's `_id`, the key of `findById`. */
  function LogId(l: DailyLog): Id {
    l.id
  }

  /** No two stored logs share both owner and timestamp: the property the
      duplicate check on create maintains. */
  ghost predicate NoExactDuplicates(store: Store) {
    forall i, j :: 0 <= i < j < |store| ==>
      !(store[i].userId == store[j].userId && store[i].fecha == store[j].fecha)
  }

  ghost predicate Valid(store: Store) {
    Seqs.KeysUnique(store, LogId) && NoExactDuplicates(store)
  }

  /** The duplicate lookup `findOne({ userId, fecha })`. With a `fecha` it
      matches that exact instant, not the day. Without one the key is
      `undefined`, which Mongoose leaves out of the filter, so any log of
      the caller matches. */
  predicate DuplicateOf(l: DailyLog, userId: Id, fecha: Option<int>) {
    l.userId == userId && (fecha.None? || l.fecha == fecha.value)
  }

  /** `createDailyLog`: refused with 400, store untouched, when the lookup
      finds a log; otherwise the new log is appended, stamped `now` when the
      body carries no `fecha`. `newId` is the id the database assigns. */
  function CreateDailyLog(store: Store, newId: Id, userId: Id, fecha: Option<int>, now: int,
                          pesoDelDia: Option<real>, comidas: Comidas): (r: Result<Store>)
    requires forall i :: 0 <= i < |store| ==> store[i].id != newId
    ensures fecha.Some? ==>
      (r.Err? <==> exists i :: 0 <= i < |store| && store[i].userId == userId && store[i].fecha == fecha.value)
    ensures fecha.None? ==> (r.Err? <==> exists i :: 0 <= i < |store| && store[i].userId == userId)
    ensures r.Err? ==> r.error == BadRequest
    ensures r.Ok? ==> |r.value| == |store| + 1 && r.value[..|store|] == store
    ensures r.Ok? && fecha.Some? ==> r.value[|store|] == DailyLog(newId, userId, fecha.value, pesoDelDia, comidas)
    ensures r.Ok? && fecha.None? ==> r.value[|store|] == DailyLog(newId, userId, now, pesoDelDia, comidas)
  {
    if exists i :: 0 <= i < |store| && DuplicateOf(store[i], userId, fecha) then
      Err(BadRequest)
    else
      Ok(store + [NewDailyLog(newId, userId, fecha, now, pesoDelDia, comidas)])
  }

  /** `getDailyLogById`: 500 when the id does not cast to an ObjectId; 404
      unless the log exists and belongs to the caller. */
  function GetDailyLogById(store: Store, id: string, caller: Id): (r: Result<DailyLog>)
    ensures r == Err(ServerError) <==> !IsValidObjectId(id)
    ensures r.Err? ==> r.error == NotFound || r.error == ServerError
    ensures r.Ok? ==> r.value in store && Some(r.value.id) == CastId(id) && r.value.userId == caller
    ensures Seqs.KeysUnique(store, LogId) ==>
      (r.Ok? <==> IsValidObjectId(id) &&
                  exists i :: 0 <= i < |store| && store[i].id == CastId(id).value && store[i].userId == caller)
  {
    match FindById(store, LogId, id)
    case BadId => Err(ServerError)
    case NoMatch => Err(NotFound)
    case At(k) => if store[k].userId != caller then Err(NotFound) else Ok(store[k])
  }

  /** `updateDailyLog`: the same lookup and guard, then an owner-only partial
      update. `pesoDelDia` is replaced when the request carries it (an inner
      `None` is an explicit `null`), `comidas` is replaced wholesale when
      carried; nothing else changes. */
  function UpdateDailyLog(store: Store, id: string, caller: Id,
                          pesoDelDia: Option<Option<real>>, comidas: Option<Comidas>): (r: Result<Store>)
    ensures r.Err? <==> GetDailyLogById(store, id, caller).Err?
    ensures r.Err? ==> r == Err(GetDailyLogById(store, id, caller).error)
    ensures r.Ok? ==> |r.value| == |store|
    ensures r.Ok? ==>
      exists k :: 0 <= k < |store| == |r.value| && Some(store[k].id) == CastId(id) && store[k].userId == caller &&
                  UpdatedAt(store, r.value, k, pesoDelDia, comidas)
    ensures r.Ok? ==> forall i :: 0 <= i < |store| ==>
      (r.value[i].id == store[i].id && r.value[i].userId == store[i].userId &&
       r.value[i].fecha == store[i].fecha)
  {
    match GetDailyLogById(store, id, caller)
    case Err(e) => Err(e)
    case Ok(_) =>
      var k := FindById(store, LogId, id).k;
      var l := store[k];
      var l' := l.(pesoDelDia := pesoDelDia.GetOr(l.pesoDelDia), comidas := comidas.GetOr(l.comidas));
      var s' := store[k := l'];
      assert Some(store[k].id) == CastId(id) && store[k].userId == caller;
      assert UpdatedAt(store, s', k, pesoDelDia, comidas);
      Ok(s')
  }

  /** `after` is `before` with only the log at `k` changed, and that log
      changed only in the fields the request carried. */
  ghost predicate UpdatedAt(before: Store, after: Store, k: nat,
                            pesoDelDia: Option<Option<real>>, comidas: Option<Comidas>)
    requires |before| == |after| && k < |before|
  {
    && (forall i :: 0 <= i < |before| && i != k ==> after[i] == before[i])
    && after[k].id == before[k].id
    && after[k].userId == before[k].userId
    && after[k].fecha == before[k].fecha
    && after[k].pesoDelDia == (if pesoDelDia.Some? then pesoDelDia.value else before[k].pesoDelDia)
    && after[k].comidas == (if comidas.Some? then comidas.value else before[k].comidas)
  }

  /** Creating and updating keep ids unique and keep the exact-duplicate
      rule. */
  lemma CreatePreservesValid(store: Store, newId: Id, userId: Id, fecha: Option<int>, now: int,
                             pesoDelDia: Option<real>, comidas: Comidas)
    requires Valid(store)
    requires forall i :: 0 <= i < |store| ==> store[i].id != newId
    ensures var r := CreateDailyLog(store, newId, userId, fecha, now, pesoDelDia, comidas);
      r.Ok? ==> Valid(r.value)
  {
  }

  lemma UpdatePreservesValid(store: Store, id: string, caller: Id,
                             pesoDelDia: Option<Option<real>>, comidas: Option<Comidas>)
    requires Valid(store)
    ensures var r := UpdateDailyLog(store, id, caller, pesoDelDia, comidas);
      r.Ok? ==> Valid(r.value)
  {
    var r := UpdateDailyLog(store, id, caller, pesoDelDia, comidas);
    if r.Ok? {
      var s := r.value;
      forall i, j | 0 <= i < j < |s|
        ensures s[i].id != s[j].id
        ensures !(s[i].userId == s[j].userId && s[i].fecha == s[j].fecha)
      {
        assert s[i].id == store[i].id && s[j].id == store[j].id;
      }
    }
  }

  /** `getDailyLogs`: the caller's logs, newest first. */
  function GetDailyLogs(store: Store, userId: Id): (r: seq<DailyLog>)
    ensures forall i :: 0 <= i < |r| ==> r[i].userId == userId
    ensures multiset(r) == multiset(Seqs.Filter(store, (l: DailyLog) => l.userId == userId))
    ensures forall i, j :: 0 <= i < j < |r| ==> r[i].fecha >= r[j].fecha
  {
    var mine := Seqs.Filter(store, (l: DailyLog) => l.userId == userId);
    var r := Seqs.SortBy(mine, (l: DailyLog) => -l.fecha);
    r
  }

  /** What the by-date lookup answers: the stored log, or a record that is
      built on the fly and never saved. */
  datatype LogView =
    | Stored(log: DailyLog)
    | Unsaved(userId: Id, fecha: int, pesoDelDia: Option<real>, comidas: Comidas)

  /** The first log of `userId` stamped inside the local day of `t`. */
  function FirstOnDay(store: Store, userId: Id, t: int, offset: int): (r: Option<nat>)
    ensures r.Some? ==>
      (r.value < |store| && store[r.value].userId == userId &&
       Calendar.InDay(store[r.value].fecha, t, offset))
    ensures r.Some? ==> forall i :: 0 <= i < r.value ==>
      !(store[i].userId == userId && Calendar.InDay(store[i].fecha, t, offset))
    ensures r.None? <==> forall i :: 0 <= i < |store| ==>
      !(store[i].userId == userId && Calendar.InDay(store[i].fecha, t, offset))
  {
    if |store| == 0 then None
    else if store[0].userId == userId && Calendar.InDay(store[0].fecha, t, offset) then Some(0)
    else
      match FirstOnDay(store[1..], userId, t, offset)
      case Some(k) => Some(k + 1)
      case None => None
  }

  /** `getDailyLogByDate`: the caller's first log stamped on the local day of
      `t`; when there is none, an unsaved record at that day's midnight with
      no weight and six empty slots. */
  function GetDailyLogByDate(store: Store, userId: Id, t: int, offset: int): (r: LogView)
    ensures r.Stored? <==>
      (exists i :: 0 <= i < |store| && store[i].userId == userId &&
                   Calendar.LocalDay(store[i].fecha, offset) == Calendar.LocalDay(t, offset))
    ensures r.Stored? ==>
      (r.log in store && r.log.userId == userId &&
       Calendar.LocalDay(r.log.fecha, offset) == Calendar.LocalDay(t, offset))
    ensures r.Unsaved? ==>
      (r.userId == userId && r.fecha == Calendar.Inicio(t, offset) &&
       r.pesoDelDia.None? && forall s: Slot :: r.comidas.Get(s) == [])
  {
    forall x { Calendar.InDayIffSameLocalDay(x, t, offset); }
    match FirstOnDay(store, userId, t, offset)
    case Some(k) => Stored(store[k])
    case None => Unsaved(userId, Calendar.Inicio(t, offset), None, ComidasVacias())
  }

  /** Because the duplicate check compares exact instants, a second log on
      the same local day is accepted, and the by-date lookup then keeps
      answering with the first one. */
  lemma SameDaySecondLogAccepted(u: Id, offset: int)
    ensures var day := Calendar.Inicio(0, offset);
      var first := DailyLog("a", u, day, None, ComidasVacias());
      var r := CreateDailyLog([first], "b", u, Some(day + 1), day + 2, Some(70.0), ComidasVacias());
      && r.Ok?
      && Calendar.LocalDay(r.value[1].fecha, offset) == Calendar.LocalDay(first.fecha, offset)
      && GetDailyLogByDate(r.value, u, day + 1, offset) == Stored(first)
  {
    var day := Calendar.Inicio(0, offset);
    Calendar.InDayIffSameLocalDay(day + 1, 0, offset);
    Calendar.InDayIffSameLocalDay(day, day + 1, offset);
  }

  /** Without a `fecha` the lookup matches any log of the caller, so a user
      who already has a log cannot create another one without a date, even
      days later; with a date that differs, the same request is stored. */
  lemma SecondLogWithoutFechaRefused(u: Id, now: int, later: int)
    ensures var r := CreateDailyLog([], "a", u, None, now, None, ComidasVacias());
      && r.Ok? && r.value[0].fecha == now
      && CreateDailyLog(r.value, "b", u, None, later, None, ComidasVacias()) == Err(BadRequest)
      && (later != now ==> CreateDailyLog(r.value, "b", u, Some(later), later, None, ComidasVacias()).Ok?)
  {
    var r := CreateDailyLog([], "a", u, None, now, None, ComidasVacias());
    assert r.value[0].userId == u;
  }
}

=== FILE: json.dfy ===
/** Request bodies as parsed JSON values, with the two JavaScript notions
    the controllers and validators lean on: reading a property (missing
    means `undefined`) and truthiness. */
module JsonValue {
  import opened Common

  /** A parsed JSON value. Numbers are exact; `NaN` and the infinities
      cannot come out of `JSON.parse` and are not represented. An object is
      a map because `JSON.parse` keeps only the last of repeated keys. */
  datatype Json =
    | JNull
    | JBool(b: bool)
    | JNum(n: real)
    | JStr(s: string)
    | JArr(items: seq<Json>)
    | JObj(fields: map<string, Json>)

  /** `v.key` (or lodash `get` for a dotted validator path): `None` is
      `undefined`, including every property read on a value that is not an
      object. */
  function Get(v: Option<Json>, key: string): (r: Option<Json>)
    ensures r.Some? <==> v.Some? && v.value.JObj? && key in v.value.fields
    ensures r.Some? ==> r.value == v.value.fields[key]
  {
    if v.Some? && v.value.JObj? && key in v.value.fields then Some(v.value.fields[key]) else None
  }

  /** JavaScript truthiness: `undefined`, `null`, `false`, `0` and `""` are
      falsy; everything else, empty arrays and objects included, is truthy. */
  predicate Truthy(v: Option<Json>) {
    match v
    case None => false
    case Some(JNull) => false
    case Some(JBool(b)) => b
    case Some(JNum(n)) => n != 0.0
    case Some(JStr(s)) => s != ""
    case Some(JArr(_)) => true
    case Some(JObj(_)) => true
  }

  /** `x || d`: the value itself when truthy, otherwise the fallback. */
  function OrElse(v: Option<Json>, d: Option<Json>): (r: Option<Json>)
    ensures Truthy(v) ==> r == v
    ensures !Truthy(v) ==> r == d
  {
    if Truthy(v) then v else d
  }

  /** Mongoose's cast of a `Number` path. `Some(None)` leaves the path unset:
      a missing value, `null`, or `""`. Numbers stay as they are and booleans
      become 1 and 0. Arrays and objects fail the cast (`None`), and so does
      any other string here, although Mongoose reads numeric strings. */
  function CastNumber(v: Option<Json>): (r: Option<Option<real>>)
    ensures r == Some(None) <==> v.None? || v.value.JNull? || v.value == JStr("")
    ensures r.None? <==> v.Some? && (v.value.JArr? || v.value.JObj? || (v.value.JStr? && v.value.s != ""))
  {
    match v
    case None => Some(None)
    case Some(JNull) => Some(None)
    case Some(JStr(s)) => if s == "" then Some(None) else None
    case Some(JNum(n)) => Some(Some(n))
    case Some(JBool(b)) => Some(Some(if b then 1.0 else 0.0))
    case Some(JArr(_)) => None
    case Some(JObj(_)) => None
  }
}

=== FILE: models.dfy ===
/** The stored records: a day's log, a catalog product, a recipe and a user,
    with the defaults and closed value sets their schemas declare. */

module DailyLogModel {
  import opened Common

  /** One logged portion. The schema makes both references optional and does
      not forbid an item that carries both, or neither; `cantidad` is grams. */
  datatype MealItem = MealItem(productId: Option<Id>, recipeId: Option<Id>, cantidad: real)

  /** The six fixed meal slots, in declaration order. */
  datatype Slot = Desayuno | Almuerzo | Comida | Merienda | Cena | Recena

  datatype Comidas = Comidas(
    desayuno: seq<MealItem>,
    almuerzo: seq<MealItem>,
    comida: seq<MealItem>,
    merienda: seq<MealItem>,
    cena: seq<MealItem>,
    recena: seq<MealItem>)
  {
    function Get(s: Slot): seq<MealItem> {
      match s
      case Desayuno => desayuno
      case Almuerzo => almuerzo
      case Comida => comida
      case Merienda => merienda
      case Cena => cena
      case Recena => recena
    }

    /** Every item of the day, slot after slot in declaration order. */
    function Items(): (r: seq<MealItem>)
      ensures forall s: Slot, i :: 0 <= i < |Get(s)| ==> Get(s)[i] in r
      ensures forall x :: x in r ==> exists s: Slot :: x in Get(s)
      ensures |r| == |desayuno| + |almuerzo| + |comida| + |merienda| + |cena| + |recena|
    {
      var r := desayuno + almuerzo + comida + merienda + cena + recena;
      assert forall x :: x in r ==>
        (x in Get(Desayuno) || x in Get(Almuerzo) || x in Get(Comida) ||
         x in Get(Merienda) || x in Get(Cena) || x in Get(Recena));
      r
    }
  }

  /** `fecha` is a timestamp in milliseconds since the epoch. */
  datatype DailyLog = DailyLog(
    id: Id,
    userId: Id,
    fecha: int,
    pesoDelDia: Option<real>,
    comidas: Comidas)

  /** A freshly constructed log: `fecha` defaults to the current instant and
      every slot the request leaves out defaults to an empty array. */
  function NewDailyLog(id: Id, userId: Id, fecha: Option<int>, now: int,
                       pesoDelDia: Option<real>, comidas: Comidas): (l: DailyLog)
    ensures l.id == id && l.userId == userId && l.pesoDelDia == pesoDelDia
    ensures l.comidas == comidas
    ensures fecha.Some? ==> l.fecha == fecha.value
    ensures fecha.None? ==> l.fecha == now
  {
    DailyLog(id, userId, fecha.GetOr(now), pesoDelDia, comidas)
  }
}

module ProductModel {
  import opened Common

  /** A catalog product. The four macros are per 100 g and required; the
      extras are optional; `userId` defaults to global. */
  datatype Product = Product(
    id: Id,
    nombre: string,
    marca: Option<string>,
    codigoBarras: Option<string>,
    calorias: real,
    proteinas: real,
    carbohidratos: real,
    grasas: real,
    azucares: Option<real>,
    grasasSaturadas: Option<real>,
    fibra: Option<real>,
    sal: Option<real>,
    porcion: Option<real>,
    userId: Owner)
  {
    function Per100g(): Macros {
      Macros(calorias, proteinas, carbohidratos, grasas)
    }
  }

  /** The sparse unique index on `codigoBarras`: products without a barcode
      never clash, two with the same barcode cannot both be stored. */
  ghost predicate BarcodesUnique(ps: seq<Product>) {
    forall i, j :: 0 <= i < j < |ps| && ps[i].codigoBarras.Some? ==>
      ps[i].codigoBarras != ps[j].codigoBarras
  }

  /** The product's `_id`, the key of `findById`. */
  function ProductId(p: Product): Id {
    p.id
  }
}

module RecipeModel {
  import opened Common

  datatype Ingredient = Ingredient(productId: Id, cantidad: real)

  /** A recipe. The four macros are stored for the whole finished recipe,
      which weighs `pesoFinal` grams; the ingredient list is informational
      and nothing derives the macros from it. */
  datatype Recipe = Recipe(
    id: Id,
    nombre: string,
    ingredientes: seq<Ingredient>,
    pesoFinal: real,
    calorias: real,
    proteinas: real,
    carbohidratos: real,
    grasas: real,
    azucares: Option<real>,
    grasasSaturadas: Option<real>,
    fibra: Option<real>,
    userId: Owner)
  {
    function Whole(): Macros {
      Macros(calorias, proteinas, carbohidratos, grasas)
    }
  }

  /** The recipe's `_id`, the key of `findById`. */
  function RecipeId(x: Recipe): Id {
    x.id
  }
}

module UserModel {
  import opened Common

  const SexoValues: set<string> := {"masculino", "femenino", "otro"}
  const ObjetivoValues: set<string> := {"perder peso", "mantenerse", "ganar músculo"}
  const ActividadValues: set<string> := {"sedentario", "ligero", "moderado", "activo", "muy activo"}

  /** The top-level paths the user schema declares, as a document reads
      them; a hydrated user document has no other properties. */
  const SchemaPaths: set<string> := {"nombre", "apellido", "correo", "password", "peso", "altura", "sexo",
                                     "edad", "objetivo", "actividad", "favoritos", "isActive"}

  datatype FavoritoTipo = ProductFav | RecipeFav

  datatype Favorito = Favorito(tipo: FavoritoTipo, refId: Id)

  datatype User = User(
    id: Id,
    nombre: string,
    apellido: string,
    correo: string,
    password: string,
    peso: real,
    altura: real,
    sexo: string,
    edad: real,
    objetivo: string,
    actividad: string,
    favoritos: seq<Favorito>,
    isActive: bool)

  /** The enum constraints the schema enforces when a user is saved. */
  predicate EnumsValid(u: User) {
    u.sexo in SexoValues && u.objetivo in ObjetivoValues && u.actividad in ActividadValues
  }

  /** A newly registered user: no favourites yet and not active until the
      account is confirmed. */
  function NewUser(id: Id, nombre: string, apellido: string, correo: string, password: string,
                   peso: real, altura: real, sexo: string, edad: real,
                   objetivo: string, actividad: string): (u: User)
    ensures !u.isActive && u.favoritos == []
    ensures u.id == id && u.correo == correo && u.sexo == sexo
    ensures u.objetivo == objetivo && u.actividad == actividad
  {
    User(id, nombre, apellido, correo, password, peso, altura, sexo, edad, objetivo, actividad, [], false)
  }
}

=== FILE: objectid.dfy ===
/** ObjectId text: the regular expression the meal-item validator applies,
    and the cast Mongoose performs on an id before a query (`findById`) or
    a save. The cast accepts 24 hex digits in either case and stands for
    the same ObjectId as the lower-case text, which is how stored ids are
    written out; anything else makes the query throw a `CastError`. */
module ObjectIds {
  import opened Common
  import Seqs

  predicate IsHexDigit(c: char) {
    ('0' <= c <= '9') || ('a' <= c <= 'f') || ('A' <= c <= 'F')
  }

  /** Every character is a hex digit, checked one character at a time. */
  predicate AllHex(s: string) {
    |s| == 0 || (IsHexDigit(s[0]) && AllHex(s[1..]))
  }

  /** `/^[a-fA-F0-9]{24}$/`: exactly 24 hex digits, either case. */
  predicate IsValidObjectId(s: string) {
    |s| == 24 && AllHex(s)
  }

  /** The recursive check agrees with the character-wise reading of the
      regular expression. */
  lemma {:induction false} AllHexIff(s: string)
    ensures AllHex(s) <==> forall i :: 0 <= i < |s| ==> IsHexDigit(s[i])
  {
    if |s| > 0 {
      AllHexIff(s[1..]);
      assert forall i :: 1 <= i < |s| ==> s[i] == s[1..][i - 1];
    }
  }

  /** A string of any other length, or one with a character that is not a
      hex digit, fails the expression. */
  lemma ObjectIdRejected(s: string, k: nat)
    ensures |s| != 24 ==> !IsValidObjectId(s)
    ensures k < |s| && !IsHexDigit(s[k]) ==> !IsValidObjectId(s)
  {
    AllHexIff(s);
  }

  /** A lower-case hex digit: the form in which an ObjectId is printed. */
  predicate IsLowerHexDigit(c: char) {
    ('0' <= c <= '9') || ('a' <= c <= 'f')
  }

  /** The text of a stored id: 24 lower-case hex digits. */
  ghost predicate Canonical(s: string) {
    |s| == 24 && forall i :: 0 <= i < |s| ==> IsLowerHexDigit(s[i])
  }

  /** A hex digit in lower case. */
  function Lower(c: char): (d: char)
    requires IsHexDigit(c)
    ensures IsLowerHexDigit(d)
    ensures IsLowerHexDigit(c) ==> d == c
    ensures !IsLowerHexDigit(c) ==> d as int == c as int + 32
  {
    if 'A' <= c <= 'F' then (c as int + 32) as char else c
  }

  /** The two texts name the same ObjectId: equal up to the case of their
      hex letters. */
  ghost predicate SameIgnoringCase(a: string, b: string)
    requires forall i :: 0 <= i < |a| ==> IsHexDigit(a[i])
    requires forall i :: 0 <= i < |b| ==> IsHexDigit(b[i])
  {
    |a| == |b| && forall i :: 0 <= i < |a| ==> Lower(a[i]) == Lower(b[i])
  }

  /** Mongoose's ObjectId cast of a route parameter: the canonical text of
      the id, or `None` for the `CastError` that makes the controller answer
      500. */
  function CastId(s: string): (r: Option<Id>)
    ensures r.Some? <==> IsValidObjectId(s)
    ensures r.Some? ==> Canonical(r.value)
    ensures r.Some? ==> (AllHexIff(s); SameIgnoringCase(s, r.value))
    ensures Canonical(s) ==> r == Some(s)
  {
    AllHexIff(s);
    if IsValidObjectId(s) then
      var t := seq(24, i requires 0 <= i < 24 => Lower(s[i]));
      assert Canonical(s) ==> t == s;
      Some(t)
    else None
  }

  /** Casting twice is casting once, and two ids cast to the same ObjectId
      exactly when they differ at most in the case of their letters. */
  lemma CastIdIdempotent(s: string)
    requires IsValidObjectId(s)
    ensures CastId(CastId(s).value) == CastId(s)
  {
  }

  lemma CastIdSameObject(a: string, b: string)
    requires IsValidObjectId(a) && IsValidObjectId(b)
    ensures (AllHexIff(a); AllHexIff(b);
             CastId(a) == CastId(b) <==> SameIgnoringCase(a, b))
  {
    AllHexIff(a);
    AllHexIff(b);
    var x := CastId(a).value;
    var y := CastId(b).value;
    if SameIgnoringCase(a, b) {
      assert forall i :: 0 <= i < 24 ==> x[i] == Lower(a[i]) == Lower(b[i]) == y[i];
    }
    if x == y {
      assert forall i :: 0 <= i < 24 ==> Lower(a[i]) == x[i] == y[i] == Lower(b[i]);
    }
  }

  /** What `Model.findById(id)` yields. */
  datatype Lookup = BadId | NoMatch | At(k: nat)

  /** `findById` on a collection in natural order: a `CastError` for an id
      that is not an ObjectId, otherwise the first document whose `_id` is
      the cast id, if there is one. */
  function FindById<T>(s: seq<T>, key: T -> Id, id: string): (r: Lookup)
    ensures r == BadId <==> !IsValidObjectId(id)
    ensures r == NoMatch <==> IsValidObjectId(id) && forall i :: 0 <= i < |s| ==> key(s[i]) != CastId(id).value
    ensures r.At? ==> r.k < |s| && Some(key(s[r.k])) == CastId(id)
    ensures r.At? ==> forall i :: 0 <= i < r.k ==> key(s[i]) != CastId(id).value
  {
    match CastId(id)
    case None => BadId
    case Some(oid) =>
      match Seqs.FindFirst(s, key, oid)
      case None => NoMatch
      case Some(k) => At(k)
  }

  /** With unique ids, any text that casts to a document's id finds that
      document. */
  lemma FindStoredId<T>(s: seq<T>, key: T -> Id, k: nat, id: string)
    requires Seqs.KeysUnique(s, key) && k < |s| && CastId(id) == Some(key(s[k]))
    ensures FindById(s, key, id) == At(k)
  {
    Seqs.FindFirstUnique(s, key, k);
  }
}

=== FILE: products.dfy ===
/** The product catalog: creation, the listings and their visibility
    scopes, the owner/admin permission rules, the partial update, deletion,
    the search, the recently-used products and the bulk load. The catalog
    is the collection in insertion order. */
module ProductCatalog {
  import opened Common
  import opened ProductModel
  import opened DailyLogModel
  import opened JsonValue
  import opened ObjectIds
  import UserModel
  import Seqs
  import DailyLogs

  type Catalog = seq<Product>

  /** The authenticated caller: their id, and whether their `rol` is
      `"admin"`. */
  datatype Caller = Caller(userId: Id, isAdmin: bool)

  /** Saving `p` at position `k` (or appending it when `k == |c|`) would
      violate the sparse unique index: another product already has its
      barcode. */
  predicate BarcodeTaken(c: Catalog, k: nat, code: Option<string>) {
    code.Some? && exists i :: 0 <= i < |c| && i != k && c[i].codigoBarras == code
  }

  // ----- createProduct -----

  /** `x || undefined` on an optional number: zero is dropped as well. */
  function Truthy0(v: Option<real>): (r: Option<real>)
    ensures r.Some? <==> v.Some? && v.value != 0.0
    ensures r.Some? ==> r == v
  {
    if v.Some? && v.value != 0.0 then v else None
  }

  /** `createProduct`: the new product always belongs to the caller, optional
      extras that are zero or absent are left unset, and a barcode another
      product already has makes the save fail. */
  function CreateProduct(c: Catalog, newId: Id, caller: Id, nombre: string, marca: Option<string>,
                         codigoBarras: Option<string>, macros: Macros,
                         azucares: Option<real>, grasasSaturadas: Option<real>, fibra: Option<real>,
                         sal: Option<real>, porcion: Option<real>): (r: Result<Catalog>)
    ensures r.Err? <==> BarcodeTaken(c, |c|, codigoBarras)
    ensures r.Err? ==> r.error == ServerError
    ensures r.Ok? ==> |r.value| == |c| + 1 && r.value[..|c|] == c
    ensures r.Ok? ==> var p := r.value[|c|];
      && p.id == newId && p.userId == OwnedBy(caller) && p.Per100g() == macros
      && p.codigoBarras == codigoBarras && p.nombre == nombre && p.marca == marca
    ensures r.Ok? ==> var p := r.value[|c|];
      && p.azucares == Truthy0(azucares) && p.grasasSaturadas == Truthy0(grasasSaturadas)
      && p.fibra == Truthy0(fibra) && p.sal == Truthy0(sal) && p.porcion == Truthy0(porcion)
  {
    if BarcodeTaken(c, |c|, codigoBarras) then Err(ServerError)
    else
      var p := Product(newId, nombre, marca, codigoBarras,
                       macros.calorias, macros.proteinas, macros.carbohidratos, macros.grasas,
                       Truthy0(azucares), Truthy0(grasasSaturadas), Truthy0(fibra),
                       Truthy0(sal), Truthy0(porcion), OwnedBy(caller));
      Ok(c + [p])
  }

  /** Creating keeps barcodes unique, and no product a user creates is
      global. */
  lemma CreatePreservesBarcodesUnique(c: Catalog, newId: Id, caller: Id, nombre: string, marca: Option<string>,
                                      codigoBarras: Option<string>, macros: Macros,
                                      azucares: Option<real>, grasasSaturadas: Option<real>, fibra: Option<real>,
                                      sal: Option<real>, porcion: Option<real>)
    requires BarcodesUnique(c)
    ensures var r := CreateProduct(c, newId, caller, nombre, marca, codigoBarras, macros,
                                   azucares, grasasSaturadas, fibra, sal, porcion);
      r.Ok? ==> BarcodesUnique(r.value) && !r.value[|c|].userId.Global?
  {
    var r := CreateProduct(c, newId, caller, nombre, marca, codigoBarras, macros,
                           azucares, grasasSaturadas, fibra, sal, porcion);
    if r.Ok? {
      var s := r.value;
      forall i, j | 0 <= i < j < |s| && s[i].codigoBarras.Some?
        ensures s[i].codigoBarras != s[j].codigoBarras
      {
        if j == |c| {
          assert s[i] == c[i];
        } else {
          assert s[i] == c[i] && s[j] == c[j];
        }
      }
    }
  }

  // ----- listings and reads -----

  /** `getProducts`: only global products, in catalog order. */
  function GetProducts(c: Catalog): (r: seq<Product>)
    ensures forall i :: 0 <= i < |r| ==> r[i].userId == Global && r[i] in c
    ensures forall i :: 0 <= i < |c| && c[i].userId == Global ==> c[i] in r
  {
    Seqs.Filter(c, (p: Product) => p.userId == Global)
  }

  /** `getProductById`: 500 when the id does not cast to an ObjectId, 404
      when no product has it, 403 exactly when the product belongs to
      another user; global and own products are returned. */
  function GetProductById(c: Catalog, id: string, caller: Id): (r: Result<Product>)
    ensures r == Err(ServerError) <==> !IsValidObjectId(id)
    ensures r == Err(NotFound) <==> FindById(c, ProductId, id) == NoMatch
    ensures FindById(c, ProductId, id).At? ==>
      (r == Err(Forbidden) <==> !c[FindById(c, ProductId, id).k].userId.VisibleTo(caller))
    ensures r.Ok? ==> Some(r.value.id) == CastId(id) && r.value in c && r.value.userId.VisibleTo(caller)
    ensures Seqs.KeysUnique(c, ProductId) ==>
      (r.Ok? <==> IsValidObjectId(id) &&
                  exists i :: 0 <= i < |c| && c[i].id == CastId(id).value && c[i].userId.VisibleTo(caller))
  {
    match FindById(c, ProductId, id)
    case BadId => Err(ServerError)
    case NoMatch => Err(NotFound)
    case At(k) =>
      if c[k].userId.OwnedBy? && c[k].userId.user != caller then Err(Forbidden) else Ok(c[k])
  }

  /** `getProductByBarcode`: the first product with this barcode that is
      global or the caller's; a barcode held only by another user's product
      reads as not found. */
  function GetProductByBarcode(c: Catalog, code: string, caller: Id): (r: Result<Product>)
    ensures r.Err? <==> forall i :: 0 <= i < |c| ==> !(c[i].codigoBarras == Some(code) && c[i].userId.VisibleTo(caller))
    ensures r.Err? ==> r.error == NotFound
    ensures r.Ok? ==> r.value.codigoBarras == Some(code) && r.value.userId.VisibleTo(caller) && r.value in c
    ensures r.Ok? ==> exists k :: (0 <= k < |c| && c[k] == r.value &&
      forall i :: 0 <= i < k ==> !(c[i].codigoBarras == Some(code) && c[i].userId.VisibleTo(caller)))
  {
    if |c| == 0 then Err(NotFound)
    else if c[0].codigoBarras == Some(code) && c[0].userId.VisibleTo(caller) then Ok(c[0])
    else
      var r := GetProductByBarcode(c[1..], code, caller);
      if r.Ok? then
        var k :| 0 <= k < |c[1..]| && c[1..][k] == r.value &&
          forall i :: 0 <= i < k ==> !(c[1..][i].codigoBarras == Some(code) && c[1..][i].userId.VisibleTo(caller));
        assert c[k + 1] == r.value;
        assert forall i :: 0 < i < k + 1 ==> c[i] == c[1..][i - 1];
        r
      else
        assert forall i :: 0 < i < |c| ==> c[i] == c[1..][i - 1];
        r
  }

  /** With unique barcodes, the lookup answers with the one product that
      carries the barcode whenever the caller may see it. */
  lemma BarcodeLookupUnique(c: Catalog, code: string, caller: Id, k: nat)
    requires BarcodesUnique(c)
    requires k < |c| && c[k].codigoBarras == Some(code) && c[k].userId.VisibleTo(caller)
    ensures GetProductByBarcode(c, code, caller) == Ok(c[k])
  {
    var r := GetProductByBarcode(c, code, caller);
    var j :| 0 <= j < |c| && c[j] == r.value &&
      forall i :: 0 <= i < j ==> !(c[i].codigoBarras == Some(code) && c[i].userId.VisibleTo(caller));
    assert j == k;
  }

  // ----- permission rules -----

  /** The two guards of `updateProduct` and `deleteProduct`: a global product
      needs an admin, another user's product needs its owner or an admin. */
  predicate MayModify(p: Product, caller: Caller) {
    && !(p.userId.Global? && !caller.isAdmin)
    && !(p.userId.OwnedBy? && p.userId.user != caller.userId && !caller.isAdmin)
  }

  /** The guards allow exactly admins and owners; in particular nobody but
      an admin may touch a global product. */
  lemma MayModifyIff(p: Product, caller: Caller)
    ensures MayModify(p, caller) <==> caller.isAdmin || p.userId == OwnedBy(caller.userId)
    ensures p.userId.Global? ==> (MayModify(p, caller) <==> caller.isAdmin)
  {
  }

  /** The request's `userId`: absent, an explicit `null`, or an id (which the
      controller ignores). */
  datatype OwnerField = Absent | NullOwner | GivenOwner(id: Id)

  /** The fields an update request may carry. `nombre` and `marca` apply
      only when truthy; the numbers apply whenever present, an inner `None`
      standing for an explicit `null`. */
  datatype ProductPatch = ProductPatch(
    nombre: Option<string>,
    marca: Option<string>,
    calorias: Option<real>,
    proteinas: Option<real>,
    carbohidratos: Option<real>,
    grasas: Option<real>,
    azucares: Option<Option<real>>,
    grasasSaturadas: Option<Option<real>>,
    fibra: Option<Option<real>>,
    sal: Option<Option<real>>,
    porcion: Option<Option<real>>,
    codigoBarras: Option<Option<string>>,
    userId: OwnerField)

  const EmptyPatch: ProductPatch :=
    ProductPatch(None, None, None, None, None, None, None, None, None, None, None, None, Absent)

  /** `if (s) field = s` for a string. */
  function IfTruthy(v: Option<string>, old_: string): string {
    if v.Some? && v.value != "" then v.value else old_
  }

  /** `if (v !== undefined) field = v`. */
  function IfGiven<T>(v: Option<T>, old_: T): T {
    if v.Some? then v.value else old_
  }

  /** The product after the assignments of `updateProduct`. */
  function ApplyPatch(p: Product, patch: ProductPatch, isAdmin: bool): (q: Product)
    ensures q.id == p.id
  {
    p.(nombre := IfTruthy(patch.nombre, p.nombre),
       marca := if patch.marca.Some? && patch.marca.value != "" then patch.marca else p.marca,
       calorias := IfGiven(patch.calorias, p.calorias),
       proteinas := IfGiven(patch.proteinas, p.proteinas),
       carbohidratos := IfGiven(patch.carbohidratos, p.carbohidratos),
       grasas := IfGiven(patch.grasas, p.grasas),
       azucares := IfGiven(patch.azucares, p.azucares),
       grasasSaturadas := IfGiven(patch.grasasSaturadas, p.grasasSaturadas),
       fibra := IfGiven(patch.fibra, p.fibra),
       sal := IfGiven(patch.sal, p.sal),
       porcion := IfGiven(patch.porcion, p.porcion),
       codigoBarras := IfGiven(patch.codigoBarras, p.codigoBarras),
       userId := if isAdmin && patch.userId == NullOwner then Global else p.userId)
  }

  /** `updateProduct`: 500 for an id that does not cast; 404 when absent;
      403 when the guards refuse; 403 when a non-admin sends `userId: null`,
      before anything changes; otherwise the assignments, and a save that
      fails when the new barcode is another product's. */
  function UpdateProduct(c: Catalog, id: string, caller: Caller, patch: ProductPatch): (r: Result<Catalog>)
    ensures !IsValidObjectId(id) ==> r == Err(ServerError)
    ensures r == Err(NotFound) <==> FindById(c, ProductId, id) == NoMatch
    ensures FindById(c, ProductId, id).At? ==> var p := c[FindById(c, ProductId, id).k];
      (r == Err(Forbidden) <==> !MayModify(p, caller) || (patch.userId == NullOwner && !caller.isAdmin))
    ensures FindById(c, ProductId, id).At? ==> var k := FindById(c, ProductId, id).k;
      (r == Err(ServerError) <==>
         (MayModify(c[k], caller) && !(patch.userId == NullOwner && !caller.isAdmin)
          && BarcodeTaken(c, k, ApplyPatch(c[k], patch, caller.isAdmin).codigoBarras)))
    ensures r.Ok? ==> (|r.value| == |c| &&
      exists k :: 0 <= k < |c| && Some(c[k].id) == CastId(id) &&
                  r.value == c[k := ApplyPatch(c[k], patch, caller.isAdmin)])
  {
    match FindById(c, ProductId, id)
    case BadId => Err(ServerError)
    case NoMatch => Err(NotFound)
    case At(k) =>
      var p := c[k];
      if !MayModify(p, caller) then Err(Forbidden)
      else if patch.userId == NullOwner && !caller.isAdmin then Err(Forbidden)
      else
        var q := ApplyPatch(p, patch, caller.isAdmin);
        if BarcodeTaken(c, k, q.codigoBarras) then Err(ServerError)
        else Ok(c[k := q])
  }

  /** Each field of the updated product is the request's value when the
      request carried one (a truthy one for `nombre` and `marca`) and the
      stored value otherwise; the owner changes only to global, and only
      for an admin who sent `userId: null`. */
  lemma PatchFieldByField(p: Product, patch: ProductPatch, isAdmin: bool)
    ensures var q := ApplyPatch(p, patch, isAdmin);
      && q.id == p.id
      && (patch.nombre.Some? && patch.nombre.value != "" ==> q.nombre == patch.nombre.value)
      && (patch.nombre.None? || patch.nombre.value == "" ==> q.nombre == p.nombre)
      && (patch.marca.Some? && patch.marca.value != "" ==> q.marca == patch.marca)
      && (patch.marca.None? || patch.marca.value == "" ==> q.marca == p.marca)
      && AssignedIfGiven(patch.calorias, p.calorias, q.calorias)
      && AssignedIfGiven(patch.proteinas, p.proteinas, q.proteinas)
      && AssignedIfGiven(patch.carbohidratos, p.carbohidratos, q.carbohidratos)
      && AssignedIfGiven(patch.grasas, p.grasas, q.grasas)
      && AssignedIfGiven(patch.azucares, p.azucares, q.azucares)
      && AssignedIfGiven(patch.grasasSaturadas, p.grasasSaturadas, q.grasasSaturadas)
      && AssignedIfGiven(patch.fibra, p.fibra, q.fibra)
      && AssignedIfGiven(patch.sal, p.sal, q.sal)
      && AssignedIfGiven(patch.porcion, p.porcion, q.porcion)
      && AssignedIfGiven(patch.codigoBarras, p.codigoBarras, q.codigoBarras)
      && (isAdmin && patch.userId == NullOwner ==> q.userId == Global)
      && (q.userId != p.userId ==> isAdmin && patch.userId == NullOwner && q.userId == Global)
  {
  }

  /** An update that carries nothing, or only empty strings, leaves the
      product as it was. */
  lemma EmptyPatchIsIdentity(p: Product, isAdmin: bool)
    ensures ApplyPatch(p, EmptyPatch, isAdmin) == p
    ensures ApplyPatch(p, EmptyPatch.(nombre := Some(""), marca := Some("")), isAdmin) == p
  {
  }

  /** Only an admin can make a product global, and an id sent as `userId`
      never changes the owner. */
  lemma OnlyAdminMakesGlobal(c: Catalog, id: string, caller: Caller, patch: ProductPatch)
    ensures var r := UpdateProduct(c, id, caller, patch);
      r.Ok? ==> forall i :: 0 <= i < |c| && r.value[i].userId != c[i].userId ==>
        caller.isAdmin && patch.userId == NullOwner && r.value[i].userId == Global
  {
  }

  /** Updating keeps barcodes unique. */
  lemma UpdatePreservesBarcodesUnique(c: Catalog, id: string, caller: Caller, patch: ProductPatch)
    requires BarcodesUnique(c)
    ensures var r := UpdateProduct(c, id, caller, patch);
      r.Ok? ==> BarcodesUnique(r.value)
  {
    var r := UpdateProduct(c, id, caller, patch);
    if r.Ok? {
      var k := FindById(c, ProductId, id).k;
      var q := ApplyPatch(c[k], patch, caller.isAdmin);
      var s := r.value;
      assert s == c[k := q];
      forall i, j | 0 <= i < j < |s| && s[i].codigoBarras.Some?
        ensures s[i].codigoBarras != s[j].codigoBarras
      {
        if i == k {
          assert !BarcodeTaken(c, k, q.codigoBarras);
          assert c[j] == s[j];
        } else if j == k {
          assert !BarcodeTaken(c, k, q.codigoBarras);
          assert c[i] == s[i];
        } else {
          assert c[i] == s[i] && c[j] == s[j];
        }
      }
    }
  }

  /** `deleteProduct`: the same lookup and guards as update; on success
      exactly that product leaves the catalog and the others keep their
      order. */
  function DeleteProduct(c: Catalog, id: string, caller: Caller): (r: Result<Catalog>)
    ensures r == Err(ServerError) <==> !IsValidObjectId(id)
    ensures r == Err(NotFound) <==> FindById(c, ProductId, id) == NoMatch
    ensures FindById(c, ProductId, id).At? ==>
      (r == Err(Forbidden) <==> !MayModify(c[FindById(c, ProductId, id).k], caller))
    ensures r.Ok? ==> exists k :: 0 <= k < |c| && Some(c[k].id) == CastId(id) && r.value == c[..k] + c[k + 1..]
  {
    match FindById(c, ProductId, id)
    case BadId => Err(ServerError)
    case NoMatch => Err(NotFound)
    case At(k) =>
      if !MayModify(c[k], caller) then Err(Forbidden) else Ok(c[..k] + c[k + 1..])
  }

  /** After a successful delete the id is gone from a catalog with unique
      ids, and the catalog is one shorter. */
  lemma DeleteRemovesId(c: Catalog, id: string, caller: Caller)
    requires Seqs.KeysUnique(c, ProductId)
    ensures var r := DeleteProduct(c, id, caller);
      r.Ok? ==> |r.value| == |c| - 1 && forall i :: 0 <= i < |r.value| ==> Some(r.value[i].id) != CastId(id)
  {
    var r := DeleteProduct(c, id, caller);
    if r.Ok? {
      var k := FindById(c, ProductId, id).k;
      assert r.value == c[..k] + c[k + 1..];
      forall i | 0 <= i < |r.value| ensures Some(r.value[i].id) != CastId(id) {
        if i < k {
          assert r.value[i] == c[i];
        } else {
          assert r.value[i] == c[i + 1];
        }
      }
    }
  }

  /** A user may neither delete nor update a global product; an admin may
      delete it. */
  lemma GlobalProductsNeedAdmin(c: Catalog, k: nat, id: string, u: Id, patch: ProductPatch)
    requires Seqs.KeysUnique(c, ProductId) && k < |c| && CastId(id) == Some(c[k].id)
    requires c[k].userId == Global
    ensures DeleteProduct(c, id, Caller(u, false)) == Err(Forbidden)
    ensures UpdateProduct(c, id, Caller(u, false), patch) == Err(Forbidden)
    ensures DeleteProduct(c, id, Caller(u, true)).Ok?
  {
    FindStoredId(c, ProductId, k, id);
  }

  // ----- searchProducts -----

  /** Which owners a query admits. */
  datatype Scope = GlobalAndOwn | OwnOnly | GlobalOnly | AnyOwner

  /** The `baseFilter` the controller picks: `favoritos === "true"` wins over
      `mis === "true"`; otherwise global products only. */
  function SearchScope(mis: Option<string>, favoritos: Option<string>): (s: Scope)
    ensures favoritos == Some("true") ==> s == GlobalAndOwn
    ensures favoritos != Some("true") && mis == Some("true") ==> s == OwnOnly
    ensures favoritos != Some("true") && mis != Some("true") ==> s == GlobalOnly
  {
    if favoritos == Some("true") then GlobalAndOwn
    else if mis == Some("true") then OwnOnly
    else GlobalOnly
  }

  /** `{ ...baseFilter, ...nameOrBrandFilter }`: the favourites scope is an
      `$or`, and so is the name-or-brand condition; in an object spread the
      later key wins, so the scope is dropped and no owner condition is
      left. The other two scopes are a plain `userId` key and survive. */
  function Spread(s: Scope): (t: Scope)
    ensures s == GlobalAndOwn ==> t == AnyOwner
    ensures s != GlobalAndOwn ==> t == s
  {
    if s == GlobalAndOwn then AnyOwner else s
  }

  predicate InScope(p: Product, s: Scope, userId: Id) {
    match s
    case GlobalAndOwn => p.userId.VisibleTo(userId)
    case OwnOnly => p.userId == OwnedBy(userId)
    case GlobalOnly => p.userId == Global
    case AnyOwner => true
  }

  /** The ids of the user's favourites of type product. */
  function ProductFavourites(u: UserModel.User): (ids: set<Id>)
    ensures forall id :: id in ids <==>
      exists i :: 0 <= i < |u.favoritos| && u.favoritos[i] == UserModel.Favorito(UserModel.ProductFav, id)
  {
    set i | 0 <= i < |u.favoritos| && u.favoritos[i].tipo == UserModel.ProductFav :: u.favoritos[i].refId
  }

  /** The product favourites of the caller's user record; none when the
      record is missing. */
  function FavouriteIds(user: Option<UserModel.User>): (ids: set<Id>)
    ensures user.None? ==> ids == {}
    ensures user.Some? ==> ids == ProductFavourites(user.value)
  {
    if user.Some? then ProductFavourites(user.value) else {}
  }

  function Matches(scope: Scope, caller: Id, coincide: Product -> bool): Product -> bool {
    (p: Product) => InScope(p, scope, caller) && coincide(p)
  }

  function AmongIds(ids: set<Id>): Product -> bool {
    (p: Product) => p.id in ids
  }

  /** The last step of `searchProducts`: in favourites mode, only the
      user's product favourites, and nothing for a user with no favourites
      or no user record. */
  function FavouritesStep(base: seq<Product>, favoritos: Option<string>,
                          user: Option<UserModel.User>): (r: seq<Product>)
    ensures favoritos != Some("true") ==> r == base
    ensures favoritos == Some("true") ==>
      forall p :: p in r <==> p in base && p.id in FavouriteIds(user)
  {
    if favoritos == Some("true") then
      if user.Some? && |user.value.favoritos| > 0 then
        Seqs.Filter(base, AmongIds(ProductFavourites(user.value)))
      else []
    else base
  }

  /** `searchProducts` as written: `coincide` is the case-insensitive
      name-or-brand match of the query. Because the spread drops the
      favourites scope, favourites mode looks through every product, other
      users' private ones included, and keeps the caller's favourites. */
  function SearchProducts(c: Catalog, caller: Id, mis: Option<string>, favoritos: Option<string>,
                          coincide: Product -> bool, user: Option<UserModel.User>): (r: seq<Product>)
    ensures forall i :: 0 <= i < |r| ==> r[i] in c && coincide(r[i])
    ensures favoritos == Some("true") ==>
      forall p :: p in r <==> p in c && coincide(p) && p.id in FavouriteIds(user)
    ensures favoritos != Some("true") ==>
      forall p :: p in r <==> p in c && coincide(p) && InScope(p, SearchScope(mis, favoritos), caller)
  {
    var base := Seqs.Filter(c, Matches(Spread(SearchScope(mis, favoritos)), caller, coincide));
    FavouritesStep(base, favoritos, user)
  }

  /** `searchProducts` with the scope kept, as the comment on the favourites
      filter intends: every answer is global or the caller's own. */
  function SearchProductsCorregido(c: Catalog, caller: Id, mis: Option<string>, favoritos: Option<string>,
                                   coincide: Product -> bool, user: Option<UserModel.User>): (r: seq<Product>)
    ensures forall i :: 0 <= i < |r| ==> r[i] in c && coincide(r[i]) && r[i].userId.VisibleTo(caller)
    ensures favoritos == Some("true") ==>
      forall p :: p in r <==> p in c && coincide(p) && p.userId.VisibleTo(caller) && p.id in FavouriteIds(user)
    ensures favoritos != Some("true") ==>
      forall p :: p in r <==> p in c && coincide(p) && InScope(p, SearchScope(mis, favoritos), caller)
  {
    var base := Seqs.Filter(c, Matches(SearchScope(mis, favoritos), caller, coincide));
    FavouritesStep(base, favoritos, user)
  }

  /** Outside favourites mode the spread loses nothing, and the two
      searches agree. */
  lemma SearchesAgreeOutsideFavourites(c: Catalog, caller: Id, mis: Option<string>, favoritos: Option<string>,
                                       coincide: Product -> bool, user: Option<UserModel.User>)
    requires favoritos != Some("true")
    ensures SearchProducts(c, caller, mis, favoritos, coincide, user) ==
            SearchProductsCorregido(c, caller, mis, favoritos, coincide, user)
  {
  }

  /** As written, a favourite that is another user's private product is
      answered in favourites mode; the corrected search leaves it out. */
  lemma FavouriteSearchLeaksPrivateProduct(u: Id, v: Id, p: Product, usr: UserModel.User,
                                           coincide: Product -> bool)
    requires u != v && p.userId == OwnedBy(v) && coincide(p)
    requires usr.favoritos == [UserModel.Favorito(UserModel.ProductFav, p.id)]
    ensures !p.userId.VisibleTo(u)
    ensures SearchProducts([p], u, None, Some("true"), coincide, Some(usr)) == [p]
    ensures SearchProductsCorregido([p], u, None, Some("true"), coincide, Some(usr)) == []
  {
    assert p.id in ProductFavourites(usr) by {
      assert usr.favoritos[0] == UserModel.Favorito(UserModel.ProductFav, p.id);
    }
    var r := SearchProducts([p], u, None, Some("true"), coincide, Some(usr));
    var base := Seqs.Filter([p], Matches(AnyOwner, u, coincide));
    assert base == [p];
    assert Seqs.Filter(base, AmongIds(ProductFavourites(usr))) == [p];
  }

  /** The favourites switch takes precedence over `mis`, and favourites mode
      without favourites answers nothing. */
  lemma FavouritesPrecedence(c: Catalog, caller: Id, mis: Option<string>,
                             coincide: Product -> bool, u: UserModel.User)
    requires u.favoritos == []
    ensures SearchScope(mis, Some("true")) == GlobalAndOwn
    ensures SearchProducts(c, caller, mis, Some("true"), coincide, Some(u)) == []
    ensures SearchProducts(c, caller, mis, Some("true"), coincide, None) == []
  {
  }

  /** A favourite of type recipe never admits a product, even one with the
      same id. */
  lemma RecipeFavouritesIgnored(c: Catalog, caller: Id, mis: Option<string>,
                                coincide: Product -> bool, u: UserModel.User)
    requires forall i :: 0 <= i < |u.favoritos| ==> u.favoritos[i].tipo == UserModel.RecipeFav
    ensures SearchProducts(c, caller, mis, Some("true"), coincide, Some(u)) == []
  {
    var base := Seqs.Filter(c, Matches(AnyOwner, caller, coincide));
    assert ProductFavourites(u) == {};
    Seqs.FilterNone(base, AmongIds({}));
  }

  // ----- getProductosRecientes -----

  const LogsScanned: nat := 30
  const RecentLimit: nat := 20

  function Take<T>(s: seq<T>, n: nat): (r: seq<T>)
    ensures |r| <= n && |r| <= |s| && r == s[..|r|]
    ensures |s| <= n ==> r == s
  {
    if |s| <= n then s else s[..n]
  }

  /** Every item of the logs, log after log, slot after slot. */
  function AllItems(logs: seq<DailyLog>): (r: seq<MealItem>)
    ensures forall k, i :: 0 <= k < |logs| && 0 <= i < |logs[k].comidas.Items()| ==>
      logs[k].comidas.Items()[i] in r
  {
    if |logs| == 0 then []
    else
      var r := logs[0].comidas.Items() + AllItems(logs[1..]);
      assert forall k :: 1 <= k < |logs| ==> logs[k] == logs[1..][k - 1];
      r
  }

  /** The product ids of the items in order, or `None` when some item has no
      `productId`: `item.productId.toString()` then throws. */
  function ProductIdsOf(items: seq<MealItem>): (r: Option<seq<Id>>)
    ensures r.None? <==> exists i :: 0 <= i < |items| && items[i].productId.None?
    ensures r.Some? ==> (|r.value| == |items| &&
      forall i :: 0 <= i < |items| ==> items[i].productId == Some(r.value[i]))
  {
    if |items| == 0 then Some([])
    else if items[0].productId.None? then None
    else
      match ProductIdsOf(items[1..])
      case None => None
      case Some(rest) => Some([items[0].productId.value] + rest)
  }

  /** The answer: the recently used products and the other visible ones. */
  datatype Recientes = Recientes(recientes: seq<Product>, restantes: seq<Product>)

  /** The ids of the products used in the caller's 30 newest logs, distinct,
      in first-seen order, at most 20. */
  function RecentIds(logs: DailyLogs.Store, caller: Id): (r: Option<seq<Id>>)
  {
    var ultimos := Take(DailyLogs.GetDailyLogs(logs, caller), LogsScanned);
    match ProductIdsOf(AllItems(ultimos))
    case None => None
    case Some(ids) => Some(Take(Seqs.Distinct(ids), RecentLimit))
  }

  /** `getProductosRecientes`: the products whose id was used recently, and
      every global or own product whose id was not. */
  function ProductosRecientes(logs: DailyLogs.Store, c: Catalog, caller: Id): (r: Result<Recientes>)
    ensures r.Err? <==> RecentIds(logs, caller).None?
    ensures r.Err? ==> r.error == ServerError
    ensures r.Ok? ==> var ids := RecentIds(logs, caller).value;
      && (forall i :: 0 <= i < |r.value.recientes| ==> r.value.recientes[i].id in ids && r.value.recientes[i] in c)
      && (forall i :: 0 <= i < |r.value.restantes| ==>
            r.value.restantes[i].id !in ids && r.value.restantes[i].userId.VisibleTo(caller) && r.value.restantes[i] in c)
      && (forall i :: 0 <= i < |c| && c[i].id in ids ==> c[i] in r.value.recientes)
      && (forall i :: 0 <= i < |c| && c[i].id !in ids && c[i].userId.VisibleTo(caller) ==> c[i] in r.value.restantes)
  {
    match RecentIds(logs, caller)
    case None => Err(ServerError)
    case Some(ids) =>
      Ok(Recientes(Seqs.Filter(c, WithIdIn(ids)), Seqs.Filter(c, VisibleNotIn(ids, caller))))
  }

  function WithIdIn(ids: seq<Id>): Product -> bool {
    (p: Product) => p.id in ids
  }

  function VisibleNotIn(ids: seq<Id>, caller: Id): Product -> bool {
    (p: Product) => p.id !in ids && p.userId.VisibleTo(caller)
  }

  /** The recent ids are at most twenty, distinct, all used in the caller's
      logs, and ordered by first use; the two lists never share a product. */
  lemma RecentIdsShape(logs: DailyLogs.Store, c: Catalog, caller: Id)
    requires RecentIds(logs, caller).Some?
    ensures var ids := RecentIds(logs, caller).value;
      && |ids| <= RecentLimit
      && Seqs.NoDup(ids)
    ensures var r := ProductosRecientes(logs, c, caller).value;
      forall i, j :: 0 <= i < |r.recientes| && 0 <= j < |r.restantes| ==> r.recientes[i] != r.restantes[j]
  {
    var ultimos := Take(DailyLogs.GetDailyLogs(logs, caller), LogsScanned);
    var all := ProductIdsOf(AllItems(ultimos)).value;
    var d := Seqs.Distinct(all);
    var ids := Take(d, RecentLimit);
    assert ids == d[..|ids|];
    forall i, j | 0 <= i < j < |ids| ensures ids[i] != ids[j] {
      assert ids[i] == d[i] && ids[j] == d[j];
    }
  }

  /** Recent ids keep the order of first use: the first product id seen in
      the newest logs comes first. */
  lemma RecentIdsFirstSeenOrder(logs: DailyLogs.Store, caller: Id, i: nat, j: nat)
    requires RecentIds(logs, caller).Some?
    requires i < j < |RecentIds(logs, caller).value|
    ensures var ultimos := Take(DailyLogs.GetDailyLogs(logs, caller), LogsScanned);
      var all := ProductIdsOf(AllItems(ultimos)).value;
      var ids := RecentIds(logs, caller).value;
      Seqs.IndexOf(all, ids[i]) < Seqs.IndexOf(all, ids[j])
  {
    var ultimos := Take(DailyLogs.GetDailyLogs(logs, caller), LogsScanned);
    var all := ProductIdsOf(AllItems(ultimos)).value;
    var d := Seqs.Distinct(all);
    var ids := Take(d, RecentLimit);
    assert ids[i] == d[i] && ids[j] == d[j];
    Seqs.DistinctFirstSeenOrder(all, i, j);
  }

  /** The controller's scan: a `Map` filled left to right, then the first 20
      values. */
  method GetProductosRecientes(logs: DailyLogs.Store, c: Catalog, caller: Id) returns (r: Result<Recientes>)
    ensures r == ProductosRecientes(logs, c, caller)
  {
    var ultimos := Take(DailyLogs.GetDailyLogs(logs, caller), LogsScanned);
    var items := AllItems(ultimos);
    var ids := ProductIdsOf(items);
    if ids.None? {
      return Err(ServerError);
    }
    var usados := Seqs.FirstSeen(ids.value);
    var recientesIds := Take(usados, RecentLimit);
    var recientes := Seqs.Filter(c, WithIdIn(recientesIds));
    var restantes := Seqs.Filter(c, VisibleNotIn(recientesIds, caller));
    r := Ok(Recientes(recientes, restantes));
  }

  /** The recent list is not limited to products the caller may see: an id
      of another user's product that appears in the caller's logs brings
      that product along. */
  lemma RecentListNotScoped(u: Id, v: Id, p: Product, item: MealItem)
    requires u != v && p.userId == OwnedBy(v) && item.productId == Some(p.id)
    ensures var log := DailyLog("l", u, 0, None, Comidas([item], [], [], [], [], []));
      var r := ProductosRecientes([log], [p], u);
      r.Ok? && r.value.recientes == [p] && !p.userId.VisibleTo(u)
  {
    var log := DailyLog("l", u, 0, None, Comidas([item], [], [], [], [], []));
    OneLogRecentIds(log, u, item);
    assert Seqs.Filter([p], WithIdIn([p.id])) == [p];
  }

  /** A single log holding a single item with a product id yields that id. */
  lemma OneLogRecentIds(log: DailyLog, u: Id, item: MealItem)
    requires log.userId == u && log.comidas == Comidas([item], [], [], [], [], [])
    requires item.productId.Some?
    ensures RecentIds([log], u) == Some([item.productId.value])
  {
    assert DailyLogs.GetDailyLogs([log], u) == [log] by {
      assert Seqs.Filter([log], (l: DailyLog) => l.userId == u) == [log];
    }
    assert log.comidas.Items() == [item];
    assert AllItems([log]) == [item];
    OneItemIds(item);
    assert Seqs.Distinct([item.productId.value]) == [item.productId.value];
  }

  lemma OneItemIds(item: MealItem)
    requires item.productId.Some?
    ensures ProductIdsOf([item]) == Some([item.productId.value])
  {
    var ids := ProductIdsOf([item]);
    assert ids.Some? by {
      assert [item][0] == item;
    }
    assert |ids.value| == 1 && ids.value[0] == item.productId.value;
    assert ids.value == [item.productId.value];
  }

  // ----- cargarProductosMasivos -----

  /** One record handed to `insertMany`. A field set to `None` is absent
      (`undefined`); `Some(JNull)` is an explicit `null`. */
  datatype BulkRecord = BulkRecord(
    nombre: Option<Json>,
    marca: Json,
    codigoBarras: Option<Json>,
    calorias: Option<Json>,
    proteinas: Option<Json>,
    carbohidratos: Option<Json>,
    grasas: Option<Json>,
    azucares: Json,
    grasasSaturadas: Json,
    fibra: Json,
    sal: Json,
    porcion: Json,
    userId: Id)

  /** `x || null`. */
  function OrNull(v: Option<Json>): Json {
    if Truthy(v) then v.value else JNull
  }

  /** `got` is what `v || d` yields: `v` when truthy, the fallback otherwise. */
  predicate Defaulted(v: Option<Json>, got: Json, d: Json) {
    (Truthy(v) ==> got == v.value) && (!Truthy(v) ==> got == d)
  }

  /** The record built for one input element, given how the barcode field is
      filled: the four macros and the name are copied as they are (missing
      stays missing), the brand defaults to `""` and the five extras to
      `null`. */
  function Registro(p: Json, caller: Id, codigoBarras: Option<Json>): (r: BulkRecord)
    ensures r.userId == caller && r.codigoBarras == codigoBarras
    ensures r.nombre == Get(Some(p), "nombre")
    ensures r.calorias == Get(Some(p), "calorias") && r.proteinas == Get(Some(p), "proteinas")
    ensures r.carbohidratos == Get(Some(p), "carbohidratos") && r.grasas == Get(Some(p), "grasas")
    ensures Defaulted(Get(Some(p), "marca"), r.marca, JStr(""))
    ensures Defaulted(Get(Some(p), "azucares"), r.azucares, JNull)
    ensures Defaulted(Get(Some(p), "grasasSaturadas"), r.grasasSaturadas, JNull)
    ensures Defaulted(Get(Some(p), "fibra"), r.fibra, JNull)
    ensures Defaulted(Get(Some(p), "sal"), r.sal, JNull)
    ensures Defaulted(Get(Some(p), "porcion"), r.porcion, JNull)
  {
    var b := Some(p);
    BulkRecord(Get(b, "nombre"), OrElse(Get(b, "marca"), Some(JStr(""))).value, codigoBarras,
               Get(b, "calorias"), Get(b, "proteinas"), Get(b, "carbohidratos"), Get(b, "grasas"),
               OrNull(Get(b, "azucares")), OrNull(Get(b, "grasasSaturadas")), OrNull(Get(b, "fibra")),
               OrNull(Get(b, "sal")), OrNull(Get(b, "porcion")), caller)
  }

  /** The barcode as the source fills it: `p.codigoBarras || null`, so a
      record without a barcode carries an explicit `null`. */
  function BarcodeAsWritten(p: Json): (r: Option<Json>)
    ensures r.Some?
    ensures Defaulted(Get(Some(p), "codigoBarras"), r.value, JNull)
  {
    Some(OrNull(Get(Some(p), "codigoBarras")))
  }

  /** The barcode as the sparse index needs it: left out when falsy. */
  function BarcodeCorrected(p: Json): (r: Option<Json>)
    ensures r.None? <==> !Truthy(Get(Some(p), "codigoBarras"))
    ensures r.Some? ==> r == Get(Some(p), "codigoBarras")
  {
    if Truthy(Get(Some(p), "codigoBarras")) then Get(Some(p), "codigoBarras") else None
  }

  /** The mapping of the bulk load, as written: 400 for a body that is not an
      array; reading a property of a `null` element throws (500); otherwise
      one record per element, in order. */
  function MapeoMasivo(body: Json, caller: Id): (r: Result<seq<BulkRecord>>)
    ensures !body.JArr? ==> r == Err(BadRequest)
    ensures body.JArr? ==> (r.Err? <==> JNull in body.items)
    ensures r.Err? ==> r.error == BadRequest || r.error == ServerError
    ensures r.Ok? ==> |r.value| == |body.items| && forall i :: 0 <= i < |r.value| ==>
      r.value[i] == Registro(body.items[i], caller, BarcodeAsWritten(body.items[i]))
  {
    if !body.JArr? then Err(BadRequest)
    else if JNull in body.items then Err(ServerError)
    else Ok(seq(|body.items|, i requires 0 <= i < |body.items| =>
              Registro(body.items[i], caller, BarcodeAsWritten(body.items[i]))))
  }

  /** The same mapping with the barcode left out when falsy. */
  function MapeoMasivoCorregido(body: Json, caller: Id): (r: Result<seq<BulkRecord>>)
    ensures !body.JArr? ==> r == Err(BadRequest)
    ensures body.JArr? ==> (r.Err? <==> JNull in body.items)
    ensures r.Err? ==> r.error == BadRequest || r.error == ServerError
    ensures r.Ok? ==> |r.value| == |body.items| && forall i :: 0 <= i < |r.value| ==>
      r.value[i] == Registro(body.items[i], caller, BarcodeCorrected(body.items[i]))
  {
    if !body.JArr? then Err(BadRequest)
    else if JNull in body.items then Err(ServerError)
    else Ok(seq(|body.items|, i requires 0 <= i < |body.items| =>
              Registro(body.items[i], caller, BarcodeCorrected(body.items[i]))))
  }

  /** Every loaded record belongs to the caller, under either mapping; zero,
      empty and missing extras become `null`, and a missing brand becomes
      `""`. */
  lemma BulkRecordsOwnedAndDefaulted(body: Json, caller: Id, i: nat)
    requires body.JArr? && i < |body.items|
    ensures var r := MapeoMasivo(body, caller);
      r.Ok? ==> (r.value[i].userId == caller &&
                 (Get(Some(body.items[i]), "azucares") == Some(JNum(0.0)) ==> r.value[i].azucares == JNull) &&
                 (Get(Some(body.items[i]), "marca").None? ==> r.value[i].marca == JStr("")) &&
                 (!Truthy(Get(Some(body.items[i]), "codigoBarras")) ==> r.value[i].codigoBarras == Some(JNull)))
    ensures var r := MapeoMasivoCorregido(body, caller);
      r.Ok? ==> (r.value[i].userId == caller &&
                 (Get(Some(body.items[i]), "azucares") == Some(JNum(0.0)) ==> r.value[i].azucares == JNull) &&
                 (Get(Some(body.items[i]), "marca").None? ==> r.value[i].marca == JStr("")) &&
                 (!Truthy(Get(Some(body.items[i]), "codigoBarras")) ==> r.value[i].codigoBarras.None?))
  {
  }

  /** Mongoose's cast and `required` check of a `String` path: strings,
      numbers and booleans become text, arrays and objects are refused; a
      required path refuses a missing value, `null` and `""`. */
  predicate StringPathOk(v: Option<Json>, required: bool) {
    match v
    case None => !required
    case Some(JNull) => !required
    case Some(JStr(s)) => !required || s != ""
    case Some(JNum(_)) => true
    case Some(JBool(_)) => true
    case Some(JArr(_)) => false
    case Some(JObj(_)) => false
  }

  /** The same for a `Number` path: the path casts (`JsonValue.CastNumber`),
      and a required one is not left unset. */
  predicate NumberPathOk(v: Option<Json>, required: bool) {
    CastNumber(v).Some? && (required ==> CastNumber(v).value.Some?)
  }

  /** The product schema's validation of one record: `nombre` and the four
      macros are required, the other fields optional. */
  predicate SchemaAccepts(r: BulkRecord) {
    && StringPathOk(r.nombre, true) && StringPathOk(Some(r.marca), false)
    && StringPathOk(r.codigoBarras, false)
    && NumberPathOk(r.calorias, true) && NumberPathOk(r.proteinas, true)
    && NumberPathOk(r.carbohidratos, true) && NumberPathOk(r.grasas, true)
    && NumberPathOk(Some(r.azucares), false) && NumberPathOk(Some(r.grasasSaturadas), false)
    && NumberPathOk(Some(r.fibra), false) && NumberPathOk(Some(r.sal), false)
    && NumberPathOk(Some(r.porcion), false)
  }

  /** The unique, sparse index on `codigoBarras` takes a batch when no record
      that carries the field (`null` included) repeats a key already in the
      index (`indexed`) or a key another record of the batch carries;
      records without the field are not indexed. */
  predicate IndexAccepts(indexed: seq<Json>, recs: seq<BulkRecord>) {
    && (forall i :: 0 <= i < |recs| && recs[i].codigoBarras.Some? ==> recs[i].codigoBarras.value !in indexed)
    && (forall i, j :: 0 <= i < j < |recs| && recs[i].codigoBarras.Some? ==>
          recs[i].codigoBarras != recs[j].codigoBarras)
  }

  /** `Product.insertMany(recs)`: the batch is stored when every record
      passes the schema and the index takes it; any refusal is the 500 of
      the controller's `catch`. */
  function InsertMany(indexed: seq<Json>, recs: seq<BulkRecord>): (r: Result<seq<BulkRecord>>)
    ensures r.Ok? <==> (forall i :: 0 <= i < |recs| ==> SchemaAccepts(recs[i])) && IndexAccepts(indexed, recs)
    ensures r.Err? ==> r.error == ServerError
    ensures r.Ok? ==> r.value == recs
  {
    if (forall i :: 0 <= i < |recs| ==> SchemaAccepts(recs[i])) && IndexAccepts(indexed, recs) then Ok(recs)
    else Err(ServerError)
  }

  /** `cargarProductosMasivos` as written: 400 for a body that is not an
      array; 500 for a `null` element, for a record the schema refuses and
      for a batch the barcode index refuses; otherwise one stored record per
      element, all owned by the caller, every one carrying a barcode field. */
  function CargarProductosMasivos(indexed: seq<Json>, body: Json, caller: Id): (r: Result<seq<BulkRecord>>)
    ensures r == Err(BadRequest) <==> !body.JArr?
    ensures r.Err? ==> r.error == BadRequest || r.error == ServerError
    ensures body.JArr? && JNull in body.items ==> r == Err(ServerError)
    ensures body.JArr? && JNull !in body.items ==>
      (r.Ok? <==> (forall i :: 0 <= i < |body.items| ==>
                     SchemaAccepts(Registro(body.items[i], caller, BarcodeAsWritten(body.items[i]))))
                  && IndexAccepts(indexed, MapeoMasivo(body, caller).value))
    ensures r.Ok? ==> |r.value| == |body.items| && IndexAccepts(indexed, r.value)
    ensures r.Ok? ==> forall i :: 0 <= i < |r.value| ==>
      r.value[i].userId == caller && SchemaAccepts(r.value[i]) && r.value[i].codigoBarras.Some?
  {
    match MapeoMasivo(body, caller)
    case Err(e) => Err(e)
    case Ok(recs) => InsertMany(indexed, recs)
  }

  /** The bulk load with the corrected mapping: the same outcomes, except
      that records without a barcode leave the field out. */
  function CargarProductosMasivosCorregido(indexed: seq<Json>, body: Json, caller: Id): (r: Result<seq<BulkRecord>>)
    ensures r == Err(BadRequest) <==> !body.JArr?
    ensures r.Err? ==> r.error == BadRequest || r.error == ServerError
    ensures body.JArr? && JNull in body.items ==> r == Err(ServerError)
    ensures body.JArr? && JNull !in body.items ==>
      (r.Ok? <==> (forall i :: 0 <= i < |body.items| ==>
                     SchemaAccepts(Registro(body.items[i], caller, BarcodeCorrected(body.items[i]))))
                  && IndexAccepts(indexed, MapeoMasivoCorregido(body, caller).value))
    ensures r.Ok? ==> |r.value| == |body.items| && IndexAccepts(indexed, r.value)
    ensures r.Ok? ==> forall i :: 0 <= i < |r.value| ==>
      r.value[i].userId == caller && SchemaAccepts(r.value[i]) &&
      (r.value[i].codigoBarras.None? <==> !Truthy(Get(Some(body.items[i]), "codigoBarras")))
  {
    match MapeoMasivoCorregido(body, caller)
    case Err(e) => Err(e)
    case Ok(recs) => InsertMany(indexed, recs)
  }

  /** As written, a successful load had at most one element without a
      barcode, and then the index held no `null` yet: every such element
      is stored with the key `null`. */
  lemma AsWrittenAtMostOneBarcodeless(indexed: seq<Json>, body: Json, caller: Id)
    requires CargarProductosMasivos(indexed, body, caller).Ok?
    ensures forall i, j :: 0 <= i < j < |body.items| ==>
      Truthy(Get(Some(body.items[i]), "codigoBarras")) || Truthy(Get(Some(body.items[j]), "codigoBarras"))
    ensures (exists i :: 0 <= i < |body.items| && !Truthy(Get(Some(body.items[i]), "codigoBarras"))) ==>
      JNull !in indexed
  {
  }

  /** A complete product without a barcode. */
  function SinCodigo(nombre: string): Json {
    JObj(map["nombre" := JStr(nombre), "calorias" := JNum(100.0), "proteinas" := JNum(1.0),
             "carbohidratos" := JNum(2.0), "grasas" := JNum(3.0)])
  }

  /** Each such product alone passes the schema, with or without the
      `null` barcode. */
  lemma SinCodigoAccepted(nombre: string, caller: Id)
    requires nombre != ""
    ensures SchemaAccepts(Registro(SinCodigo(nombre), caller, BarcodeAsWritten(SinCodigo(nombre))))
    ensures SchemaAccepts(Registro(SinCodigo(nombre), caller, BarcodeCorrected(SinCodigo(nombre))))
    ensures BarcodeAsWritten(SinCodigo(nombre)) == Some(JNull)
    ensures BarcodeCorrected(SinCodigo(nombre)).None?
    ensures !Truthy(Get(Some(SinCodigo(nombre)), "codigoBarras"))
  {
    var p := SinCodigo(nombre);
    assert Get(Some(p), "nombre") == Some(JStr(nombre));
    assert Get(Some(p), "calorias") == Some(JNum(100.0));
    assert Get(Some(p), "proteinas") == Some(JNum(1.0));
    assert Get(Some(p), "carbohidratos") == Some(JNum(2.0));
    assert Get(Some(p), "grasas") == Some(JNum(3.0));
    assert "marca" !in p.fields && "codigoBarras" !in p.fields;
    assert "azucares" !in p.fields && "grasasSaturadas" !in p.fields;
    assert "fibra" !in p.fields && "sal" !in p.fields && "porcion" !in p.fields;
  }

  /** As written, two complete products loaded without a barcode both carry
      `codigoBarras: null`, which the unique index treats as one key: the
      whole load answers 500. The corrected mapping stores both. */
  lemma NullBarcodesCollide(caller: Id)
    ensures var body := JArr([SinCodigo("a"), SinCodigo("b")]);
      && CargarProductosMasivos([], body, caller) == Err(ServerError)
      && CargarProductosMasivosCorregido([], body, caller).Ok?
  {
    var body := JArr([SinCodigo("a"), SinCodigo("b")]);
    assert body.items[0] == SinCodigo("a") && body.items[1] == SinCodigo("b");
    assert JNull !in body.items;
    assert "codigoBarras" !in SinCodigo("a").fields && "codigoBarras" !in SinCodigo("b").fields;
    BarcodelessPairRefused([], body, caller, 0, 1);
    BarcodelessPairStored(caller);
  }

  /** As written, any two elements without a truthy barcode sink the whole
      load: both are stored with the key `null`. */
  lemma BarcodelessPairRefused(indexed: seq<Json>, body: Json, caller: Id, i: nat, j: nat)
    requires body.JArr? && JNull !in body.items && i < j < |body.items|
    requires !Truthy(Get(Some(body.items[i]), "codigoBarras")) && !Truthy(Get(Some(body.items[j]), "codigoBarras"))
    ensures CargarProductosMasivos(indexed, body, caller) == Err(ServerError)
  {
    var recs := MapeoMasivo(body, caller).value;
    assert !IndexAccepts(indexed, recs) by {
      assert recs[i].codigoBarras == Some(JNull) == recs[j].codigoBarras;
    }
    assert InsertMany(indexed, recs).Err?;
  }

  /** The corrected half: both records pass the schema and neither is
      indexed. */
  lemma BarcodelessPairStored(caller: Id)
    ensures CargarProductosMasivosCorregido([], JArr([SinCodigo("a"), SinCodigo("b")]), caller).Ok?
  {
    var body := JArr([SinCodigo("a"), SinCodigo("b")]);
    SinCodigoAccepted("a", caller);
    SinCodigoAccepted("b", caller);
    assert body.items[0] == SinCodigo("a") && body.items[1] == SinCodigo("b");
    BarcodelessRecordsNeverCollide([], body, caller);
  }

  /** Corrected, records without a barcode never collide: a batch of
      elements the schema accepts is stored as long as the barcodes that
      are given are distinct and not yet in the index. */
  lemma BarcodelessRecordsNeverCollide(indexed: seq<Json>, body: Json, caller: Id)
    requires body.JArr? && JNull !in body.items
    requires forall i :: 0 <= i < |body.items| ==>
      SchemaAccepts(Registro(body.items[i], caller, BarcodeCorrected(body.items[i])))
    requires forall i, j :: 0 <= i < j < |body.items| && Truthy(Get(Some(body.items[i]), "codigoBarras")) ==>
      Get(Some(body.items[i]), "codigoBarras") != Get(Some(body.items[j]), "codigoBarras")
    requires forall i :: 0 <= i < |body.items| && Truthy(Get(Some(body.items[i]), "codigoBarras")) ==>
      Get(Some(body.items[i]), "codigoBarras").value !in indexed
    ensures CargarProductosMasivosCorregido(indexed, body, caller).Ok?
  {
    var recs := MapeoMasivoCorregido(body, caller).value;
    forall i, j | 0 <= i < j < |recs| && recs[i].codigoBarras.Some?
      ensures recs[i].codigoBarras != recs[j].codigoBarras
    {
      assert recs[i].codigoBarras == Get(Some(body.items[i]), "codigoBarras");
    }
  }
}

=== FILE: recipes.dfy ===
/** The recipe book: creation from a request body, the listing of global and
    own recipes, and the read, update and delete guards, which, unlike the
    product ones, know nothing of admins. */
module RecipeBook {
  import opened Common
  import opened RecipeModel
  import opened JsonValue
  import opened ObjectIds
  import Validators
  import Seqs

  type Book = seq<Recipe>

  /** The one guard of read, update and delete: `recipe.userId &&
      recipe.userId.toString() !== req.user.userId`. */
  predicate OwnedByOther(r: Recipe, caller: Id) {
    r.userId.OwnedBy? && r.userId.user != caller
  }

  // ----- casting a request body the way the schema does -----

  /** A required number: the value `JsonValue.CastNumber` gives, or `None`
      when the cast fails or leaves the path unset, which the `required`
      check refuses. */
  function NumberField(v: Option<Json>): (r: Option<real>)
    ensures r.Some? <==> v.Some? && (v.value.JNum? || v.value.JBool?)
    ensures r.Some? && v.value.JNum? ==> r.value == v.value.n
    ensures r.Some? && v.value.JBool? ==> r.value == if v.value.b then 1.0 else 0.0
    ensures r.Some? ==> CastNumber(v) == Some(r)
  {
    match CastNumber(v)
    case Some(Some(n)) => Some(n)
    case _ => None
  }

  /** The number fields of a recipe; `azucares`, `grasasSaturadas` and
      `fibra` are optional. */
  const NumberKeys: seq<string> :=
    ["pesoFinal", "calorias", "proteinas", "carbohidratos", "grasas", "azucares", "grasasSaturadas", "fibra"]

  /** One ingredient subdocument: a product id that casts to an ObjectId and
      a quantity that casts to a number, both required; the stored id is the
      cast one, and a boolean quantity is stored as 1 or 0. */
  function CastIngredient(v: Json): (r: Option<Ingredient>)
    ensures var p := Get(Some(v), "productId");
      var c := Get(Some(v), "cantidad");
      r.Some? <==> p.Some? && p.value.JStr? && IsValidObjectId(p.value.s) &&
                   c.Some? && (c.value.JNum? || c.value.JBool?)
    ensures r.Some? ==> Some(r.value.productId) == CastId(Get(Some(v), "productId").value.s)
    ensures r.Some? ==> Canonical(r.value.productId)
    ensures r.Some? ==> CastNumber(Get(Some(v), "cantidad")) == Some(Some(r.value.cantidad))
  {
    var p := Get(Some(v), "productId");
    var q := NumberField(Get(Some(v), "cantidad"));
    if p.Some? && p.value.JStr? && q.Some? then
      match CastId(p.value.s)
      case Some(oid) => Some(Ingredient(oid, q.value))
      case None => None
    else None
  }

  /** The whole ingredient list casts, or the save fails. */
  function CastIngredients(items: seq<Json>): (r: Option<seq<Ingredient>>)
    ensures r.Some? <==> forall i :: 0 <= i < |items| ==> CastIngredient(items[i]).Some?
    ensures r.Some? ==> (|r.value| == |items| &&
      forall i :: 0 <= i < |items| ==> CastIngredient(items[i]) == Some(r.value[i]))
  {
    if |items| == 0 then Some([])
    else
      match (CastIngredient(items[0]), CastIngredients(items[1..]))
      case (Some(x), Some(rest)) =>
        assert forall i :: 1 <= i < |items| ==> items[i] == items[1..][i - 1];
        Some([x] + rest)
      case _ =>
        assert forall i :: 1 <= i < |items| ==> items[i] == items[1..][i - 1];
        None
  }

  /** `new Recipe({...})` on the body's fields: `None` when some field does
      not cast or a required one is missing. A missing ingredient list is
      the schema's default, the empty array. */
  function CastRecipe(body: Json, id: Id, owner: Owner): (r: Option<Recipe>)
    ensures r.Some? ==> r.value.id == id && r.value.userId == owner
    ensures r.Some? ==> r.value.nombre != "" && Get(Some(body), "nombre") == Some(JStr(r.value.nombre))
    ensures r.Some? ==>
      && NumberField(Get(Some(body), "pesoFinal")) == Some(r.value.pesoFinal)
      && NumberField(Get(Some(body), "calorias")) == Some(r.value.calorias)
      && NumberField(Get(Some(body), "proteinas")) == Some(r.value.proteinas)
      && NumberField(Get(Some(body), "carbohidratos")) == Some(r.value.carbohidratos)
      && NumberField(Get(Some(body), "grasas")) == Some(r.value.grasas)
    ensures r.Some? ==>
      && CastNumber(Get(Some(body), "azucares")) == Some(r.value.azucares)
      && CastNumber(Get(Some(body), "grasasSaturadas")) == Some(r.value.grasasSaturadas)
      && CastNumber(Get(Some(body), "fibra")) == Some(r.value.fibra)
    ensures r.Some? ==> var ing := Get(Some(body), "ingredientes");
      if ing.None? then r.value.ingredientes == []
      else ing.value.JArr? && CastIngredients(ing.value.items) == Some(r.value.ingredientes)
    ensures r.None? <==>
      || !(Get(Some(body), "nombre").Some? && Get(Some(body), "nombre").value.JStr? && Get(Some(body), "nombre").value.s != "")
      || (Get(Some(body), "ingredientes").Some? && !Get(Some(body), "ingredientes").value.JArr?)
      || (Get(Some(body), "ingredientes").Some? && Get(Some(body), "ingredientes").value.JArr?
          && CastIngredients(Get(Some(body), "ingredientes").value.items).None?)
      || NumberField(Get(Some(body), "pesoFinal")).None? || NumberField(Get(Some(body), "calorias")).None?
      || NumberField(Get(Some(body), "proteinas")).None? || NumberField(Get(Some(body), "carbohidratos")).None?
      || NumberField(Get(Some(body), "grasas")).None?
      || CastNumber(Get(Some(body), "azucares")).None? || CastNumber(Get(Some(body), "grasasSaturadas")).None?
      || CastNumber(Get(Some(body), "fibra")).None?
  {
    var b := Some(body);
    var nombre := Get(b, "nombre");
    var ing := Get(b, "ingredientes");
    var ingredientes :=
      if ing.None? then Some([])
      else if ing.value.JArr? then CastIngredients(ing.value.items)
      else None;
    var pesoFinal := NumberField(Get(b, "pesoFinal"));
    var calorias := NumberField(Get(b, "calorias"));
    var proteinas := NumberField(Get(b, "proteinas"));
    var carbohidratos := NumberField(Get(b, "carbohidratos"));
    var grasas := NumberField(Get(b, "grasas"));
    var azucares := CastNumber(Get(b, "azucares"));
    var grasasSaturadas := CastNumber(Get(b, "grasasSaturadas"));
    var fibra := CastNumber(Get(b, "fibra"));
    if nombre.Some? && nombre.value.JStr? && nombre.value.s != "" && ingredientes.Some?
       && pesoFinal.Some? && calorias.Some? && proteinas.Some? && carbohidratos.Some? && grasas.Some?
       && azucares.Some? && grasasSaturadas.Some? && fibra.Some?
    then Some(Recipe(id, nombre.value.s, ingredientes.value, pesoFinal.value, calorias.value,
                     proteinas.value, carbohidratos.value, grasas.value,
                     azucares.value, grasasSaturadas.value, fibra.value, owner))
    else None
  }

  // ----- createRecipe -----

  /** `POST /recipes`: the validator answers 400 first; a body it accepts
      but the schema cannot cast fails the save (500); otherwise the recipe
      is appended, owned by the caller. */
  function CreateRecipe(b: Book, newId: Id, caller: Id, body: Json): (r: Result<Book>)
    ensures r == Err(BadRequest) <==> !Validators.RecipeBodyValid(body)
    ensures r.Err? ==> r.error == BadRequest || r.error == ServerError
    ensures r.Ok? ==> |r.value| == |b| + 1 && r.value[..|b|] == b
    ensures r.Ok? ==> r.value[|b|].id == newId && r.value[|b|].userId == OwnedBy(caller)
    ensures r.Ok? ==> Get(Some(body), "nombre") == Some(JStr(r.value[|b|].nombre))
    ensures r.Ok? ==>
      && NumberField(Get(Some(body), "pesoFinal")) == Some(r.value[|b|].pesoFinal)
      && NumberField(Get(Some(body), "calorias")) == Some(r.value[|b|].calorias)
      && NumberField(Get(Some(body), "proteinas")) == Some(r.value[|b|].proteinas)
      && NumberField(Get(Some(body), "carbohidratos")) == Some(r.value[|b|].carbohidratos)
      && NumberField(Get(Some(body), "grasas")) == Some(r.value[|b|].grasas)
    ensures r.Ok? ==>
      && CastNumber(Get(Some(body), "azucares")) == Some(r.value[|b|].azucares)
      && CastNumber(Get(Some(body), "grasasSaturadas")) == Some(r.value[|b|].grasasSaturadas)
      && CastNumber(Get(Some(body), "fibra")) == Some(r.value[|b|].fibra)
    ensures r.Ok? ==> Get(Some(body), "ingredientes").Some? && Get(Some(body), "ingredientes").value.JArr?
    ensures r.Ok? ==> CastIngredients(Get(Some(body), "ingredientes").value.items) == Some(r.value[|b|].ingredientes)
  {
    if !Validators.RecipeBodyValid(body) then Err(BadRequest)
    else
      match CastRecipe(body, newId, OwnedBy(caller))
      case None => Err(ServerError)
      case Some(x) => Ok(b + [x])
  }

  /** A created recipe has a positive final weight, so the daily summary can
      divide by it; its macros are not negative and it lists at least one
      ingredient. */
  lemma CreatedRecipeIsWeighed(b: Book, newId: Id, caller: Id, body: Json)
    requires CreateRecipe(b, newId, caller, body).Ok?
    ensures var x := CreateRecipe(b, newId, caller, body).value[|b|];
      && x.pesoFinal > 0.0
      && x.calorias >= 0.0 && x.proteinas >= 0.0 && x.carbohidratos >= 0.0 && x.grasas >= 0.0
      && |x.ingredientes| >= 1
      && (x.azucares.Some? ==> x.azucares.value >= 0.0)
  {
    var bd := Some(body);
    assert Validators.RecipeBodyValid(body);
    assert Validators.ArrayMin(Get(bd, "ingredientes"), 1);
  }

  /** A valid body whose name is a string, whose ingredients all cast and
      whose number fields hold no array is stored: the validator and the
      schema agree on everything else. */
  lemma ValidBodyIsStored(b: Book, newId: Id, caller: Id, body: Json)
    requires Validators.RecipeBodyValid(body)
    requires Get(Some(body), "nombre").value.JStr?
    requires forall i :: 0 <= i < |Get(Some(body), "ingredientes").value.items| ==>
      CastIngredient(Get(Some(body), "ingredientes").value.items[i]).Some?
    requires forall k :: k in NumberKeys && Get(Some(body), k).Some? ==> !Get(Some(body), k).value.JArr?
    ensures CreateRecipe(b, newId, caller, body).Ok?
  {
    var bd := Some(body);
    forall k | k in NumberKeys && Get(bd, k).Some?
      ensures Get(bd, k).value.JNum?
    {
      Validators.ScalarRules(Get(bd, k).value);
    }
  }

  /** The validator tests an array in a number field element by element, so
      `[2]`, and even `[]`, gets past it; the schema cannot cast an array to
      a number, and the save fails with 500 rather than 400. */
  lemma ArrayNumberFailsAfterValidation(b: Book, newId: Id, caller: Id, body: Json, k: string)
    requires Validators.RecipeBodyValid(body)
    requires k in NumberKeys && Get(Some(body), k).Some? && Get(Some(body), k).value.JArr?
    ensures CreateRecipe(b, newId, caller, body) == Err(ServerError)
  {
  }

  /** Such a body exists: a final weight of `[2]` with everything else in
      order. */
  lemma ArrayWeightExample(b: Book, newId: Id, caller: Id, id: string)
    requires IsValidObjectId(id)
    ensures var body := JObj(map["nombre" := JStr("Bizcocho"), "pesoFinal" := JArr([JNum(2.0)]),
      "calorias" := JNum(1.0), "proteinas" := JNum(1.0), "carbohidratos" := JNum(1.0), "grasas" := JNum(1.0),
      "ingredientes" := JArr([JObj(map["productId" := JStr(id), "cantidad" := JNum(1.0)])])]);
      Validators.RecipeBodyValid(body) && CreateRecipe(b, newId, caller, body) == Err(ServerError)
  {
    var body := JObj(map["nombre" := JStr("Bizcocho"), "pesoFinal" := JArr([JNum(2.0)]),
      "calorias" := JNum(1.0), "proteinas" := JNum(1.0), "carbohidratos" := JNum(1.0), "grasas" := JNum(1.0),
      "ingredientes" := JArr([JObj(map["productId" := JStr(id), "cantidad" := JNum(1.0)])])]);
    var bd := Some(body);
    assert Get(bd, "nombre") == Some(JStr("Bizcocho"));
    assert Get(bd, "pesoFinal") == Some(JArr([JNum(2.0)]));
    assert Validators.Passes(Validators.PositiveFloat, JArr([JNum(2.0)]).items[0]);
    assert Get(bd, "calorias") == Some(JNum(1.0)) && Get(bd, "proteinas") == Some(JNum(1.0));
    assert Get(bd, "carbohidratos") == Some(JNum(1.0)) && Get(bd, "grasas") == Some(JNum(1.0));
    assert Get(bd, "azucares").None? && Get(bd, "grasasSaturadas").None? && Get(bd, "fibra").None?;
    assert Get(bd, "ingredientes").Some? && |Get(bd, "ingredientes").value.items| == 1;
    ArrayNumberFailsAfterValidation(b, newId, caller, body, "pesoFinal");
  }

  // ----- reads -----

  /** `getRecipes`: exactly the global recipes and the caller's. */
  function GetRecipes(b: Book, caller: Id): (r: seq<Recipe>)
    ensures forall i :: 0 <= i < |r| ==> r[i] in b && r[i].userId.VisibleTo(caller)
    ensures forall i :: 0 <= i < |b| && b[i].userId.VisibleTo(caller) ==> b[i] in r
  {
    Seqs.Filter(b, ListedFor(caller))
  }

  function ListedFor(caller: Id): Recipe -> bool {
    (x: Recipe) => x.userId.VisibleTo(caller)
  }

  /** `getRecipeById`: 500 when the id does not cast to an ObjectId; 404
      when absent; 403 exactly when someone else owns the recipe. */
  function GetRecipeById(b: Book, id: string, caller: Id): (r: Result<Recipe>)
    ensures r == Err(ServerError) <==> !IsValidObjectId(id)
    ensures r == Err(NotFound) <==> FindById(b, RecipeId, id) == NoMatch
    ensures r == Err(Forbidden) <==>
      FindById(b, RecipeId, id).At? && OwnedByOther(b[FindById(b, RecipeId, id).k], caller)
    ensures r.Ok? ==> Some(r.value.id) == CastId(id) && r.value in b && r.value.userId.VisibleTo(caller)
  {
    match FindById(b, RecipeId, id)
    case BadId => Err(ServerError)
    case NoMatch => Err(NotFound)
    case At(k) => if OwnedByOther(b[k], caller) then Err(Forbidden) else Ok(b[k])
  }

  /** The guard reads the same as the listing's scope: a recipe is readable
      by id exactly when the listing shows it. */
  lemma ReadableIffListed(b: Book, caller: Id, k: nat, id: string)
    requires Seqs.KeysUnique(b, RecipeId) && k < |b| && CastId(id) == Some(b[k].id)
    ensures GetRecipeById(b, id, caller).Ok? <==> b[k] in GetRecipes(b, caller)
  {
    FindStoredId(b, RecipeId, k, id);
  }

  // ----- updateRecipe -----

  /** The fields an update carries: `nombre` and `ingredientes` apply when
      truthy (any array is), the numbers whenever present; an inner `None`
      is an explicit `null`. */
  datatype RecipePatch = RecipePatch(
    nombre: Option<string>,
    ingredientes: Option<seq<Ingredient>>,
    pesoFinal: Option<real>,
    calorias: Option<real>,
    proteinas: Option<real>,
    carbohidratos: Option<real>,
    grasas: Option<real>,
    azucares: Option<Option<real>>,
    grasasSaturadas: Option<Option<real>>,
    fibra: Option<Option<real>>)

  function Given<T>(v: Option<T>, current: T): T {
    if v.Some? then v.value else current
  }

  /** The recipe after the assignments of `updateRecipe`; the owner is not
      among them. */
  function ApplyRecipePatch(x: Recipe, p: RecipePatch): (y: Recipe)
    ensures y.id == x.id && y.userId == x.userId
  {
    x.(nombre := if p.nombre.Some? && p.nombre.value != "" then p.nombre.value else x.nombre,
       ingredientes := Given(p.ingredientes, x.ingredientes),
       pesoFinal := Given(p.pesoFinal, x.pesoFinal),
       calorias := Given(p.calorias, x.calorias),
       proteinas := Given(p.proteinas, x.proteinas),
       carbohidratos := Given(p.carbohidratos, x.carbohidratos),
       grasas := Given(p.grasas, x.grasas),
       azucares := Given(p.azucares, x.azucares),
       grasasSaturadas := Given(p.grasasSaturadas, x.grasasSaturadas),
       fibra := Given(p.fibra, x.fibra))
  }

  /** `updateRecipe`: the same lookup and guard as the read, then the
      assignments. */
  function UpdateRecipe(b: Book, id: string, caller: Id, p: RecipePatch): (r: Result<Book>)
    ensures r.Err? <==> GetRecipeById(b, id, caller).Err?
    ensures r.Err? ==> r == Err(GetRecipeById(b, id, caller).error)
    ensures r.Ok? ==> (|r.value| == |b| &&
      exists k :: 0 <= k < |b| && Some(b[k].id) == CastId(id) && r.value == b[k := ApplyRecipePatch(b[k], p)])
  {
    match FindById(b, RecipeId, id)
    case BadId => Err(ServerError)
    case NoMatch => Err(NotFound)
    case At(k) => if OwnedByOther(b[k], caller) then Err(Forbidden) else Ok(b[k := ApplyRecipePatch(b[k], p)])
  }

  /** Each field takes the request's value when the request carries one (a
      non-empty one for the name) and keeps its own otherwise; the owner
      never changes. */
  lemma RecipePatchFieldByField(x: Recipe, p: RecipePatch)
    ensures var y := ApplyRecipePatch(x, p);
      && y.id == x.id
      && (p.nombre.None? || p.nombre.value == "" ==> y.nombre == x.nombre)
      && (p.nombre.Some? && p.nombre.value != "" ==> y.nombre == p.nombre.value)
      && AssignedIfGiven(p.ingredientes, x.ingredientes, y.ingredientes)
      && AssignedIfGiven(p.pesoFinal, x.pesoFinal, y.pesoFinal)
      && AssignedIfGiven(p.calorias, x.calorias, y.calorias)
      && AssignedIfGiven(p.proteinas, x.proteinas, y.proteinas)
      && AssignedIfGiven(p.carbohidratos, x.carbohidratos, y.carbohidratos)
      && AssignedIfGiven(p.grasas, x.grasas, y.grasas)
      && AssignedIfGiven(p.azucares, x.azucares, y.azucares)
      && AssignedIfGiven(p.grasasSaturadas, x.grasasSaturadas, y.grasasSaturadas)
      && AssignedIfGiven(p.fibra, x.fibra, y.fibra)
      && y.userId == x.userId
  {
  }

  /** `if (nombre) recipe.nombre = nombre`: a truthy name is taken when it
      is a string; `Some(None)` leaves the name alone; `None` is a name the
      cast refuses. */
  function NombrePatch(v: Option<Json>): (r: Option<Option<string>>)
    ensures r.None? <==> Truthy(v) && !v.value.JStr?
    ensures r.Some? ==> (r.value.Some? <==> Truthy(v))
    ensures r.Some? && r.value.Some? ==> v == Some(JStr(r.value.value))
  {
    if !Truthy(v) then Some(None) else if v.value.JStr? then Some(Some(v.value.s)) else None
  }

  /** `if (ingredientes) recipe.ingredientes = ingredientes`: any array is
      truthy, and every ingredient of it must cast. */
  function IngredientesPatch(v: Option<Json>): (r: Option<Option<seq<Ingredient>>>)
    ensures r.None? <==> Truthy(v) && !(v.value.JArr? && CastIngredients(v.value.items).Some?)
    ensures r.Some? ==> (r.value.Some? <==> Truthy(v))
    ensures r.Some? && r.value.Some? ==> CastIngredients(v.value.items) == r.value
  {
    if !Truthy(v) then Some(None)
    else if v.value.JArr? then
      (match CastIngredients(v.value.items) case Some(xs) => Some(Some(xs)) case None => None)
    else None
  }

  /** The patch a request body makes: `None` when a field carried cannot be
      cast. */
  function RecipePatchOf(body: Json): (r: Option<RecipePatch>)
    ensures r.Some? <==>
      && NombrePatch(Get(Some(body), "nombre")).Some? && IngredientesPatch(Get(Some(body), "ingredientes")).Some?
      && Settable(Get(Some(body), "pesoFinal")) && Settable(Get(Some(body), "calorias"))
      && Settable(Get(Some(body), "proteinas")) && Settable(Get(Some(body), "carbohidratos"))
      && Settable(Get(Some(body), "grasas"))
      && CastNumber(Get(Some(body), "azucares")).Some? && CastNumber(Get(Some(body), "grasasSaturadas")).Some?
      && CastNumber(Get(Some(body), "fibra")).Some?
    ensures r.Some? ==>
      && Some(r.value.nombre) == NombrePatch(Get(Some(body), "nombre"))
      && Some(r.value.ingredientes) == IngredientesPatch(Get(Some(body), "ingredientes"))
    ensures r.Some? ==>
      && TakenIfPresent(Get(Some(body), "pesoFinal"), r.value.pesoFinal)
      && TakenIfPresent(Get(Some(body), "calorias"), r.value.calorias)
      && TakenIfPresent(Get(Some(body), "proteinas"), r.value.proteinas)
      && TakenIfPresent(Get(Some(body), "carbohidratos"), r.value.carbohidratos)
      && TakenIfPresent(Get(Some(body), "grasas"), r.value.grasas)
    ensures r.Some? ==>
      && CastIfPresent(Get(Some(body), "azucares"), r.value.azucares)
      && CastIfPresent(Get(Some(body), "grasasSaturadas"), r.value.grasasSaturadas)
      && CastIfPresent(Get(Some(body), "fibra"), r.value.fibra)
  {
    var b := Some(body);
    var nombreP := NombrePatch(Get(b, "nombre"));
    var ingP := IngredientesPatch(Get(b, "ingredientes"));
    if nombreP.Some? && ingP.Some?
       && Settable(Get(b, "pesoFinal")) && Settable(Get(b, "calorias")) && Settable(Get(b, "proteinas"))
       && Settable(Get(b, "carbohidratos")) && Settable(Get(b, "grasas"))
       && CastNumber(Get(b, "azucares")).Some?
       && CastNumber(Get(b, "grasasSaturadas")).Some?
       && CastNumber(Get(b, "fibra")).Some?
    then Some(RecipePatch(nombreP.value, ingP.value,
                          NumberField(Get(b, "pesoFinal")), NumberField(Get(b, "calorias")),
                          NumberField(Get(b, "proteinas")), NumberField(Get(b, "carbohidratos")),
                          NumberField(Get(b, "grasas")),
                          Present2(Get(b, "azucares")), Present2(Get(b, "grasasSaturadas")), Present2(Get(b, "fibra"))))
    else None
  }

  /** A required number of the patch is set exactly when the body carries
      the field, and then to the number it casts to. */
  predicate TakenIfPresent(v: Option<Json>, f: Option<real>) {
    (f.Some? <==> v.Some?) && (f.Some? ==> NumberField(v) == f)
  }

  /** An optional number of the patch is set exactly when the body carries
      the field, and then to its cast, which may unset the path. */
  predicate CastIfPresent(v: Option<Json>, f: Option<Option<real>>) {
    (f.Some? <==> v.Some?) && (f.Some? ==> CastNumber(v) == f)
  }

  /** A required number field an update may assign: absent, or present
      with a value the cast turns into a number. */
  predicate Settable(v: Option<Json>) {
    v.None? || NumberField(v).Some?
  }

  /** An optional number that is present, as it casts (possibly unset by
      `null` or `""`), or nothing. */
  function Present2(v: Option<Json>): Option<Option<real>> {
    if v.None? then None else CastNumber(v)
  }

  /** `PUT /recipes/:id`: the validator first (400), then the controller,
      then the save, which fails when a field cannot be cast. */
  function UpdateRecipeRequest(b: Book, id: string, caller: Id, body: Json): (r: Result<Book>)
    ensures r == Err(BadRequest) <==> !Validators.RecipeBodyValid(body)
    ensures Validators.RecipeBodyValid(body) && !IsValidObjectId(id) ==> r == Err(ServerError)
    ensures Validators.RecipeBodyValid(body) && FindById(b, RecipeId, id) == NoMatch ==> r == Err(NotFound)
    ensures Validators.RecipeBodyValid(body) && GetRecipeById(b, id, caller).Err? ==>
      r == Err(GetRecipeById(b, id, caller).error)
    ensures r.Ok? ==> RecipePatchOf(body).Some? && r == UpdateRecipe(b, id, caller, RecipePatchOf(body).value)
  {
    if !Validators.RecipeBodyValid(body) then Err(BadRequest)
    else
      match RecipePatchOf(body)
      case None =>
        (match UpdateRecipe(b, id, caller, RecipePatch(None, None, None, None, None, None, None, None, None, None))
         case Ok(_) => Err(ServerError)
         case Err(e) => Err(e))
      case Some(p) => UpdateRecipe(b, id, caller, p)
  }

  /** Because the validator runs on updates too, an updated recipe keeps a
      positive final weight and at least one ingredient, and takes the
      request's name, weight and macros. */
  lemma ValidatedUpdateKeepsWeighed(b: Book, id: string, caller: Id, body: Json)
    requires UpdateRecipeRequest(b, id, caller, body).Ok?
    ensures var r := UpdateRecipeRequest(b, id, caller, body).value;
      forall i :: 0 <= i < |b| && r[i] != b[i] ==>
        && r[i].pesoFinal > 0.0 && |r[i].ingredientes| >= 1
        && Get(Some(body), "pesoFinal") == Some(JNum(r[i].pesoFinal))
        && Get(Some(body), "calorias") == Some(JNum(r[i].calorias))
        && r[i].userId == b[i].userId
  {
    var bd := Some(body);
    assert Validators.RecipeBodyValid(body);
    assert Validators.FloatGt0(Get(bd, "pesoFinal"));
    assert Validators.ArrayMin(Get(bd, "ingredientes"), 1);
    var p := RecipePatchOf(body).value;
    Validators.ScalarRules(Get(bd, "pesoFinal").value);
    Validators.ScalarRules(Get(bd, "calorias").value);
    assert p.pesoFinal == Some(Get(bd, "pesoFinal").value.n);
    assert p.calorias == Some(Get(bd, "calorias").value.n);
    assert p.ingredientes.Some? && |p.ingredientes.value| >= 1;
  }

  // ----- deleteRecipe -----

  /** `deleteRecipe`: the same guard; on success exactly that recipe goes. */
  function DeleteRecipe(b: Book, id: string, caller: Id): (r: Result<Book>)
    ensures r.Err? <==> GetRecipeById(b, id, caller).Err?
    ensures r.Err? ==> r == Err(GetRecipeById(b, id, caller).error)
    ensures r.Ok? ==> exists k :: 0 <= k < |b| && Some(b[k].id) == CastId(id) && r.value == b[..k] + b[k + 1..]
  {
    match FindById(b, RecipeId, id)
    case BadId => Err(ServerError)
    case NoMatch => Err(NotFound)
    case At(k) => if OwnedByOther(b[k], caller) then Err(Forbidden) else Ok(b[..k] + b[k + 1..])
  }

  /** Unlike products, a global recipe may be changed and deleted by any
      user, and a user's recipe by nobody else, admins included. */
  lemma AnyUserMayChangeGlobalRecipes(b: Book, k: nat, id: string, caller: Id, p: RecipePatch)
    requires Seqs.KeysUnique(b, RecipeId) && k < |b| && CastId(id) == Some(b[k].id)
    ensures b[k].userId == Global ==>
      UpdateRecipe(b, id, caller, p).Ok? && DeleteRecipe(b, id, caller).Ok?
    ensures b[k].userId.OwnedBy? && b[k].userId.user != caller ==>
      UpdateRecipe(b, id, caller, p) == Err(Forbidden) && DeleteRecipe(b, id, caller) == Err(Forbidden)
  {
    FindStoredId(b, RecipeId, k, id);
  }
}

=== FILE: seqs.dfy ===
/** In-memory counterparts of the query operators the controllers use:
    filtering (`find` with a condition), ordering (`sort`) and first-seen
    de-duplication (a `Map` keyed by id). */
module Seqs {
  import opened Common

  /** The elements of `s` that satisfy `p`, in their original order. */
  function Filter<T>(s: seq<T>, p: T -> bool): (r: seq<T>)
    ensures |r| <= |s|
    ensures forall i :: 0 <= i < |r| ==> p(r[i])
    ensures forall i :: 0 <= i < |r| ==> r[i] in s
    ensures forall i :: 0 <= i < |s| && p(s[i]) ==> s[i] in r
    ensures multiset(r) <= multiset(s)
  {
    if |s| == 0 then []
    else
      assert s == [s[0]] + s[1..];
      if p(s[0]) then [s[0]] + Filter(s[1..], p)
      else Filter(s[1..], p)
  }

  lemma {:induction false} FilterAppend<T>(a: seq<T>, b: seq<T>, p: T -> bool)
    ensures Filter(a + b, p) == Filter(a, p) + Filter(b, p)
  {
    if |a| == 0 {
      assert a + b == b;
    } else {
      assert (a + b)[1..] == a[1..] + b;
      FilterAppend(a[1..], b, p);
    }
  }

  /** Nothing passes a condition no element meets. */
  lemma {:induction false} FilterNone<T>(s: seq<T>, p: T -> bool)
    requires forall i :: 0 <= i < |s| ==> !p(s[i])
    ensures Filter(s, p) == []
  {
    if |s| > 0 {
      FilterNone(s[1..], p);
    }
  }

  /** The position of the first element whose key is `k`: `findById` on a
      collection in natural order. */
  function FindFirst<T, K(==)>(s: seq<T>, key: T -> K, k: K): (r: Option<nat>)
    ensures r.Some? ==> r.value < |s| && key(s[r.value]) == k
    ensures r.Some? ==> forall i :: 0 <= i < r.value ==> key(s[i]) != k
    ensures r.None? <==> forall i :: 0 <= i < |s| ==> key(s[i]) != k
  {
    if |s| == 0 then None
    else if key(s[0]) == k then Some(0)
    else
      match FindFirst(s[1..], key, k)
      case Some(j) => Some(j + 1)
      case None => None
  }

  /** No two elements share a key: Mongo's unique `_id`. */
  ghost predicate KeysUnique<T, K>(s: seq<T>, key: T -> K) {
    forall i, j :: 0 <= i < j < |s| ==> key(s[i]) != key(s[j])
  }

  /** With unique keys, looking up an element's key finds that element. */
  lemma FindFirstUnique<T, K>(s: seq<T>, key: T -> K, i: nat)
    requires KeysUnique(s, key) && i < |s|
    ensures FindFirst(s, key, key(s[i])) == Some(i)
  {
  }

  /** `s.map(f)`. */
  function Map<T, U>(s: seq<T>, f: T -> U): (r: seq<U>)
    ensures |r| == |s| && forall i :: 0 <= i < |s| ==> r[i] == f(s[i])
  {
    seq(|s|, i requires 0 <= i < |s| => f(s[i]))
  }

  /** Dropping the element at `j` takes exactly that element out of the
      multiset. */
  lemma WithoutOne<T>(b: seq<T>, j: nat)
    requires j < |b|
    ensures multiset(b[..j] + b[j + 1..]) == multiset(b) - multiset{b[j]}
  {
    assert b == b[..j] + [b[j]] + b[j + 1..];
  }

  /** Mapping two orderings of the same elements gives two orderings of the
      same images. */
  lemma {:induction false} MapPermutation<T, U>(a: seq<T>, b: seq<T>, f: T -> U)
    requires multiset(a) == multiset(b)
    ensures multiset(Map(a, f)) == multiset(Map(b, f))
  {
    if |a| == 0 {
      assert |b| == |multiset(b)| == 0;
    } else {
      assert a[0] in multiset(b);
      var j := IndexOf(b, a[0]);
      var a', b' := a[1..], b[..j] + b[j + 1..];
      RestPermutation(a, b, j);
      MapPermutation(a', b', f);
      assert a[..0] + a[1..] == a';
      MapWithoutOne(a, 0, a', f);
      MapWithoutOne(b, j, b', f);
    }
  }

  /** Taking the same element out of two orderings leaves two orderings. */
  lemma RestPermutation<T>(a: seq<T>, b: seq<T>, j: nat)
    requires multiset(a) == multiset(b) && |a| > 0 && j < |b| && b[j] == a[0]
    ensures multiset(a[1..]) == multiset(b[..j] + b[j + 1..])
  {
    WithoutOne(a, 0);
    WithoutOne(b, j);
    assert a[..0] + a[1..] == a[1..];
  }

  lemma MapWithoutOne<T, U>(b: seq<T>, j: nat, rest: seq<T>, f: T -> U)
    requires j < |b| && rest == b[..j] + b[j + 1..]
    ensures multiset(Map(b, f)) == multiset(Map(rest, f)) + multiset{f(b[j])}
  {
    var r := Map(b, f);
    var r' := Map(rest, f);
    assert r' == r[..j] + r[j + 1..];
    WithoutOne(r, j);
  }

  ghost predicate SortedBy<T>(s: seq<T>, key: T -> int) {
    forall i, j :: 0 <= i < j < |s| ==> key(s[i]) <= key(s[j])
  }

  function Insert<T>(x: T, s: seq<T>, key: T -> int): (r: seq<T>)
    requires SortedBy(s, key)
    ensures multiset(r) == multiset(s) + multiset{x}
    ensures SortedBy(r, key)
  {
    if |s| == 0 then [x]
    else if key(x) <= key(s[0]) then
      assert forall i :: 0 <= i < |s| ==> key(s[0]) <= key(s[i]);
      ConsSorted(x, s, key);
      [x] + s
    else
      var t := Insert(x, s[1..], key);
      assert s == [s[0]] + s[1..];
      InsertLowerBound(s[0], x, s[1..], t, key);
      ConsSorted(s[0], t, key);
      [s[0]] + t
  }

  /** A lower bound of `x` and of every element of `s` bounds every element
      of anything with the multiset of `s` plus `x`. */
  lemma InsertLowerBound<T>(h: T, x: T, s: seq<T>, t: seq<T>, key: T -> int)
    requires key(h) <= key(x)
    requires forall i :: 0 <= i < |s| ==> key(h) <= key(s[i])
    requires multiset(t) == multiset(s) + multiset{x}
    ensures forall i :: 0 <= i < |t| ==> key(h) <= key(t[i])
  {
    forall i | 0 <= i < |t| ensures key(h) <= key(t[i]) {
      assert t[i] in multiset(t);
      if t[i] != x {
        assert t[i] in multiset(s);
        var k :| 0 <= k < |s| && s[k] == t[i];
      }
    }
  }

  lemma ConsSorted<T>(h: T, t: seq<T>, key: T -> int)
    requires SortedBy(t, key)
    requires forall i :: 0 <= i < |t| ==> key(h) <= key(t[i])
    ensures SortedBy([h] + t, key)
  {
    var r := [h] + t;
    forall i, j | 0 <= i < j < |r| ensures key(r[i]) <= key(r[j]) {
      if i > 0 {
        assert r[i] == t[i - 1] && r[j] == t[j - 1];
      } else {
        assert r[j] == t[j - 1];
      }
    }
  }

  /** Ascending order by `key`; the relative order of equal keys is
      unspecified, as it is for a database sort. */
  function SortBy<T>(s: seq<T>, key: T -> int): (r: seq<T>)
    ensures multiset(r) == multiset(s)
    ensures SortedBy(r, key)
    ensures |r| == |s|
    ensures forall i :: 0 <= i < |r| ==> r[i] in s
    ensures forall i :: 0 <= i < |s| ==> s[i] in r
  {
    if |s| == 0 then []
    else
      assert s == [s[0]] + s[1..];
      var r := Insert(s[0], SortBy(s[1..], key), key);
      SameMultisetSameElements(r, s);
      r
  }

  lemma SameMultisetSameElements<T>(a: seq<T>, b: seq<T>)
    requires multiset(a) == multiset(b)
    ensures |a| == |b|
    ensures forall i :: 0 <= i < |a| ==> a[i] in b
    ensures forall i :: 0 <= i < |b| ==> b[i] in a
  {
    assert |a| == |multiset(a)| == |multiset(b)| == |b|;
    forall i | 0 <= i < |a| ensures a[i] in b {
      assert a[i] in multiset(a);
    }
    forall i | 0 <= i < |b| ensures b[i] in a {
      assert b[i] in multiset(b);
    }
  }

  ghost predicate NoDup<T>(s: seq<T>) {
    forall i, j :: 0 <= i < j < |s| ==> s[i] != s[j]
  }

  /** The position of the first occurrence of `x`. */
  function IndexOf<T(==)>(s: seq<T>, x: T): (k: nat)
    requires x in s
    ensures k < |s| && s[k] == x
    ensures forall j :: 0 <= j < k ==> s[j] != x
  {
    if s[0] == x then 0 else 1 + IndexOf(s[1..], x)
  }

  /** The distinct elements of `s` in order of first appearance; defined by
      peeling the last element, so independently of the left-to-right scan
      that `FirstSeen` performs. */
  function Distinct<T(==)>(s: seq<T>): (r: seq<T>)
    ensures NoDup(r)
    ensures forall i :: 0 <= i < |r| ==> r[i] in s
    ensures forall i :: 0 <= i < |s| ==> s[i] in r
    ensures |r| <= |s|
  {
    if |s| == 0 then []
    else
      var d := Distinct(s[..|s| - 1]);
      assert forall i :: 0 <= i < |s| - 1 ==> s[i] == s[..|s| - 1][i];
      if s[|s| - 1] in d then d else d + [s[|s| - 1]]
  }

  /** Later elements of `Distinct(s)` first occur later in `s`. */
  lemma {:induction false} DistinctFirstSeenOrder<T>(s: seq<T>, i: int, j: int)
    requires 0 <= i < j < |Distinct(s)|
    ensures IndexOf(s, Distinct(s)[i]) < IndexOf(s, Distinct(s)[j])
  {
    var n := |s| - 1;
    var p := s[..n];
    var d := Distinct(p);
    var r := Distinct(s);
    if j < |d| {
      assert r[i] == d[i] && r[j] == d[j];
      DistinctFirstSeenOrder(p, i, j);
      IndexOfPrefix(s, n, d[i]);
      IndexOfPrefix(s, n, d[j]);
    } else {
      assert r == d + [s[n]] && r[j] == s[n];
      assert r[i] == d[i];
      IndexOfPrefix(s, n, d[i]);
      assert s[n] !in p;
    }
  }

  lemma {:induction false} IndexOfPrefix<T>(s: seq<T>, n: nat, x: T)
    requires n <= |s| && x in s[..n]
    ensures IndexOf(s, x) == IndexOf(s[..n], x)
  {
    if s[0] != x {
      assert s[1..][..n - 1] == s[..n][1..];
      IndexOfPrefix(s[1..], n - 1, x);
    }
  }

  /** The scan the controller performs: walk left to right and keep an id the
      first time it is seen. */
  method FirstSeen<T(==)>(s: seq<T>) returns (r: seq<T>)
    ensures r == Distinct(s)
  {
    r := [];
    var seen: set<T> := {};
    var i := 0;
    while i < |s|
      invariant 0 <= i <= |s|
      invariant r == Distinct(s[..i])
      invariant forall x :: x in seen <==> x in r
    {
      assert s[..i + 1][..i] == s[..i];
      if s[i] !in seen {
        r := r + [s[i]];
        seen := seen + {s[i]};
      }
      i := i + 1;
    }
    assert s[..|s|] == s;
  }
}

=== FILE: summary.dfy ===
/** The daily nutritional summary: the day's items are pooled, split into
    product references and recipe references, resolved against lookup maps,
    summed, rounded once, and compared with the user's target. */
module NutritionSummary {
  import opened Common
  import opened DailyLogModel
  import opened ProductModel
  import opened RecipeModel
  import Calendar
  import DailyLogs
  import Seqs
  import UserModel

  /** A stored recipe whose final weight is positive, as the recipe validator
      requires on every create and update; the per-gram division below relies
      on it, since the controller has no guard of its own. */
  type WeighedRecipe = r: Recipe | r.pesoFinal > 0.0
    witness Recipe("", "", [], 1.0, 0.0, 0.0, 0.0, 0.0, None, None, None, Global)

  type Products = map<Id, Product>
  type Recipes = map<Id, WeighedRecipe>

  /** `{ id, cantidad }` pairs the controller extracts from the items. */
  datatype Ref = Ref(id: Id, cantidad: real)

  /** `items.filter(i => i.productId).map(...)`. */
  function ProductRefs(items: seq<MealItem>): (r: seq<Ref>)
    ensures |r| <= |items|
  {
    if |items| == 0 then []
    else
      (if items[0].productId.Some? then [Ref(items[0].productId.value, items[0].cantidad)] else [])
      + ProductRefs(items[1..])
  }

  /** `items.filter(i => i.recipeId).map(...)`. */
  function RecipeRefs(items: seq<MealItem>): (r: seq<Ref>)
    ensures |r| <= |items|
  {
    if |items| == 0 then []
    else
      (if items[0].recipeId.Some? then [Ref(items[0].recipeId.value, items[0].cantidad)] else [])
      + RecipeRefs(items[1..])
  }

  /** A product portion: the per-100 g facts scaled by `cantidad / 100`;
      an id the lookup did not find adds nothing. */
  function ProductContribution(products: Products, r: Ref): Macros {
    if r.id in products then products[r.id].Per100g().Times(r.cantidad / 100.0) else Zero
  }

  /** A recipe portion: the whole-recipe facts scaled by
      `cantidad / pesoFinal`; an id the lookup did not find adds nothing. */
  function RecipeContribution(recipes: Recipes, r: Ref): Macros {
    if r.id in recipes then recipes[r.id].Whole().Times(r.cantidad / recipes[r.id].pesoFinal) else Zero
  }

  function PF(products: Products): Ref -> Macros {
    r => ProductContribution(products, r)
  }

  function RF(recipes: Recipes): Ref -> Macros {
    r => RecipeContribution(recipes, r)
  }

  /** An item's product part under `pf` plus its recipe part under `rf`. */
  function Split(pf: Ref -> Macros, rf: Ref -> Macros, x: MealItem): Macros {
    var p := if x.productId.Some? then pf(Ref(x.productId.value, x.cantidad)) else Zero;
    var q := if x.recipeId.Some? then rf(Ref(x.recipeId.value, x.cantidad)) else Zero;
    p.Plus(q)
  }

  /** What one item adds, seen item by item: its product part plus its
      recipe part, so an item carrying both ids counts twice. */
  function ItemContribution(products: Products, recipes: Recipes, x: MealItem): Macros {
    Split(PF(products), RF(recipes), x)
  }

  function IF(products: Products, recipes: Recipes): MealItem -> Macros {
    x => ItemContribution(products, recipes, x)
  }

  function SumBy<T>(s: seq<T>, f: T -> Macros): Macros {
    if |s| == 0 then Zero else f(s[0]).Plus(SumBy(s[1..], f))
  }

  lemma {:induction false} SumAppend<T>(a: seq<T>, b: seq<T>, f: T -> Macros)
    ensures SumBy(a + b, f) == SumBy(a, f).Plus(SumBy(b, f))
  {
    if |a| == 0 {
      assert a + b == b;
    } else {
      assert (a + b)[1..] == a[1..] + b;
      SumAppend(a[1..], b, f);
    }
  }

  /** A sum does not depend on the order of its terms. */
  lemma {:induction false} SumPermutation<T>(a: seq<T>, b: seq<T>, f: T -> Macros)
    requires multiset(a) == multiset(b)
    ensures SumBy(a, f) == SumBy(b, f)
  {
    if |a| == 0 {
      assert |b| == |multiset(b)| == 0;
    } else {
      var x := a[0];
      assert x in multiset(b);
      var k :| 0 <= k < |b| && b[k] == x;
      var rest := b[..k] + b[k + 1..];
      Seqs.WithoutOne(b, k);
      assert a == [x] + a[1..];
      assert multiset(a[1..]) == multiset(a) - multiset{x};
      SumPermutation(a[1..], rest, f);
      SumRemoveAt(b, k, f);
    }
  }

  /** Taking one term out of a sum and adding it back in front. */
  lemma {:induction false} SumRemoveAt<T>(b: seq<T>, k: nat, f: T -> Macros)
    requires k < |b|
    ensures SumBy(b, f) == f(b[k]).Plus(SumBy(b[..k] + b[k + 1..], f))
  {
    assert b == (b[..k] + [b[k]]) + b[k + 1..];
    SumAppend(b[..k] + [b[k]], b[k + 1..], f);
    SumAppend(b[..k], [b[k]], f);
    SumAppend(b[..k], b[k + 1..], f);
    assert SumBy([b[k]], f) == f(b[k]).Plus(Zero) by {
      assert [b[k]][1..] == [];
    }
  }

  /** The per-item total of a sequence of items: the reference definition of
      what a day's items add up to. */
  function ItemsTotal(products: Products, recipes: Recipes, items: seq<MealItem>): Macros {
    SumBy(items, IF(products, recipes))
  }

  /** The controller's two passes, all product references first and then all
      recipe references, reach the per-item total. */
  lemma TwoPassEqualsPerItem(products: Products, recipes: Recipes, items: seq<MealItem>)
    ensures SumBy(ProductRefs(items), PF(products)).Plus(SumBy(RecipeRefs(items), RF(recipes)))
            == ItemsTotal(products, recipes, items)
  {
    TwoPassSplit(items, PF(products), RF(recipes), IF(products, recipes));
  }

  lemma {:induction false} TwoPassSplit(items: seq<MealItem>, pf: Ref -> Macros, rf: Ref -> Macros, g: MealItem -> Macros)
    requires forall x :: g(x) == Split(pf, rf, x)
    ensures SumBy(ProductRefs(items), pf).Plus(SumBy(RecipeRefs(items), rf)) == SumBy(items, g)
  {
    if |items| > 0 {
      var x := items[0];
      var hp: seq<Ref> := if x.productId.Some? then [Ref(x.productId.value, x.cantidad)] else [];
      var hr: seq<Ref> := if x.recipeId.Some? then [Ref(x.recipeId.value, x.cantidad)] else [];
      var p := if x.productId.Some? then pf(Ref(x.productId.value, x.cantidad)) else Zero;
      var q := if x.recipeId.Some? then rf(Ref(x.recipeId.value, x.cantidad)) else Zero;
      var tp := SumBy(ProductRefs(items[1..]), pf);
      var tr := SumBy(RecipeRefs(items[1..]), rf);
      assert ProductRefs(items) == hp + ProductRefs(items[1..]);
      assert RecipeRefs(items) == hr + RecipeRefs(items[1..]);
      SumAppend(hp, ProductRefs(items[1..]), pf);
      SumAppend(hr, RecipeRefs(items[1..]), rf);
      SumSingleOrEmpty(hp, pf, p);
      SumSingleOrEmpty(hr, rf, q);
      TwoPassSplit(items[1..], pf, rf, g);
      assert SumBy(items, g) == g(x).Plus(SumBy(items[1..], g));
      assert g(x) == p.Plus(q);
      PlusShuffle(p, tp, q, tr);
    }
  }

  lemma SumSingleOrEmpty<T>(h: seq<T>, f: T -> Macros, v: Macros)
    requires |h| <= 1
    requires |h| == 0 ==> v == Zero
    requires |h| == 1 ==> v == f(h[0])
    ensures SumBy(h, f) == v
  {
    if |h| == 1 {
      assert SumBy(h, f) == f(h[0]).Plus(SumBy(h[1..], f));
    }
  }

  lemma PlusShuffle(a: Macros, b: Macros, c: Macros, d: Macros)
    ensures a.Plus(b).Plus(c.Plus(d)) == a.Plus(c).Plus(b.Plus(d))
  {
  }

  /** The response: consumed totals, the target, and target minus consumed. */
  datatype Summary = Summary(consumido: Macros, objetivo: Macros, diferencia: Macros)

  /** The summary for the local day of `t`, stated through the per-item
      reference total. When the day has no log the consumed totals are zero
      and the difference is the whole target. */
  function Resumen(store: DailyLogs.Store, userId: Id, t: int, offset: int, objetivo: Macros,
                   products: Products, recipes: Recipes): (r: Summary)
    ensures r.objetivo == objetivo
    ensures r.diferencia == objetivo.Minus(r.consumido)
  {
    match DailyLogs.GetDailyLogByDate(store, userId, t, offset)
    case Unsaved(_, _, _, _) => Summary(Zero, objetivo, objetivo)
    case Stored(log) =>
      var consumido := ItemsTotal(products, recipes, log.comidas.Items()).Rounded();
      Summary(consumido, objetivo, objetivo.Minus(consumido))
  }

  /** `getResumenNutricional`, pass for pass: the by-date lookup, the two
      accumulation loops, one rounding of each total, and the difference. */
  method GetResumenNutricional(store: DailyLogs.Store, userId: Id, t: int, offset: int, objetivo: Macros,
                               products: Products, recipes: Recipes) returns (r: Summary)
    ensures r == Resumen(store, userId, t, offset, objetivo, products, recipes)
  {
    var view := DailyLogs.GetDailyLogByDate(store, userId, t, offset);
    if view.Unsaved? {
      return Summary(Zero, objetivo, objetivo);
    }
    var items := view.log.comidas.Items();
    var consumido := Accumulate(Zero, ProductRefs(items), PF(products));
    consumido := Accumulate(consumido, RecipeRefs(items), RF(recipes));
    PlusZeroLeft(SumBy(ProductRefs(items), PF(products)));
    TwoPassEqualsPerItem(products, recipes, items);
    var rounded := consumido.Rounded();
    r := Summary(rounded, objetivo, objetivo.Minus(rounded));
  }

  // ----- the target as the controller reads it -----

  /** `user.objetivosNutricionales` on the document `User.findById(userId,
      'objetivosNutricionales')` gives; `None` is `undefined`. A hydrated
      document has properties only for the paths its schema declares, and
      the user schema declares no `objetivosNutricionales`, and no code that
      runs writes one: utils/calculonutricional.js computes a target, but its
      only caller, controllers/googleAuthController.js:68, is commented out.
      So the read is
      `undefined` for every user; for a missing user the document is `null`
      and the read itself throws, which ends the same way. */
  function ObjetivoLeido(user: Option<UserModel.User>): Option<Macros> {
    None
  }

  /** `getResumenNutricional` as written: both branches read `.calorias` on
      the target (lines 128 and 198), which throws on `undefined`, and the
      `catch` answers 500. A target that could be read would give the
      summary `Resumen` defines. */
  function GetResumenComoEscrito(store: DailyLogs.Store, userId: Id, t: int, offset: int,
                                 user: Option<UserModel.User>, products: Products, recipes: Recipes): (r: Result<Summary>)
    ensures r.Ok? <==> ObjetivoLeido(user).Some?
    ensures r.Err? ==> r.error == ServerError
  {
    match ObjetivoLeido(user)
    case None => Err(ServerError)
    case Some(objetivo) => Ok(Resumen(store, userId, t, offset, objetivo, products, recipes))
  }

  /** As written the summary never succeeds: whatever the day holds and
      whoever asks, the answer is 500, because the user schema has no target
      to read. */
  lemma SummaryAlwaysFails(store: DailyLogs.Store, userId: Id, t: int, offset: int,
                           user: Option<UserModel.User>, products: Products, recipes: Recipes)
    ensures "objetivosNutricionales" !in UserModel.SchemaPaths
    ensures GetResumenComoEscrito(store, userId, t, offset, user, products, recipes) == Err(ServerError)
  {
  }

  /** The shape both loops of the controller share: start from a running
      total and add each reference's contribution in turn. The product loop
      runs it with `PF`, the recipe loop with `RF`; their bodies' `if` on a
      found document is inside those contributions. */
  method Accumulate<T>(start: Macros, refs: seq<T>, contribution: T -> Macros) returns (total: Macros)
    ensures total == start.Plus(SumBy(refs, contribution))
  {
    total := start;
    var i := 0;
    while i < |refs|
      invariant 0 <= i <= |refs|
      invariant total == start.Plus(SumBy(refs[..i], contribution))
    {
      ghost var before := total;
      total := total.Plus(contribution(refs[i]));
      StepSum(start, refs, i, contribution, before, total);
      i := i + 1;
    }
    assert refs[..i] == refs;
  }

  /** Adding the contribution of element `i` extends the running sum by one. */
  lemma StepSum<T>(start: Macros, s: seq<T>, i: nat, f: T -> Macros, before: Macros, after: Macros)
    requires i < |s|
    requires before == start.Plus(SumBy(s[..i], f))
    requires after == before.Plus(f(s[i]))
    ensures after == start.Plus(SumBy(s[..i + 1], f))
  {
    AppendOne(s, i, f);
    PlusAssoc(start, SumBy(s[..i], f), f(s[i]));
  }

  lemma PlusZeroLeft(a: Macros)
    ensures Zero.Plus(a) == a
  {
  }

  lemma AppendOne<T>(s: seq<T>, i: nat, f: T -> Macros)
    requires i < |s|
    ensures SumBy(s[..i + 1], f) == SumBy(s[..i], f).Plus(f(s[i]))
  {
    assert s[..i + 1] == s[..i] + [s[i]];
    SumAppend(s[..i], [s[i]], f);
    SumSingleOrEmpty([s[i]], f, f(s[i]));
  }

  lemma PlusAssoc(a: Macros, b: Macros, c: Macros)
    ensures a.Plus(b).Plus(c) == a.Plus(b.Plus(c))
  {
  }

  /** No log on the day: nothing consumed, and the difference is the target. */
  lemma NoLogSummary(store: DailyLogs.Store, userId: Id, t: int, offset: int, objetivo: Macros,
                     products: Products, recipes: Recipes)
    requires forall i :: 0 <= i < |store| ==>
      !(store[i].userId == userId && Calendar.LocalDay(store[i].fecha, offset) == Calendar.LocalDay(t, offset))
    ensures Resumen(store, userId, t, offset, objetivo, products, recipes).consumido == Zero
    ensures Resumen(store, userId, t, offset, objetivo, products, recipes).diferencia == objetivo
  {
  }

  /** Each consumed total is a whole number within one half of the exact
      per-item sum: rounding happens once, after every contribution. */
  lemma ConsumedRoundedOnce(store: DailyLogs.Store, userId: Id, t: int, offset: int, objetivo: Macros,
                            products: Products, recipes: Recipes)
    requires DailyLogs.GetDailyLogByDate(store, userId, t, offset).Stored?
    ensures var log := DailyLogs.GetDailyLogByDate(store, userId, t, offset).log;
      var exact := ItemsTotal(products, recipes, log.comidas.Items());
      var c := Resumen(store, userId, t, offset, objetivo, products, recipes).consumido;
      && Near(c.calorias, exact.calorias)
      && Near(c.proteinas, exact.proteinas)
      && Near(c.carbohidratos, exact.carbohidratos)
      && Near(c.grasas, exact.grasas)
  {
  }

  /** `c` is a whole number and the nearest one to `x` (ties upward). */
  ghost predicate Near(c: real, x: real) {
    c.Floor as real == c && c - 1.0 / 2.0 <= x < c + 1.0 / 2.0
  }

  /** An item whose ids are all missing or unknown adds nothing. */
  lemma UnknownItemAddsNothing(products: Products, recipes: Recipes, x: MealItem)
    requires x.productId.None? || x.productId.value !in products
    requires x.recipeId.None? || x.recipeId.value !in recipes
    ensures ItemContribution(products, recipes, x) == Zero
  {
  }

  /** A found product scales each of its per-100 g facts by
      `cantidad / 100`. */
  lemma ProductItemScales(products: Products, recipes: Recipes, x: MealItem)
    requires x.productId.Some? && x.productId.value in products && x.recipeId.None?
    ensures var p := products[x.productId.value];
      var c := ItemContribution(products, recipes, x);
      && c.calorias == p.calorias * x.cantidad / 100.0
      && c.proteinas == p.proteinas * x.cantidad / 100.0
      && c.carbohidratos == p.carbohidratos * x.cantidad / 100.0
      && c.grasas == p.grasas * x.cantidad / 100.0
  {
    var p := products[x.productId.value];
    var k := x.cantidad / 100.0;
    assert ItemContribution(products, recipes, x) == p.Per100g().Times(k).Plus(Zero);
    ScaleByQuotient(p.calorias, x.cantidad, 100.0);
    ScaleByQuotient(p.proteinas, x.cantidad, 100.0);
    ScaleByQuotient(p.carbohidratos, x.cantidad, 100.0);
    ScaleByQuotient(p.grasas, x.cantidad, 100.0);
  }

  /** A found recipe scales each of its whole-recipe facts by
      `cantidad / pesoFinal`. */
  lemma RecipeItemScales(products: Products, recipes: Recipes, x: MealItem)
    requires x.recipeId.Some? && x.recipeId.value in recipes && x.productId.None?
    ensures var q := recipes[x.recipeId.value];
      var c := ItemContribution(products, recipes, x);
      && c.calorias == q.calorias * x.cantidad / q.pesoFinal
      && c.proteinas == q.proteinas * x.cantidad / q.pesoFinal
      && c.carbohidratos == q.carbohidratos * x.cantidad / q.pesoFinal
      && c.grasas == q.grasas * x.cantidad / q.pesoFinal
  {
    var q := recipes[x.recipeId.value];
    var k := x.cantidad / q.pesoFinal;
    assert ItemContribution(products, recipes, x) == Zero.Plus(q.Whole().Times(k));
    ScaleByQuotient(q.calorias, x.cantidad, q.pesoFinal);
    ScaleByQuotient(q.proteinas, x.cantidad, q.pesoFinal);
    ScaleByQuotient(q.carbohidratos, x.cantidad, q.pesoFinal);
    ScaleByQuotient(q.grasas, x.cantidad, q.pesoFinal);
  }

  lemma ScaleByQuotient(v: real, n: real, d: real)
    requires d != 0.0
    ensures v * (n / d) == v * n / d
  {
  }

  /** An item that carries both ids counts as its product part plus its
      recipe part. */
  lemma BothIdsCountTwice(products: Products, recipes: Recipes, x: MealItem)
    requires x.productId.Some? && x.recipeId.Some?
    ensures ItemContribution(products, recipes, x) ==
      ItemContribution(products, recipes, x.(recipeId := None))
        .Plus(ItemContribution(products, recipes, x.(productId := None)))
  {
    SplitBoth(PF(products), RF(recipes), x);
  }

  lemma SplitBoth(pf: Ref -> Macros, rf: Ref -> Macros, x: MealItem)
    requires x.productId.Some? && x.recipeId.Some?
    ensures Split(pf, rf, x) == Split(pf, rf, x.(recipeId := None)).Plus(Split(pf, rf, x.(productId := None)))
  {
  }

  /** Logging one more item adds exactly that item's contribution, whichever
      slot it goes to. */
  lemma {:induction false} AddItemAddsContribution(products: Products, recipes: Recipes, items: seq<MealItem>, x: MealItem)
    ensures ItemsTotal(products, recipes, items + [x])
            == ItemsTotal(products, recipes, items).Plus(ItemContribution(products, recipes, x))
  {
    SumAppend(items, [x], IF(products, recipes));
    SumSingleOrEmpty([x], IF(products, recipes), ItemContribution(products, recipes, x));
  }

  /** Logging an item whose ids are all missing or unknown changes nothing. */
  lemma AddUnknownItemChangesNothing(products: Products, recipes: Recipes, items: seq<MealItem>, x: MealItem)
    requires x.productId.None? || x.productId.value !in products
    requires x.recipeId.None? || x.recipeId.value !in recipes
    ensures ItemsTotal(products, recipes, items + [x]) == ItemsTotal(products, recipes, items)
  {
    AddItemAddsContribution(products, recipes, items, x);
    UnknownItemAddsNothing(products, recipes, x);
  }
}

=== FILE: targets.dfy ===
/** The daily-target calculator: Mifflin–St Jeor basal rate, an activity
    multiplier, a goal adjustment, rounding, and a fixed macro split. */
module TargetCalculator {
  import opened Common
  import UserModel

  /** The activity multipliers. A level missing from this table makes every
      field of the JavaScript result `NaN`. */
  const Factores: map<string, real> := map[
    "sedentario" := 1.2,
    "ligero" := 1.375,
    "moderado" := 1.55,
    "activo" := 1.725,
    "muy activo" := 1.9]

  /** Basal metabolic rate in kcal; any `sexo` other than "masculino" gets
      the female constant. */
  function Tmb(peso: real, altura: real, edad: real, sexo: string): real {
    if sexo == "masculino" then 10.0 * peso + 6.25 * altura - 5.0 * edad + 5.0
    else 10.0 * peso + 6.25 * altura - 5.0 * edad - 161.0
  }

  /** The goal adjustment: a deficit of 500 kcal to lose weight, a surplus of
      300 kcal to gain muscle, and nothing for any other value. */
  function Ajuste(objetivo: string): real {
    if objetivo == "perder peso" then -500.0
    else if objetivo == "ganar músculo" then 300.0
    else 0.0
  }

  /** The unrounded daily energy expenditure after the goal adjustment. */
  function Gasto(peso: real, altura: real, edad: real, sexo: string, actividad: string, objetivo: string): real
    requires actividad in Factores
  {
    Tmb(peso, altura, edad, sexo) * Factores[actividad] + Ajuste(objetivo)
  }

  /** The daily target. `None` stands for the all-`NaN` object the source
      returns when `actividad` has no multiplier. */
  function Calcular(peso: real, altura: real, edad: real, sexo: string, actividad: string, objetivo: string): (r: Option<Macros>)
    ensures r.Some? <==> actividad in Factores
    ensures r.Some? ==>
      var g := Gasto(peso, altura, edad, sexo, actividad, objetivo);
      var c := r.value.calorias;
      && c.Floor as real == c
      && c - 1.0 / 2.0 <= g < c + 1.0 / 2.0
      && r.value.proteinas - 1.0 / 2.0 <= c / 16.0 < r.value.proteinas + 1.0 / 2.0
      && r.value.carbohidratos - 1.0 / 2.0 <= c / 8.0 < r.value.carbohidratos + 1.0 / 2.0
      && r.value.grasas - 1.0 / 2.0 <= c / 36.0 < r.value.grasas + 1.0 / 2.0
  {
    if actividad !in Factores then None
    else
      var calorias := Round(Gasto(peso, altura, edad, sexo, actividad, objetivo)) as real;
      Some(Macros(
        calorias,
        Round(0.25 * calorias / 4.0) as real,
        Round(0.50 * calorias / 4.0) as real,
        Round(0.25 * calorias / 9.0) as real))
  }

  /** The level set the user schema accepts is exactly the multiplier table's
      key set, so a schema-valid user always gets a numeric target. */
  lemma ActividadEnumMatchesTable()
    ensures Factores.Keys == UserModel.ActividadValues
  {
  }

  /** Sex changes the basal rate by exactly 166 kcal, whatever the other
      inputs. */
  lemma TmbSexGap(peso: real, altura: real, edad: real, otro: string)
    requires otro != "masculino"
    ensures Tmb(peso, altura, edad, "masculino") - Tmb(peso, altura, edad, otro) == 166.0
  {
  }

  /** Losing weight never asks for more energy than maintaining, and
      maintaining never more than gaining muscle; before rounding the gaps
      are exactly 500 and 300 kcal. */
  lemma GoalsOrdered(peso: real, altura: real, edad: real, sexo: string, actividad: string)
    requires actividad in Factores
    ensures Gasto(peso, altura, edad, sexo, actividad, "mantenerse")
            - Gasto(peso, altura, edad, sexo, actividad, "perder peso") == 500.0
    ensures Gasto(peso, altura, edad, sexo, actividad, "ganar músculo")
            - Gasto(peso, altura, edad, sexo, actividad, "mantenerse") == 300.0
    ensures Calcular(peso, altura, edad, sexo, actividad, "perder peso").value.calorias
            <= Calcular(peso, altura, edad, sexo, actividad, "mantenerse").value.calorias
            <= Calcular(peso, altura, edad, sexo, actividad, "ganar músculo").value.calorias
  {
    var lose := Gasto(peso, altura, edad, sexo, actividad, "perder peso");
    var keep := Gasto(peso, altura, edad, sexo, actividad, "mantenerse");
    var gain := Gasto(peso, altura, edad, sexo, actividad, "ganar músculo");
    RoundMonotone(lose, keep);
    RoundMonotone(keep, gain);
  }

  /** Any goal outside the two adjusting ones is treated as maintenance. */
  lemma OtherGoalIsMaintenance(peso: real, altura: real, edad: real, sexo: string, actividad: string, objetivo: string)
    requires objetivo != "perder peso" && objetivo != "ganar músculo"
    ensures Calcular(peso, altura, edad, sexo, actividad, objetivo)
            == Calcular(peso, altura, edad, sexo, actividad, "mantenerse")
  {
  }

  /** With everything else fixed, a heavier user never gets a lower calorie
      target. */
  lemma CaloriesMonotoneInWeight(p1: real, p2: real, altura: real, edad: real, sexo: string, actividad: string, objetivo: string)
    requires p1 <= p2
    requires actividad in Factores
    ensures Calcular(p1, altura, edad, sexo, actividad, objetivo).value.calorias
            <= Calcular(p2, altura, edad, sexo, actividad, objetivo).value.calorias
  {
    var f := Factores[actividad];
    assert f > 0.0;
    var t1 := Tmb(p1, altura, edad, sexo);
    var t2 := Tmb(p2, altura, edad, sexo);
    assert t1 <= t2;
    assert t1 * f <= t2 * f;
    RoundMonotone(Gasto(p1, altura, edad, sexo, actividad, objetivo), Gasto(p2, altura, edad, sexo, actividad, objetivo));
  }

  /** The macro split re-adds to the calorie target up to the independent
      roundings: 4 kcal per gram of protein and carbohydrate, 9 per gram of
      fat, off by at most 8.5 kcal. */
  lemma MacroEnergyNearTarget(peso: real, altura: real, edad: real, sexo: string, actividad: string, objetivo: string)
    requires actividad in Factores
    ensures var t := Calcular(peso, altura, edad, sexo, actividad, objetivo).value;
      var energia := 4.0 * t.proteinas + 4.0 * t.carbohidratos + 9.0 * t.grasas;
      -17.0 / 2.0 <= energia - t.calorias <= 17.0 / 2.0
  {
  }

  /** A 30-year-old man of 70 kg and 175 cm, moderately active, maintaining:
      basal rate 1648.75, expenditure 2555.5625, target 2556 kcal with 160 g
      protein, 320 g carbohydrate and 71 g fat. */
  lemma WorkedExample()
    ensures Tmb(70.0, 175.0, 30.0, "masculino") == 1648.75
    ensures Gasto(70.0, 175.0, 30.0, "masculino", "moderado", "mantenerse") == 2555.5625
    ensures Calcular(70.0, 175.0, 30.0, "masculino", "moderado", "mantenerse")
            == Some(Macros(2556.0, 160.0, 320.0, 71.0))
  {
    assert Round(2555.5625) == 2556;
    assert Round(0.25 * 2556.0 / 4.0) == 160;
    assert Round(0.50 * 2556.0 / 4.0) == 320;
    assert Round(0.25 * 2556.0 / 9.0) == 71;
  }
}

=== FILE: validators.dfy ===
/** The request validators that guard the create and update routes. Each
    rule chain becomes a predicate over the parsed body; a body the
    predicate rejects is answered with 400 before any controller runs.

    express-validator rules are modelled on JSON values as follows. A
    standard rule (`isFloat`, `isInt`, `notEmpty`, `isLength`) tests text:
    when the field holds an array it tests each element, so an empty array
    passes; otherwise it tests the value itself. An element's text is the
    string itself, `""` for `null` or a missing field, `"true"` or `"false"`
    for a boolean, `"[object Object]"` for an object, and for an array its
    elements' texts joined by commas. `isFloat` accepts a text that spells a
    number within the bound, `isInt` a whole one, `notEmpty` any non-empty
    text and `isLength` a long enough one. `optional()` skips only a
    missing field (`undefined`). `isArray({ min })` and `custom` see the
    whole value. */
module Validators {
  import opened Common
  import opened JsonValue
  import opened DailyLogModel
  import opened ObjectIds
  import UserModel

  // ----- express-validator rules on one field -----

  /** The standard rules the routes use. */
  datatype Rule = PositiveFloat | NonNegativeFloat | PositiveInt | NonEmptyText | LengthAtLeast(min: nat)

  /** The number an element's text spells. A number spells itself; a
      one-element array reads as its element's text; `null`, booleans,
      objects, empty and longer arrays spell none. Strings are not read as
      numbers here. */
  function NumberText(e: Json): Option<real> {
    match e
    case JNum(n) => Some(n)
    case JArr(items) => if |items| == 1 then NumberText(items[0]) else None
    case _ => None
  }

  /** The element's text is `""`: `null`, the empty string, the empty array,
      or a one-element array whose element reads as `""`. Two or more
      elements always leave a comma. */
  predicate EmptyText(e: Json) {
    match e
    case JNull => true
    case JStr(s) => s == ""
    case JArr(items) => |items| == 0 || (|items| == 1 && EmptyText(items[0]))
    case _ => false
  }

  /** The element's text when it is a string, directly or through
      one-element arrays. */
  function StringText(e: Json): Option<string> {
    match e
    case JStr(s) => Some(s)
    case JArr(items) => if |items| == 1 then StringText(items[0]) else None
    case _ => None
  }

  /** One element against one rule. */
  predicate Passes(rule: Rule, e: Json) {
    match rule
    case PositiveFloat => NumberText(e).Some? && NumberText(e).value > 0.0
    case NonNegativeFloat => NumberText(e).Some? && NumberText(e).value >= 0.0
    case PositiveInt =>
      NumberText(e).Some? && NumberText(e).value.Floor as real == NumberText(e).value && NumberText(e).value > 0.0
    case NonEmptyText => !EmptyText(e)
    case LengthAtLeast(min) => StringText(e).Some? && |StringText(e).value| >= min
  }

  /** A standard rule on a field: every element of an array, or the value
      itself; a missing field is tested as `undefined`, whose text is `""`
      like `null`'s. */
  predicate Standard(rule: Rule, v: Option<Json>) {
    var x := v.GetOr(JNull);
    if x.JArr? then forall i :: 0 <= i < |x.items| ==> Passes(rule, x.items[i])
    else Passes(rule, x)
  }

  /** `isFloat({ gt: 0 })`. */
  predicate FloatGt0(v: Option<Json>) {
    Standard(PositiveFloat, v)
  }

  /** `isFloat({ min: 0 })`. */
  predicate FloatMin0(v: Option<Json>) {
    Standard(NonNegativeFloat, v)
  }

  /** `optional().isFloat({ min: 0 })`. */
  predicate OptionalFloatMin0(v: Option<Json>) {
    v.None? || FloatMin0(v)
  }

  /** `isInt({ gt: 0 })`. */
  predicate IntGt0(v: Option<Json>) {
    Standard(PositiveInt, v)
  }

  /** `notEmpty()`. */
  predicate NotEmpty(v: Option<Json>) {
    Standard(NonEmptyText, v)
  }

  /** `isLength({ min })`. */
  predicate MinLength(v: Option<Json>, min: nat) {
    Standard(LengthAtLeast(min), v)
  }

  /** Outside arrays the rules read scalars the plain way: a number field
      passes exactly when it holds a number within the bound, and `notEmpty`
      exactly when the value is a non-empty string, a number, a boolean or
      an object. */
  lemma ScalarRules(v: Json)
    requires !v.JArr?
    ensures FloatGt0(Some(v)) <==> v.JNum? && v.n > 0.0
    ensures FloatMin0(Some(v)) <==> v.JNum? && v.n >= 0.0
    ensures NotEmpty(Some(v)) <==> !(v.JNull? || v == JStr(""))
    ensures !FloatMin0(None) && !NotEmpty(None)
  {
  }

  /** An array field is tested element by element: `[2]`, `[[2]]` and `[]`
      pass `isFloat({ gt: 0 })`, `[2, 0]` and `[true]` do not; `[]` and
      `["a"]` pass `notEmpty`, `[""]` and `[null]` do not. */
  lemma ArraysTestedPerElement()
    ensures FloatGt0(Some(JArr([JNum(2.0)])))
    ensures FloatGt0(Some(JArr([JArr([JNum(2.0)])])))
    ensures FloatGt0(Some(JArr([])))
    ensures !FloatGt0(Some(JArr([JNum(2.0), JNum(0.0)])))
    ensures !FloatGt0(Some(JArr([JBool(true)])))
    ensures NotEmpty(Some(JArr([]))) && NotEmpty(Some(JArr([JStr("a")])))
    ensures !NotEmpty(Some(JArr([JStr("")]))) && !NotEmpty(Some(JArr([JNull])))
  {
    assert !Passes(PositiveFloat, JArr([JNum(2.0), JNum(0.0)]).items[1]);
    assert !Passes(PositiveFloat, JArr([JBool(true)]).items[0]);
    assert !Passes(NonEmptyText, JArr([JStr("")]).items[0]);
    assert !Passes(NonEmptyText, JArr([JNull]).items[0]);
  }

  /** `isArray({ min })`. */
  predicate ArrayMin(v: Option<Json>, min: nat) {
    v.Some? && v.value.JArr? && |v.value.items| >= min
  }

  // ----- daily logs -----

  /** `isValidObjectId(value)`: `RegExp.prototype.test` first turns its
      argument into text. A string is tested as it is; an array reads as its
      elements joined by commas, so only a one-element array can pass, and
      then exactly when its element does (`null` inside reads as ""). No
      number passes: its text has at most 21 digits or carries `.`, `-`,
      `e` or `+`. `true`, `false` and `"[object Object]"` fail as well. */
  predicate IdPatternMatches(v: Json) {
    match v
    case JStr(s) => IsValidObjectId(s)
    case JArr(items) => |items| == 1 && IdPatternMatches(items[0])
    case _ => false
  }

  /** One meal item as `mealItemValidator` checks it: an object whose
      `productId` is truthy and whose text is 24 hex digits, and whose
      `cantidad` is a number above zero. `typeof null` is `"object"`, but
      reading `productId` on `null` throws, which fails the item all the
      same; an array item has no `productId`. */
  predicate ValidMealItem(item: Json) {
    var p := Get(Some(item), "productId");
    var c := Get(Some(item), "cantidad");
    && item.JObj?
    && Truthy(p) && IdPatternMatches(p.value)
    && c.Some? && c.value.JNum? && c.value.n > 0.0
  }

  /** `mealItemValidator`: an array every element of which is a valid item. */
  predicate MealItemsValid(v: Json) {
    v.JArr? && forall i :: 0 <= i < |v.items| ==> ValidMealItem(v.items[i])
  }

  /** The validator's loop: stop at the first invalid item. */
  method CheckMealItems(v: Json) returns (ok: bool)
    ensures ok <==> MealItemsValid(v)
  {
    if !v.JArr? {
      return false;
    }
    var i := 0;
    while i < |v.items|
      invariant 0 <= i <= |v.items|
      invariant forall j :: 0 <= j < i ==> ValidMealItem(v.items[j])
    {
      if !ValidMealItem(v.items[i]) {
        return false;
      }
      i := i + 1;
    }
    return true;
  }

  function SlotName(s: Slot): string {
    match s
    case Desayuno => "desayuno"
    case Almuerzo => "almuerzo"
    case Comida => "comida"
    case Merienda => "merienda"
    case Cena => "cena"
    case Recena => "recena"
  }

  /** `body("comidas.<slot>").optional().custom(mealItemValidator)`. */
  predicate SlotValid(body: Json, s: Slot) {
    var v := Get(Get(Some(body), "comidas"), SlotName(s));
    v.None? || MealItemsValid(v.value)
  }

  /** `dailyLogValidator`: an optional positive `pesoDelDia` and six
      optional slots, each an array of valid items when present. */
  predicate DailyLogBodyValid(body: Json) {
    var peso := Get(Some(body), "pesoDelDia");
    && (peso.None? || FloatGt0(peso))
    && forall s: Slot :: SlotValid(body, s)
  }

  /** Every item of an accepted slot carries a `productId` whose text is a
      well-formed id (a string, or a string wrapped in one-element arrays)
      and a positive quantity. */
  lemma AcceptedItemsNameProducts(body: Json, s: Slot)
    requires DailyLogBodyValid(body)
    ensures var v := Get(Get(Some(body), "comidas"), SlotName(s));
      v.Some? ==> v.value.JArr? && forall i :: 0 <= i < |v.value.items| ==>
        var p := Get(Some(v.value.items[i]), "productId");
        var c := Get(Some(v.value.items[i]), "cantidad");
        p.Some? && IdPatternMatches(p.value) && (p.value.JStr? || p.value.JArr?)
        && c.Some? && c.value.JNum? && c.value.n > 0.0
  {
    assert SlotValid(body, s);
  }

  /** The pattern reaches through one-element arrays: `["<24 hex digits>"]`
      is accepted as a product id just like the bare string, while two ids
      in one array, or a number, are refused. */
  lemma WrappedIdAccepted(id: string, other: string, n: real, q: real)
    requires IsValidObjectId(id) && q > 0.0
    ensures ValidMealItem(JObj(map["productId" := JArr([JStr(id)]), "cantidad" := JNum(q)]))
    ensures ValidMealItem(JObj(map["productId" := JStr(id), "cantidad" := JNum(q)]))
    ensures !ValidMealItem(JObj(map["productId" := JArr([JStr(id), JStr(other)]), "cantidad" := JNum(q)]))
    ensures !ValidMealItem(JObj(map["productId" := JNum(n), "cantidad" := JNum(q)]))
  {
    var a := JObj(map["productId" := JArr([JStr(id)]), "cantidad" := JNum(q)]);
    assert Get(Some(a), "productId") == Some(JArr([JStr(id)]));
    assert JArr([JStr(id)]).items[0] == JStr(id);
    var b := JObj(map["productId" := JStr(id), "cantidad" := JNum(q)]);
    assert Get(Some(b), "productId") == Some(JStr(id));
    var c := JObj(map["productId" := JArr([JStr(id), JStr(other)]), "cantidad" := JNum(q)]);
    assert Get(Some(c), "productId") == Some(JArr([JStr(id), JStr(other)]));
    var d := JObj(map["productId" := JNum(n), "cantidad" := JNum(q)]);
    assert Get(Some(d), "productId") == Some(JNum(n));
  }

  /** An item that names only a recipe is rejected, so no validated request
      can log a recipe. */
  lemma RecipeOnlyItemRejected(recipeId: string, cantidad: real)
    ensures !ValidMealItem(JObj(map["recipeId" := JStr(recipeId), "cantidad" := JNum(cantidad)]))
    ensures !MealItemsValid(JArr([JObj(map["recipeId" := JStr(recipeId), "cantidad" := JNum(cantidad)])]))
  {
    var item := JObj(map["recipeId" := JStr(recipeId), "cantidad" := JNum(cantidad)]);
    assert "productId" !in item.fields;
    assert !ValidMealItem(JArr([item]).items[0]);
  }

  /** An empty slot is accepted, a slot that is not an array is not, and a
      body with neither weight nor meals is accepted; this holds for every
      one of the six slots. */
  lemma SlotShapes(x: Json, s: Slot)
    requires !x.JArr?
    ensures MealItemsValid(JArr([]))
    ensures !MealItemsValid(x)
    ensures DailyLogBodyValid(JObj(map[]))
    ensures DailyLogBodyValid(JObj(map["comidas" := JObj(map[SlotName(s) := JArr([])])]))
    ensures !DailyLogBodyValid(JObj(map["comidas" := JObj(map[SlotName(s) := x])]))
  {
    var b := JObj(map["comidas" := JObj(map[SlotName(s) := JArr([])])]);
    forall t: Slot ensures SlotValid(b, t) {
      if t == s {
        assert Get(Get(Some(b), "comidas"), SlotName(s)) == Some(JArr([]));
      } else {
        assert SlotName(t) != SlotName(s);
      }
    }
    var bad := JObj(map["comidas" := JObj(map[SlotName(s) := x])]);
    assert Get(Get(Some(bad), "comidas"), SlotName(s)) == Some(x);
    assert !SlotValid(bad, s);
  }

  /** A zero or negative quantity, or a weight of zero, fails. */
  lemma NonPositiveRejected(id: string, q: real, w: real)
    requires IsValidObjectId(id) && q <= 0.0 && w <= 0.0
    ensures !ValidMealItem(JObj(map["productId" := JStr(id), "cantidad" := JNum(q)]))
    ensures !DailyLogBodyValid(JObj(map["pesoDelDia" := JNum(w)]))
  {
    var b := JObj(map["pesoDelDia" := JNum(w)]);
    assert Get(Some(b), "pesoDelDia") == Some(JNum(w));
  }

  // ----- products -----

  /** `productValidationRules`: a non-empty name, the four macros as numbers
      of at least zero, and the five extras either absent or numbers of at
      least zero. */
  predicate ProductBodyValid(body: Json) {
    var b := Some(body);
    && NotEmpty(Get(b, "nombre"))
    && FloatMin0(Get(b, "calorias")) && FloatMin0(Get(b, "proteinas"))
    && FloatMin0(Get(b, "carbohidratos")) && FloatMin0(Get(b, "grasas"))
    && OptionalFloatMin0(Get(b, "azucares")) && OptionalFloatMin0(Get(b, "grasasSaturadas"))
    && OptionalFloatMin0(Get(b, "fibra")) && OptionalFloatMin0(Get(b, "sal"))
    && OptionalFloatMin0(Get(b, "porcion"))
  }

  /** The same rules guard updates, so an update must resend the name and the
      four macros: a body that only renames a product is refused. */
  lemma RenameOnlyUpdateRejected(nombre: string)
    ensures !ProductBodyValid(JObj(map["nombre" := JStr(nombre)]))
  {
    assert Get(Some(JObj(map["nombre" := JStr(nombre)])), "calorias").None?;
  }

  /** A name and the four macros, zero allowed, are all a product body
      needs. */
  lemma MinimalProductAccepted(nombre: string, cal: real, prot: real, carb: real, gras: real)
    requires nombre != "" && cal >= 0.0 && prot >= 0.0 && carb >= 0.0 && gras >= 0.0
    ensures ProductBodyValid(JObj(map["nombre" := JStr(nombre), "calorias" := JNum(cal),
      "proteinas" := JNum(prot), "carbohidratos" := JNum(carb), "grasas" := JNum(gras)]))
  {
    var b := Some(JObj(map["nombre" := JStr(nombre), "calorias" := JNum(cal),
      "proteinas" := JNum(prot), "carbohidratos" := JNum(carb), "grasas" := JNum(gras)]));
    assert Get(b, "nombre") == Some(JStr(nombre));
    assert Get(b, "calorias") == Some(JNum(cal));
    assert Get(b, "proteinas") == Some(JNum(prot));
    assert Get(b, "carbohidratos") == Some(JNum(carb));
    assert Get(b, "grasas") == Some(JNum(gras));
    assert Get(b, "azucares").None? && Get(b, "grasasSaturadas").None?;
    assert Get(b, "fibra").None? && Get(b, "sal").None? && Get(b, "porcion").None?;
  }

  // ----- recipes -----

  /** `recipeValidator`: a non-empty name, a final weight above zero, the four
      macros at least zero, optional extras at least zero, and at least one
      ingredient. */
  predicate RecipeBodyValid(body: Json) {
    var b := Some(body);
    && NotEmpty(Get(b, "nombre"))
    && FloatGt0(Get(b, "pesoFinal"))
    && FloatMin0(Get(b, "calorias")) && FloatMin0(Get(b, "proteinas"))
    && FloatMin0(Get(b, "carbohidratos")) && FloatMin0(Get(b, "grasas"))
    && OptionalFloatMin0(Get(b, "azucares")) && OptionalFloatMin0(Get(b, "grasasSaturadas"))
    && OptionalFloatMin0(Get(b, "fibra"))
    && ArrayMin(Get(b, "ingredientes"), 1)
  }

  /** A recipe body with a zero final weight, or an empty ingredient list, is
      refused whatever else it carries. */
  lemma RecipeRejections(body: Json)
    ensures Get(Some(body), "pesoFinal") == Some(JNum(0.0)) ==> !RecipeBodyValid(body)
    ensures Get(Some(body), "ingredientes") == Some(JArr([])) ==> !RecipeBodyValid(body)
  {
  }

  // ----- users -----

  /** `userRegisterValidator` without the e-mail syntax check, which is
      passed in as `correoOk`. `sexo`, `objetivo` and `actividad` are only
      required to be non-empty here. */
  predicate RegisterBodyValid(body: Json, correoOk: bool) {
    var b := Some(body);
    && NotEmpty(Get(b, "nombre")) && NotEmpty(Get(b, "apellido"))
    && correoOk
    && MinLength(Get(b, "password"), 6)
    && FloatGt0(Get(b, "peso")) && FloatGt0(Get(b, "altura"))
    && IntGt0(Get(b, "edad"))
    && NotEmpty(Get(b, "sexo")) && NotEmpty(Get(b, "objetivo")) && NotEmpty(Get(b, "actividad"))
  }

  /** `passwordResetValidator`. */
  predicate PasswordResetBodyValid(body: Json) {
    MinLength(Get(Some(body), "newPassword"), 6)
  }

  /** The registration rules are weaker than the user schema: an activity
      level outside the five the schema allows passes them, and only the
      schema's enum check on save refuses it. */
  lemma RegisterAcceptsUnknownActividad()
    ensures var body := JObj(map[
      "nombre" := JStr("Ana"), "apellido" := JStr("Ruiz"), "password" := JStr("secreto"),
      "peso" := JNum(60.0), "altura" := JNum(165.0), "edad" := JNum(30.0),
      "sexo" := JStr("femenino"), "objetivo" := JStr("mantenerse"), "actividad" := JStr("extremo")]);
      RegisterBodyValid(body, true) && "extremo" !in UserModel.ActividadValues
  {
    var b := Some(JObj(map[
      "nombre" := JStr("Ana"), "apellido" := JStr("Ruiz"), "password" := JStr("secreto"),
      "peso" := JNum(60.0), "altura" := JNum(165.0), "edad" := JNum(30.0),
      "sexo" := JStr("femenino"), "objetivo" := JStr("mantenerse"), "actividad" := JStr("extremo")]));
    assert Get(b, "nombre") == Some(JStr("Ana"));
    assert Get(b, "apellido") == Some(JStr("Ruiz"));
    assert Get(b, "password") == Some(JStr("secreto"));
    assert Get(b, "peso") == Some(JNum(60.0));
    assert Get(b, "altura") == Some(JNum(165.0));
    assert Get(b, "edad") == Some(JNum(30.0));
    assert Get(b, "sexo") == Some(JStr("femenino"));
    assert Get(b, "objetivo") == Some(JStr("mantenerse"));
    assert Get(b, "actividad") == Some(JStr("extremo"));
    PlainRegistrationAccepted(b.value, true, "Ana", "Ruiz", "secreto", 60.0, 165.0, 30, "femenino", "mantenerse", "extremo");
  }

  /** A body of plain strings and numbers passes registration when the
      names and the three enum fields are non-empty, the password has at
      least six characters, weight and height are positive and the age is a
      positive whole number, whatever the enum fields say. */
  lemma PlainRegistrationAccepted(body: Json, correoOk: bool, nombre: string, apellido: string, password: string,
                                  peso: real, altura: real, edad: nat,
                                  sexo: string, objetivo: string, actividad: string)
    requires correoOk && nombre != "" && apellido != "" && |password| >= 6 && peso > 0.0 && altura > 0.0 && edad > 0
    requires sexo != "" && objetivo != "" && actividad != ""
    requires var b := Some(body);
      && Get(b, "nombre") == Some(JStr(nombre)) && Get(b, "apellido") == Some(JStr(apellido))
      && Get(b, "password") == Some(JStr(password))
      && Get(b, "peso") == Some(JNum(peso)) && Get(b, "altura") == Some(JNum(altura))
      && Get(b, "edad") == Some(JNum(edad as real))
      && Get(b, "sexo") == Some(JStr(sexo)) && Get(b, "objetivo") == Some(JStr(objetivo))
      && Get(b, "actividad") == Some(JStr(actividad))
    ensures RegisterBodyValid(body, correoOk)
  {
    assert (edad as real).Floor == edad;
  }

  /** A fractional age, a five-character password, or a zero height fails
      registration whatever the rest of the body holds. */
  lemma RegisterRejections(body: Json, correoOk: bool)
    ensures Get(Some(body), "edad") == Some(JNum(30.5)) ==> !RegisterBodyValid(body, correoOk)
    ensures Get(Some(body), "password") == Some(JStr("12345")) ==> !RegisterBodyValid(body, correoOk)
    ensures Get(Some(body), "altura") == Some(JNum(0.0)) ==> !RegisterBodyValid(body, correoOk)
  {
    assert (30.5).Floor == 30;
  }
}

=== FILE: weight.dfy ===
/** The two weight views over a user's daily logs: the full history in
    chronological order, and the mean of the last seven days. */
module WeightViews {
  import opened Common
  import opened DailyLogModel
  import Calendar
  import Seqs
  import DailyLogs

  /** One history entry, `{ fecha, peso }`. */
  datatype Punto = Punto(fecha: int, peso: Option<real>)

  /** The query condition of the history: the user's logs whose
      `pesoDelDia` exists and is not `null`. */
  predicate Pesado(l: DailyLog, userId: Id) {
    l.userId == userId && l.pesoDelDia.Some?
  }

  /** The weighed logs of the user, oldest first. */
  function Ordenados(store: DailyLogs.Store, userId: Id): (logs: seq<DailyLog>)
    ensures multiset(logs) == multiset(Seqs.Filter(store, (l: DailyLog) => Pesado(l, userId)))
    ensures |logs| == |Seqs.Filter(store, (l: DailyLog) => Pesado(l, userId))|
    ensures Seqs.SortedBy(logs, (l: DailyLog) => l.fecha)
    ensures forall i :: 0 <= i < |logs| ==> Pesado(logs[i], userId) && logs[i] in store
    ensures forall k :: 0 <= k < |store| && Pesado(store[k], userId) ==> store[k] in logs
  {
    var mine := Seqs.Filter(store, (l: DailyLog) => Pesado(l, userId));
    var logs := Seqs.SortBy(mine, (l: DailyLog) => l.fecha);
    logs
  }

  /** `({ fecha: log.fecha, peso: log.pesoDelDia })`. */
  function ToPunto(l: DailyLog): Punto {
    Punto(l.fecha, l.pesoDelDia)
  }

  /** `p` is the date and weight of one of the user's weighed logs. */
  ghost predicate DeUnLog(store: DailyLogs.Store, userId: Id, p: Punto) {
    exists k :: 0 <= k < |store| && Pesado(store[k], userId) && p == ToPunto(store[k])
  }

  /** `getHistorialPeso`: the weighed logs, oldest first, each reduced to its
      date and weight. */
  function Historial(store: DailyLogs.Store, userId: Id): (r: seq<Punto>)
    ensures |r| == |Seqs.Filter(store, (l: DailyLog) => Pesado(l, userId))|
    ensures multiset(r) == multiset(Seqs.Map(Seqs.Filter(store, (l: DailyLog) => Pesado(l, userId)), ToPunto))
    ensures forall i :: 0 <= i < |r| ==> r[i].peso.Some?
    ensures forall i, j :: 0 <= i < j < |r| ==> r[i].fecha <= r[j].fecha
    ensures forall i :: 0 <= i < |r| ==> DeUnLog(store, userId, r[i])
    ensures forall k :: 0 <= k < |store| && Pesado(store[k], userId) ==> ToPunto(store[k]) in r
  {
    var logs := Ordenados(store, userId);
    var r := Seqs.Map(logs, ToPunto);
    PuntosCover(store, userId, logs, r);
    Seqs.MapPermutation(logs, Seqs.Filter(store, (l: DailyLog) => Pesado(l, userId)), ToPunto);
    r
  }

  lemma PuntosCover(store: DailyLogs.Store, userId: Id, logs: seq<DailyLog>, r: seq<Punto>)
    requires forall i :: 0 <= i < |logs| ==>
      logs[i] in store && logs[i].userId == userId && logs[i].pesoDelDia.Some?
    requires forall k :: 0 <= k < |store| && Pesado(store[k], userId) ==> store[k] in logs
    requires |r| == |logs| && forall i :: 0 <= i < |logs| ==> r[i] == ToPunto(logs[i])
    ensures forall i :: 0 <= i < |r| ==> DeUnLog(store, userId, r[i])
    ensures forall k :: 0 <= k < |store| && Pesado(store[k], userId) ==> ToPunto(store[k]) in r
  {
    forall k | 0 <= k < |store| && Pesado(store[k], userId) ensures ToPunto(store[k]) in r {
      var i :| 0 <= i < |logs| && logs[i] == store[k];
      assert r[i] == ToPunto(store[k]);
    }
    forall i | 0 <= i < |r| ensures DeUnLog(store, userId, r[i]) {
      var k :| 0 <= k < |store| && store[k] == logs[i];
      assert Pesado(store[k], userId) && r[i] == ToPunto(store[k]);
    }
  }

  /** `setDate(getDate() - 7)` under a fixed offset: exactly seven days of
      milliseconds before `now`. */
  function SieteDiasAtras(now: int): int {
    now - 7 * Calendar.DayMs
  }

  /** The query condition of the weekly mean. */
  predicate EnVentana(l: DailyLog, userId: Id, now: int) {
    Pesado(l, userId) && l.fecha >= SieteDiasAtras(now)
  }

  /** The samples of the weekly mean, in store order. */
  function Ventana(store: DailyLogs.Store, userId: Id, now: int): (w: seq<DailyLog>)
    ensures forall i :: 0 <= i < |w| ==> EnVentana(w[i], userId, now) && w[i] in store
    ensures forall k :: 0 <= k < |store| && EnVentana(store[k], userId, now) ==> store[k] in w
  {
    Seqs.Filter(store, (l: DailyLog) => EnVentana(l, userId, now))
  }

  /** The sum of the weights, added left to right as `reduce` does. */
  function SumaPesos(w: seq<DailyLog>): real
    requires forall i :: 0 <= i < |w| ==> w[i].pesoDelDia.Some?
  {
    if |w| == 0 then 0.0 else SumaPesos(w[..|w| - 1]) + w[|w| - 1].pesoDelDia.value
  }

  /** The answer of the weekly mean: `media` is `null` exactly when there are
      no samples. */
  datatype MediaSemanal = MediaSemanal(media: Option<real>, diasConDatos: nat)

  /** The weekly mean: no samples gives `{ media: null, diasConDatos: 0 }`,
      which is a normal answer and not an error; otherwise the count and the
      mean rounded to hundredths. */
  function Media(store: DailyLogs.Store, userId: Id, now: int): (r: MediaSemanal)
    ensures r.diasConDatos == |Ventana(store, userId, now)|
    ensures r.media.None? <==> r.diasConDatos == 0
    ensures r.media.Some? ==>
      var exacta := SumaPesos(Ventana(store, userId, now)) / r.diasConDatos as real;
      -1.0 / 200.0 <= r.media.value - exacta <= 1.0 / 200.0
    ensures r.media.Some? ==> (r.media.value * 100.0).Floor as real == r.media.value * 100.0
  {
    var w := Ventana(store, userId, now);
    if |w| == 0 then MediaSemanal(None, 0)
    else MediaSemanal(Some(Round2(SumaPesos(w) / |w| as real)), |w|)
  }

  /** `getMediaSemanalPeso`: the query, the early answer for no samples, the
      `reduce` and the rounding. */
  method GetMediaSemanalPeso(store: DailyLogs.Store, userId: Id, now: int) returns (r: MediaSemanal)
    ensures r == Media(store, userId, now)
  {
    var logs := Ventana(store, userId, now);
    if |logs| == 0 {
      return MediaSemanal(None, 0);
    }
    var suma := 0.0;
    var i := 0;
    while i < |logs|
      invariant 0 <= i <= |logs|
      invariant suma == SumaPesos(logs[..i])
    {
      assert logs[..i + 1][..i] == logs[..i];
      suma := suma + logs[i].pesoDelDia.value;
      i := i + 1;
    }
    assert logs[..i] == logs;
    var media := suma / |logs| as real;
    r := MediaSemanal(Some(Round2(media)), |logs|);
  }

  /** The sum of `n` weights that all lie in `[lo, hi]` lies in
      `[n * lo, n * hi]`. */
  lemma {:induction false} SumaBounds(w: seq<DailyLog>, lo: real, hi: real)
    requires forall i :: 0 <= i < |w| ==> w[i].pesoDelDia.Some?
    requires forall i :: 0 <= i < |w| ==> lo <= w[i].pesoDelDia.value <= hi
    ensures |w| as real * lo <= SumaPesos(w) <= |w| as real * hi
  {
    if |w| > 0 {
      var p := w[..|w| - 1];
      assert forall i :: 0 <= i < |p| ==> p[i] == w[i];
      SumaBounds(p, lo, hi);
      var n := |p| as real;
      var x := w[|w| - 1].pesoDelDia.value;
      assert SumaPesos(w) == SumaPesos(p) + x;
      assert |w| as real * lo == n * lo + lo && |w| as real * hi == n * hi + hi;
    }
  }

  /** Before rounding, the weekly mean lies between the smallest and the
      largest sample; after rounding it is off by at most half a hundredth. */
  lemma MediaBetweenMinAndMax(store: DailyLogs.Store, userId: Id, now: int, lo: real, hi: real)
    requires forall k :: 0 <= k < |store| && EnVentana(store[k], userId, now) ==>
      lo <= store[k].pesoDelDia.value <= hi
    ensures var w := Ventana(store, userId, now);
      |w| > 0 ==> lo <= SumaPesos(w) / |w| as real <= hi
    ensures var m := Media(store, userId, now);
      m.media.Some? ==> lo - 1.0 / 200.0 <= m.media.value <= hi + 1.0 / 200.0
  {
    var w := Ventana(store, userId, now);
    if |w| > 0 {
      ExactMeanBounded(store, userId, now, lo, hi);
      var m := Media(store, userId, now);
      var exacta := SumaPesos(w) / |w| as real;
      assert -1.0 / 200.0 <= m.media.value - exacta <= 1.0 / 200.0;
    }
  }

  lemma ExactMeanBounded(store: DailyLogs.Store, userId: Id, now: int, lo: real, hi: real)
    requires forall k :: 0 <= k < |store| && EnVentana(store[k], userId, now) ==>
      lo <= store[k].pesoDelDia.value <= hi
    requires |Ventana(store, userId, now)| > 0
    ensures var w := Ventana(store, userId, now);
      lo <= SumaPesos(w) / |w| as real <= hi
  {
    var w := Ventana(store, userId, now);
    WindowBounded(store, userId, now, lo, hi);
    MeanBounded(w, lo, hi);
  }

  lemma MeanBounded(w: seq<DailyLog>, lo: real, hi: real)
    requires |w| > 0
    requires forall i :: 0 <= i < |w| ==> w[i].pesoDelDia.Some?
    requires forall i :: 0 <= i < |w| ==> lo <= w[i].pesoDelDia.value <= hi
    ensures lo <= SumaPesos(w) / |w| as real <= hi
  {
    var s := SumaPesos(w);
    var n := |w| as real;
    SumaBounds(w, lo, hi);
    DivBounds(s, n, lo, hi);
  }

  lemma WindowBounded(store: DailyLogs.Store, userId: Id, now: int, lo: real, hi: real)
    requires forall k :: 0 <= k < |store| && EnVentana(store[k], userId, now) ==>
      lo <= store[k].pesoDelDia.value <= hi
    ensures var w := Ventana(store, userId, now);
      forall i :: 0 <= i < |w| ==> lo <= w[i].pesoDelDia.value <= hi
  {
    var w := Ventana(store, userId, now);
    forall i | 0 <= i < |w| ensures lo <= w[i].pesoDelDia.value <= hi {
      var k :| 0 <= k < |store| && store[k] == w[i];
    }
  }

  lemma DivBounds(s: real, n: real, lo: real, hi: real)
    requires n > 0.0 && n * lo <= s <= n * hi
    ensures lo <= s / n <= hi
  {
    assert s / n * n == s;
  }

  /** Every sample of the history has a weight and belongs to the user; a
      user with no weighed log has an empty history and no weekly mean. */
  lemma NoWeightsNoHistory(store: DailyLogs.Store, userId: Id, now: int)
    requires forall k :: 0 <= k < |store| ==> !Pesado(store[k], userId)
    ensures Historial(store, userId) == []
    ensures Media(store, userId, now) == MediaSemanal(None, 0)
  {
  }

  /** Two samples, 70 and 71 kg, two and three days old, and one of 90 kg
      eight days old: the mean is 70.5 over two days. */
  lemma WeeklyMeanExample(u: Id, now: int, c: Comidas)
    ensures var l1 := DailyLog("a", u, now - 2 * Calendar.DayMs, Some(70.0), c);
      var l2 := DailyLog("b", u, now - 3 * Calendar.DayMs, Some(71.0), c);
      var viejo := DailyLog("c", u, now - 8 * Calendar.DayMs, Some(90.0), c);
      Media([l1, viejo, l2], u, now) == MediaSemanal(Some(70.5), 2)
  {
    var l1 := DailyLog("a", u, now - 2 * Calendar.DayMs, Some(70.0), c);
    var l2 := DailyLog("b", u, now - 3 * Calendar.DayMs, Some(71.0), c);
    var viejo := DailyLog("c", u, now - 8 * Calendar.DayMs, Some(90.0), c);
    var s := [l1, viejo, l2];
    var w := [l1, l2];
    ExampleWindow(u, now, l1, viejo, l2);
    SumaDos(l1, l2);
    Round2Exact();
  }

  lemma SumaDos(a: DailyLog, b: DailyLog)
    requires a.pesoDelDia.Some? && b.pesoDelDia.Some?
    ensures SumaPesos([a, b]) == a.pesoDelDia.value + b.pesoDelDia.value
  {
    assert [a, b][..1] == [a] && [a][..0] == [];
    assert SumaPesos([a]) == SumaPesos([]) + a.pesoDelDia.value;
  }

  lemma ExampleWindow(u: Id, now: int, l1: DailyLog, viejo: DailyLog, l2: DailyLog)
    requires EnVentana(l1, u, now) && !EnVentana(viejo, u, now) && EnVentana(l2, u, now)
    ensures Ventana([l1, viejo, l2], u, now) == [l1, l2]
  {
    var s := [l1, viejo, l2];
    var p := (l: DailyLog) => EnVentana(l, u, now);
    assert s[1..] == [viejo, l2] && s[1..][1..] == [l2] && [l2][1..] == [];
    assert Seqs.Filter([l2], p) == [l2];
    assert Seqs.Filter([viejo, l2], p) == [l2];
  }

  lemma Round2Exact()
    ensures Round2(141.0 / 2.0) == 70.5
  {
    assert Round(141.0 / 2.0 * 100.0) == 7050;
  }
}
